=== FILE: README.md ===
# lightfield framework: TGA loader, half-float codec, integer helpers

A Dafny model of the byte- and bit-level core of the `fw` framework of the
lightfield demos (`Framework.cpp`, `Framework.hpp`):

- the TGA loader `Tga::Load`, its six type-specific routines
  (`_LoadColourMapped`, `_LoadLuminance`, `_LoadUnmapped`,
  `_LoadUnmappedRle`, `_LoadColourMappedRle`, `_LoadLuminanceRle`) and
  `_Flip`, reading the layout of the Truevision TGA File Format
  Specification, version 2.0;
- the branch-free conversions `float_to_half` and `half_to_float` between
  IEEE 754-2008 binary32 and binary16 bit patterns (clause 3.6), with
  `_unsigned_sels` and the portable `_unsigned_cntlz`;
- `_unpack_uint16`, `is_power_of_two` and `next_power_of_two`;
- the file `save_gl_front_buffer` writes: the viewport check, the file
  name, the 18-byte TGA header and the pixel bytes.

Modules:

| file | module | contents |
|---|---|---|
| outcome.dfy | `Outcomes` | `Outcome<T> = Done | Thrown(message) | Undefined`, `Option<T>` |
| bits.dfy | `Bits` | `_unpack_uint16`, `GLchar` bytes read signed as on x86, little-endian integers, 5-5-5 words |
| power_of_two.dfy | `PowerOfTwo` | `is_power_of_two`, `next_power_of_two` (a method with its loop) |
| half.dfy | `Half` | both conversions transcribed on `bv32`/`bv16`, their meaning as IEEE fields, the round trip, the corrected `float_to_half` |
| rle.dfy | `Rle` | the run-length packet scheme shared by types 9, 10 and 11, and a packet writer |
| tga_pixels.dfy | `TgaPixels` | reads, 16-bit word expansion, colour-map lookup, `_Flip` and the vertical mirror |
| tga.dfy | `Tga` | header fields, the six loaders, dispatch, `Tga::Load` |
| tga_properties.dfy | `TgaProperties` | what `Load` does with whole files |
| tga_findings.dfy | `TgaFindings` | loader defects with their as-written and intended halves |
| screenshot.dfy | `Screenshot` | `save_gl_front_buffer`'s file, and the loader reading it back |

How the C++ is represented:

- A file is `Option<seq<bv8>>`: `None` when it cannot be opened. After the
  18 header bytes the rest of the file is the stream. `seekg(n, cur)` drops
  `n` bytes; reading past the end of the stream fails.
- An escaping `FWException` is `Thrown(message)`, with the exact message
  text. The messages include the `_TgaLoaderException` rewrapping done by
  `Load`'s `catch` clause.
- `Undefined` marks inputs on which the C++ has undefined behaviour or
  leaves bytes indeterminate:
  - a read or write outside a buffer;
  - `int` overflow of `mWidth * mHeight` in `Tga::Load`, of
    `mWidth * mHeight * mPixelFormat` in the loaders, and of
    `tgaWidth * tgaHeight * 3` in `save_gl_front_buffer`;
  - pixel or colour-map bytes a short read never filled, and a header
    shorter than 18 bytes.

  The model claims nothing about what the program does there. The
  `Undefined` cases are stated in contracts and lemmas:
  - the overflows in `Tga.LoadHeader`, `Tga.Direct`, `Tga.DirectRle`,
    `Tga.DirectRle16`, `Tga.LoadUnmapped`, `Tga.Mapped` and
    `Screenshot.SaveFrontBuffer`;
  - the short header in `Tga.Load`;
  - the out-of-bounds accesses in `TgaPixels.IndexPastMap`,
    `TgaPixels.FlipDefined`, `Rle.PacketOverrun`,
    `TgaFindings.Map16Overrun`, `TgaFindings.Rle16Overrun` and
    `Screenshot.ReadFits`;
  - short reads in `Tga.Direct` and `TgaPixels.ExpandWords`; for the
    index reads only through what a `Done` result implies
    (`TgaPixels.IndexedAt`: every index was there to read).
- The header is the `GLchar` array the loader reads it into. `GLchar` is
  plain `char`, whose signedness the C++ standard leaves to the
  implementation; the model takes it signed, as on x86.
  `Signed(b)` gives the two's-complement value a byte takes in `int`
  arithmetic. The unmapped skip is stored into a `GLuint` (mod 2^32), the
  colour-mapped skip into a `GLushort` (mod 2^16).
- `float_to_half` shifts by `(int)f_m_denorm_sa`, which is negative for
  every exponent except 112 and 113 (`Half.ShiftAmountDefined`). That is
  undefined in C for almost every input, normal values, infinities and
  NaNs included. The shift is modelled as x86 executes it, on the amount's
  low five bits (`amount & 31`), so every `float_to_half` lemma rests on
  that reading. Outside the underflow branch (exponent 112 or below) the
  selects discard the shifted value, so there the reading does not change
  the result. In the subnormal range the low five bits are the intended
  shift (`Half.SubnormalShiftAmount`).

Where the code and the documented behaviour of the framework disagree, the
model follows the code. The disagreements:

- `float_to_half` rounds ties away from zero: it adds one unit when bit 12
  is set, with no even test. It is not round-to-nearest-even.
- It does not saturate to infinity above the binary16 range.
- The skips are not "ID field plus colour-map block". The unmapped loaders
  skip `h[0] + h[1] * (first entry + length * (h[7] >> 3))`. The
  colour-mapped loaders skip `first entry + h[0]`, then read the colour
  map.
- The flip reads row `width - y`, not `height - 1 - y`. The 2x2 flipped
  example is therefore out of bounds (`TgaProperties.LoadTwoByTwoFlipped`),
  not row-reversed.
- The colour-map length is read with its two bytes swapped.
- Entry sizes are accepted by `h[7] >> 3` being 2, 3 or 4, that is any
  `h[7]` from 16 to 39, not only 16, 24 and 32.

## Model

| member | source | states |
|---|---|---|
| Bits.Unpack16 | Framework.cpp:81-83 | `_unpack_uint16` yields a value that fits a `GLushort` |
| Bits.Unpack16Bytes | Framework.cpp:81-83 | the first argument is the high byte and the second the low byte of the result |
| Bits.Unpack16OfBytes | Framework.cpp:81-83 | splitting any 16-bit value into high and low byte and unpacking them gives the value back |
| Bits.ByteOfValue | Framework.cpp:376-377 | storing an `int` into a byte (`& 255`) keeps its value modulo 256 |
| Bits.Signed | Framework.cpp:1365-1366 | a `GLchar` header byte takes part in arithmetic as a value in -128..127 that is negative exactly when its top bit is set and congruent to the byte mod 256 |
| Bits.SignedOfStored | Framework.cpp:369-380 | a small `int` stored into a `GLchar` reads back as itself |
| Bits.LittleEndianBound | Framework.cpp:984-987 | `n` bytes read into a zeroed integer on a little-endian host hold a value below 256^n |
| Bits.LittleEndianOfTo | Framework.cpp:984-987 | writing a value that fits into `n` little-endian bytes and reading it back gives the value |
| Bits.ToOfLittleEndian | Framework.cpp:984-987 | reading `n` bytes as a little-endian value and writing it back gives the bytes |
| Bits.Expand555 | Framework.cpp:1057-1059 | a 16-bit word expands to three channel bytes whose low three bits are clear |
| Bits.Pack555OfExpand | Framework.cpp:1057-1059 | the 5-5-5 expansion loses nothing but bit 15 of the word |
| Bits.Expand555OfPack | Framework.cpp:1057-1059 | channels with clear low bits survive packing into a word and expanding it |
| PowerOfTwo.IsPowerOfTwoOneBit | Framework.cpp:189-191 | `is_power_of_two` holds exactly when the number has one set bit (population count 1) |
| PowerOfTwo.SmearBits | Framework.cpp:199-201 | the `for` loop with shifts 1, 2, 4, 8, 16 computes the five-step bit smear |
| PowerOfTwo.NextPowerOfTwo | Framework.cpp:196-203 | 0 gives 1; for 1..2^31 the result is a power of two at least `number` whose half is below `number`, and a power of two maps to itself; above 2^31 the result wraps to 0 |
| Half.Sels | Framework.cpp:627-634 | `_unsigned_sels` yields `a` when the sign bit of `test` is set and `b` otherwise |
| Half.CntlzCountsLeadingZeros | Framework.cpp:637-671 | the portable count of leading zeros is 32 exactly for 0, and otherwise the leading one sits at bit `31 - count` |
| Half.HalfToFloatZero | Framework.cpp:739-791 | a signed binary16 zero becomes the binary32 zero with the same sign |
| Half.HalfToFloatNormal | Framework.cpp:739-791 | a normal binary16 value keeps its sign, has its exponent rebiased from 15 to 127, and its significand moved to the top of the 23-bit field |
| Half.HalfToFloatSubnormal | Framework.cpp:739-791 | a binary16 subnormal becomes a normal binary32 value with the same sign and an exponent from 103 to 112, whose significand with its hidden bit is the 10-bit significand shifted up by `126 - exponent` with nothing lost |
| Half.HalfToFloatInfinity | Framework.cpp:739-791 | infinities keep their sign |
| Half.HalfToFloatNaN | Framework.cpp:739-791 | a NaN stays a NaN with its sign, and its payload moves to the top of the binary32 significand |
| Half.FloatToHalfNormalRounding | Framework.cpp:675-736 | in the binary16 normal range the result is the significand rounded half away from zero at bit 12, under the exponent rebiased from 127 to 15, a carry moving into the exponent |
| Half.FloatToHalfSubnormal | Framework.cpp:675-736 | for binary16 subnormal results whose rounding does not carry, the significand is rounded at bit 12 and shifted down to the subnormal precision |
| Half.FloatToHalfSpecials | Framework.cpp:675-736 | infinities keep their sign; a NaN with the top significand bit set becomes 0x7e00 with the input's sign |
| Half.RoundTrip | Framework.cpp:675-791 | `float_to_half(half_to_float(h)) == h` for every binary16 pattern that is not a NaN |
| Half.NaNRoundTripLost | Framework.cpp:675-791 | the NaN 0x7c01 does not survive the round trip: it comes back as the finite 0x3c01 |
| Half.FloatToHalfNoSaturation | Framework.cpp:700-735 | 2^17 (0x48000000) converts to negative zero instead of infinity |
| Half.FloatToHalfKeepsSign | Framework.cpp:702-734 | a negative input always gives a result with bit 15 set, since the sign is OR-ed in on every path |
| Half.FloatToHalfSignalingNaN | Framework.cpp:700-735 | the signalling NaN 0x7f802000 (quiet bit clear) converts to the finite 0x3c01 |
| Half.FloatToHalfUnderflowCarry | Framework.cpp:700-735 | the positive subnormal-range input 0x377ff000, whose rounding carries, converts to negative infinity |
| Half.FloatToHalfShiftWrap | Framework.cpp:703-711 | 2^-46 converts to 2^-14: the shift amount is 0xfffffe20 (-480 as an `int`), whose low five bits are 0 |
| Half.ShiftAmountDefined | Framework.cpp:703-711 | the shift amount is a valid `int` shift (below 2^31, indeed below 32) exactly at exponents 112 and 113, where it is 1 and 0 |
| Half.SubnormalShiftAmount | Framework.cpp:703-711 | for every binary16 subnormal result with exponent 102 to 111 the shift amount is 2^31 or more (a negative `int`), and its low five bits are the intended shift `113 - exponent` |
| Half.CorrectedAgrees | Framework.cpp:675-736 | the corrected conversion equals `float_to_half` in the normal range, for non-carrying subnormal results, for infinities and for NaNs with the quiet bit set |
| Half.CorrectedOverflow | Framework.cpp:675-736 | with the correction, a finite value becomes infinity exactly when it is at least 65520 |
| Half.CorrectedNaN | Framework.cpp:675-736 | with the correction, NaNs and only NaNs become NaNs |
| Half.CorrectedFiniteMagnitude | Framework.cpp:675-736 | with the correction, a finite input never becomes a NaN |
| Half.CorrectedSignBit | Framework.cpp:731-734 | the corrected result carries the input's sign bit |
| Half.CorrectedSubnormalMagnitude | Framework.cpp:675-736 | with the correction, inputs in the binary16 subnormal range give at most the smallest normal 0x400 in magnitude, never an infinity |
| Half.CorrectedUnderflowToZero | Framework.cpp:675-736 | with the correction, values below half the smallest subnormal become signed zeros |
| Half.CorrectedRoundTrip | Framework.cpp:675-791 | the corrected conversion is still a left inverse of `half_to_float` on every non-NaN pattern |
| Half.CorrectedNaNRoundTrip | Framework.cpp:675-791 | with the correction, a NaN survives the round trip as a NaN, bit for bit when its quiet bit is clear |
| Half.CorrectedExamples | Framework.cpp:675-736 | the corrected results on the four exposing inputs: infinity, a NaN, the subnormal 0x0100 and zero |
| Rle.BlockSize | Framework.cpp:1148 | `1 + (header & 0x7F)` is a packet length from 1 to 128 |
| Rle.Expand | Framework.cpp:1139-1161 | the packet loop never throws and, when it succeeds, yields exactly `count` elements of `size` bytes |
| Rle.RunHeaderCount | Framework.cpp:1148-1152 | a run header written for length `n` decodes to block size `n` |
| Rle.RawHeaderCount | Framework.cpp:1148-1158 | a raw header written for length `n` decodes to block size `n` |
| Rle.RunHeaderIsRun | Framework.cpp:1150 | a run header has the high bit the loaders test |
| Rle.RawHeaderIsRaw | Framework.cpp:1150 | a raw header does not |
| Rle.ElementsLength | Framework.cpp:1142-1161 | valid packets stand for `Total * size` bytes of elements |
| Rle.ExpandPacket | Framework.cpp:1147-1160 | decoding one encoded packet and anything after it yields that packet's elements followed by the decoding of the rest |
| Rle.ExpandEncoded | Framework.cpp:1142-1161 | packets that tile the pixel count exactly decode to the elements they stand for, whatever follows them |
| Rle.ExpandLastPacket | Framework.cpp:1142-1161 | a single packet covering all the elements, with nothing after it, decodes to its run repeated or its raw elements |
| Rle.PacketOverrun | Framework.cpp:1150-1160 | a packet longer than the elements still missing is never clipped: it writes past the buffer |
| TgaPixels.Words555 | Framework.cpp:1051-1060 | `count` words expand to `3 * count` bytes |
| TgaPixels.Words555At | Framework.cpp:1054-1060 | pixel `i` of the expansion is word `i` expanded |
| TgaPixels.ExpandWords | Framework.cpp:1051-1060 | the 16-bit truecolor loop succeeds exactly when `2 * count` bytes are there, giving three bytes per pixel |
| TgaPixels.MapOffset | Framework.cpp:990 | the byte offset `index * mPixelFormat` of an entry is taken modulo 2^32, as `GLuint` arithmetic does, and equals the product when that fits |
| TgaPixels.Indexed | Framework.cpp:980-992 | the index loop never throws and, when it succeeds, yields `count * pf` bytes |
| TgaPixels.IndexedAt | Framework.cpp:984-992 | where the lookup succeeds, pixel `i` is the `pf` map bytes at the wrapped offset of the `i`-th little-endian index, and that offset lies inside the map |
| TgaPixels.IndexedIgnoresTail | Framework.cpp:981-992 | the lookup reads `count * bytesPerIndex` bytes and nothing after them |
| TgaPixels.IndexPastMap | Framework.cpp:989-991 | nothing checks an index against the map length: an index whose wrapped offset puts the entry past the map reads outside it |
| TgaPixels.NarrowIndex | Framework.cpp:984-991 | for indices of at most three bytes the offset never wraps, so the entry is inside the map exactly when the index is below the map length, and it is then map entry `index` |
| TgaPixels.WrappedIndex | Framework.cpp:987-991 | a four-byte index 0x40000000 into a one-entry four-byte map wraps to offset 0 and reads that entry |
| TgaPixels.Mirror | Framework.cpp:912-922 | the intended flip keeps the buffer's length |
| TgaPixels.MirrorRow | Framework.cpp:912-922 | row `y` of the intended flip is row `height - 1 - y` of the image |
| TgaPixels.MirrorInvolution | Framework.cpp:912-922 | the intended flip applied twice gives the image back |
| TgaPixels.FlipFrom | Framework.cpp:914-919 | the flip loops from row `y` on never throw and, when in bounds, emit `height - y` rows |
| TgaPixels.Flip | Framework.cpp:912-922 | `_Flip` keeps the buffer's length where it stays in bounds |
| TgaPixels.FlipFromDefined | Framework.cpp:914-919 | from row `y` on, every source row `width - y'` is in the buffer exactly when `width < height + y` and `height <= width + 1` |
| TgaPixels.FlipDefined | Framework.cpp:912-922 | `_Flip` stays in bounds exactly when the image is one row taller than wide |
| TgaPixels.FlipFromMirror | Framework.cpp:914-919 | on such an image, the flip loops from row `y` on emit the mirror of the first `height - y` rows |
| TgaPixels.FlipIsMirror | Framework.cpp:912-922 | where `_Flip` stays in bounds it is exactly the vertical mirror |
| Tga.WidthUnpacked | Framework.cpp:1369 | the width equals `_unpack_uint16(header[13], header[12])` |
| Tga.HeightUnpacked | Framework.cpp:1370 | the height equals `_unpack_uint16(header[15], header[14])` |
| Tga.MapLengthUnpacked | Framework.cpp:944 | the colour-map length equals `_unpack_uint16(header[5], header[6])` |
| Tga.UnmappedSkip | Framework.cpp:1008-1013 | the unmapped skip is stored into a `GLuint` |
| Tga.MappedSkip | Framework.cpp:931-932 | the colour-mapped skip is stored into a `GLushort` |
| Tga.Finish | Framework.cpp:1026-1028 | the flip test never throws, keeps the format and length, and leaves the pixels alone when descriptor bit 5 is clear |
| Tga.Direct | Framework.cpp:1062-1068 | a verbatim read yields `width * height * pf` bytes in format `pf` |
| Tga.DirectRle | Framework.cpp:1132-1162 | a run-length read yields `width * height * pf` bytes in format `pf` |
| Tga.LoadLuminance | Framework.cpp:1004-1029 | type 3 throws the bits-per-pixel message exactly when the depth is not 8 or 16, and otherwise yields format `depth >> 3` with `width * height` pixels |
| Tga.LoadUnmapped | Framework.cpp:1034-1075 | type 2 throws the bits-per-pixel message exactly when the depth is not 16, 24 or 32; 16-bit pixels become BGR, others keep `depth >> 3` bytes |
| Tga.Rle16AsWritten | Framework.cpp:1092-1130 | the 16-bit packet loop never throws; when a pixel is wanted and more than three bytes remain it is undefined, because `read(&rgb16, 16)` then overruns the 2-byte word; a result has three bytes per pixel |
| Tga.DirectRle16 | Framework.cpp:1092-1130 | the 16-bit run-length branch yields BGR with `width * height * 3` bytes |
| Tga.LoadUnmappedRle | Framework.cpp:1080-1170 | type 10 throws exactly for depths other than 16, 24, 32; a 16-bit image with a pixel is undefined whenever more than three bytes follow the skip |
| Tga.LoadLuminanceRle | Framework.cpp:1269-1320 | type 11 throws exactly for depths other than 8 and 16, and otherwise yields format `depth >> 3` |
| Tga.MappedChecks | Framework.cpp:934-975 | the colour-mapped checks pass exactly when the descriptor is 0, the depth nonzero, the map length at least 1 and the entry size 2, 3 or 4 bytes |
| Tga.Mapped | Framework.cpp:948-992 | a colour-mapped image that loads has 3 or 4-byte pixels, `width * height` of them, a product that fits an `int`, and at most four-byte indices |
| Tga.LoadColourMapped | Framework.cpp:927-1000 | type 1 throws exactly when a check fails, with that check's message; a loaded image is BGR or BGRA and never flipped |
| Tga.LoadColourMappedRle | Framework.cpp:1175-1265 | type 9 likewise, with the "descriptor byte" wording of the first message |
| Tga.Dispatch | Framework.cpp:1377-1392 | a dispatched loader that succeeds gives a pixel format 1..4 and `width * height * format` bytes |
| Tga.LoadHeader | Framework.cpp:1369-1401 | a loaded image has the header's width and height, both nonzero, a format 1..4 and `width * height * format` bytes |
| Tga.Load | Framework.cpp:1354-1404 | `Load` succeeds only on an openable file of at least 18 bytes, with the header's dimensions, a format 1..4 and a buffer of `width * height * format` bytes |
| TgaProperties.LoadSplits | Framework.cpp:1365-1370 | the first 18 bytes are the header and the rest is the stream |
| TgaProperties.LoadDispatches | Framework.cpp:1373-1397 | past the dimension checks, `Load` is the dispatch with its exception rewrapped |
| TgaProperties.LoadHeaderNamesFile | Framework.cpp:1373-1397 | every exception raised after the header is read starts with "In file " |
| TgaProperties.LoadMissingFile | Framework.cpp:1359-1362 | `_FileNotFoundException` escapes exactly when the file cannot be opened |
| TgaProperties.LoadRejectsEmptyImage | Framework.cpp:1373-1374 | a zero width or height is rejected with "In file F: Invalid TGA dimensions." whatever the type |
| TgaProperties.LoadRejectsUnknownType | Framework.cpp:1391-1396 | a type code outside 1, 2, 3, 9, 10, 11 gives the message naming the file twice |
| TgaProperties.LoadRejectsTruecolorDepth | Framework.cpp:1062-1070 | types 2 and 10 with a depth other than 16, 24, 32 give the rewrapped bits-per-pixel message |
| TgaProperties.LoadRejectsLuminanceDepth | Framework.cpp:1016-1024 | types 3 and 11 with a depth other than 8, 16 give the rewrapped bits-per-pixel message |
| TgaProperties.LoadRejectsMappedDescriptor | Framework.cpp:934-936 | types 1 and 9 with a nonzero descriptor give their two differently worded messages |
| TgaProperties.UnmappedSkipIdOnly | Framework.cpp:1008-1013 | with no colour map and an ID field under 128 bytes, the unmapped loaders skip exactly the ID field |
| TgaProperties.DirectCopies | Framework.cpp:1062-1068 | a verbatim read of unflipped data yields the bytes as stored |
| TgaProperties.DispatchCopies | Framework.cpp:1379-1384 | types 2 (24/32-bit) and 3 (8/16-bit) copy the bytes after the ID field |
| TgaProperties.LoadCopiesPixels | Framework.cpp:1062-1068 | a whole verbatim file loads with its pixel bytes exactly as stored after the ID field, format `depth >> 3` |
| TgaProperties.ExpandWordsPrefix | Framework.cpp:1051-1060 | the 16-bit loop reads exactly the words it needs |
| TgaProperties.UnmappedExpandsWords | Framework.cpp:1038-1060 | the 16-bit type-2 loader expands every stored word after the skip |
| TgaProperties.DispatchExpandsWords | Framework.cpp:1379-1380 | dispatched, a 16-bit type-2 stream expands to BGR |
| TgaProperties.LoadExpandsWords | Framework.cpp:1046-1060 | a whole 16-bit type-2 file loads as BGR, every stored word expanded to three bytes |
| TgaProperties.RleMatchesDirect | Framework.cpp:1132-1162 | run-length reading of packets equals verbatim reading of the elements they stand for |
| TgaProperties.UnmappedRleMatchesRaw | Framework.cpp:1132-1162 | type 10 (24/32-bit) gives what type 2 gives for the decoded elements |
| TgaProperties.LuminanceRleMatchesRaw | Framework.cpp:1269-1320 | type 11 gives what type 3 gives for the decoded elements |
| TgaProperties.MappedIndices | Framework.cpp:978-992 | the colour-mapped loaders take the map, then look up the indices, plain or decoded from packets |
| TgaProperties.ColourMappedRleMatchesRaw | Framework.cpp:1175-1265 | type 9 gives what type 1 gives for the indices the packets stand for |
| TgaProperties.ColourMappedPixel | Framework.cpp:984-992 | in a type-1 file that loads, pixel `i` is the `pf` colour-map bytes at index `i`'s offset modulo 2^32, and those bytes lie inside the map |
| TgaProperties.ColourMappedPixelNarrow | Framework.cpp:982-992 | with indices of at most three bytes, pixel `i` is the colour-map entry index `i` names, and that index is below the map length |
| TgaProperties.ColourMappedLooksUp | Framework.cpp:927-1000 | the pixels of a type-1 file that loads are the lookups of its indices in its colour map |
| TgaProperties.LoadColourMappedSkips | Framework.cpp:930-946 | a type-1 load that does not throw passed its checks and starts from the bytes after the skip |
| TgaProperties.MappedLooksUp | Framework.cpp:978-992 | unpacked type-1 pixels are the index lookups |
| TgaProperties.FinishFlipDefined | Framework.cpp:1026-1028 | with descriptor bit 5 set, the loaders stay in bounds exactly when the image is one row taller than wide |
| TgaProperties.FinishFlipMirrors | Framework.cpp:1026-1028 | there, the flip turns the rows upside down |
| TgaProperties.DispatchFlips | Framework.cpp:1015-1028 | a verbatim stream with bit 5 set ends in the flip |
| TgaProperties.LoadFlipsFinish | Framework.cpp:1015-1028 | a whole verbatim file with bit 5 set loads as the flip of its pixels |
| TgaProperties.LoadFlipsUndefined | Framework.cpp:912-922 | such a file that is not one row taller than wide makes the flip read outside the buffer |
| TgaProperties.LoadFlipsRows | Framework.cpp:912-922 | such a file that is one row taller than wide loads bottom row first |
| TgaProperties.SimpleHeader | Framework.cpp:1369-1370 | the small header builder puts the given type, depth, descriptor and dimensions where the loader reads them |
| TgaProperties.LoadTwoByTwo | Framework.cpp:1062-1068 | a 2x2 24-bit unflipped type-2 file loads as its twelve bytes, BGR |
| TgaProperties.LoadTwoByTwoFlipped | Framework.cpp:912-922 | the same file with descriptor 0x20 reads outside its buffer |
| TgaProperties.RunPacketDecodes | Framework.cpp:1147-1152 | the run packet 0x81 with one BGR pixel decodes to that pixel twice |
| TgaProperties.LoadRunPacket | Framework.cpp:1142-1161 | a 2x1 type-10 file holding that packet loads as the pixel twice |
| TgaProperties.LoadTypeFour | Framework.cpp:1391-1392 | type code 4 is rejected with the doubly wrapped message |
| TgaFindings.MapLengthFieldRoundTrip | Framework.cpp:944 | the intended little-endian length reads back what a writer stores |
| TgaFindings.MapLengthFieldUnpacked | Framework.cpp:944 | the intended length is `_unpack_uint16(header[6], header[5])` |
| TgaFindings.MapLengthAgrees | Framework.cpp:944 | the as-written length equals the stored one exactly when bytes 5 and 6 are equal |
| TgaFindings.MapLengthSwapped | Framework.cpp:944 | a 256-entry map is taken for a one-entry map |
| TgaFindings.Map16Overrun | Framework.cpp:957-971 | every file with a 16-bit colour map that passes the header checks is undefined, because the loop writes twice the map's `3 * len` bytes |
| TgaFindings.ColourMap16 | Framework.cpp:957-971 | the intended 16-bit map succeeds exactly when `2 * len` bytes are there, and has `3 * len` bytes |
| TgaFindings.ColourMap16Entry | Framework.cpp:965-971 | entry `k` of the intended map is stored word `k` expanded |
| TgaFindings.Rle16Overrun | Framework.cpp:1106-1123 | a 16-bit type-10 image with a pixel whose stream holds more than three bytes after the skip reads past the 2-byte word |
| TgaFindings.Rle16RawPair | Framework.cpp:1106-1127 | the 2x1 stream of raw packet 0x01 and two words is undefined as written, while the intended decoding gives both words expanded |
| TgaFindings.Rle16AsWrittenAgrees | Framework.cpp:1092-1130 | wherever the as-written 16-bit loop is defined, it gives what the intended decoding gives |
| TgaFindings.Rle16SingleRun | Framework.cpp:1106-1119 | the 2x1 stream holding just run packet 0x81 and one word loads, as the word expanded twice |
| TgaFindings.Rle16 | Framework.cpp:1092-1130 | the intended 16-bit run-length decoding yields three bytes per pixel |
| TgaFindings.Rle16MatchesRaw | Framework.cpp:1092-1130 | the intended 16-bit run-length decoding gives what the uncompressed 16-bit loop gives for the words the packets stand for |
| TgaFindings.UnmappedSkipUnsignedId | Framework.cpp:1008-1013 | with the header bytes read unsigned, the skip of a file without colour map is the ID field |
| TgaFindings.UnmappedSkipLongId | Framework.cpp:1008-1013 | as written, an ID field of 128 bytes or more makes the skip nearly 4 GiB |
| TgaFindings.MappedSkipUnsignedId | Framework.cpp:931 | with the ID length read unsigned, a zero first entry skips exactly the ID field |
| TgaFindings.MappedSkipLongId | Framework.cpp:931 | as written, an ID field of 128 bytes or more makes the colour-mapped skip nearly 64 KiB |
| Screenshot.DecimalValue | Framework.cpp:359 | the printed digits read back as the number |
| Screenshot.DecimalDigits | Framework.cpp:359 | every printed character is a digit |
| Screenshot.DecimalLength | Framework.cpp:359 | numbers below 10, 100 and 1000 print in one, two and three digits |
| Screenshot.ZeroPrefix | Framework.cpp:355-358 | a leading `'0'` does not change a number's value |
| Screenshot.PaddedDigits | Framework.cpp:355-359 | counters below 1000 print as exactly three digits that read back as the counter |
| Screenshot.ShotNameDigits | Framework.cpp:353-359 | below 1000 every file name has 17 characters and the counter reads back from characters 10 to 12 |
| Screenshot.ShotHeader | Framework.cpp:369-380 | the header is type 2, 24 bits per pixel, descriptor 0, with no ID field and no colour map |
| Screenshot.ShotHeaderWidth | Framework.cpp:376 | a width below 65536 reads back from the header unchanged |
| Screenshot.ShotHeaderHeight | Framework.cpp:377 | a height below 65536 reads back from the header unchanged |
| Screenshot.PackedRow | Framework.cpp:341-346 | with pack alignment 4 and row length 0, a row of `width` BGR pixels takes its `3 * width` bytes rounded up to a multiple of 4, and takes exactly `3 * width` when that is a multiple of 4 |
| Screenshot.PaddingExcess | Framework.cpp:346-350 | the rectangle `glReadPixels` stores is larger than `3 * width * height` bytes exactly when a row before the last is padded |
| Screenshot.BufferShortfall | Framework.cpp:321-322 | the `tgaWidth * tgaHeight` image is smaller than the `width * height` rectangle exactly when `x` or `y` is positive |
| Screenshot.ReadFits | Framework.cpp:346-350 | the `width * height` read fits the `tgaWidth * tgaHeight * 3` buffer exactly when `x` and `y` are 0 and there is one row or `3 * width` is a multiple of 4 |
| Screenshot.SaveFrontBuffer | Framework.cpp:304-405 | it throws exactly for a viewport not starting inside the size, or for an unopenable file once the buffer size fits an `int` and the read fits the buffer; a bad viewport throws `InvalidViewport`; it is undefined exactly when the size overflows or the read overruns the buffer; the name comes from the counter, the counter advances modulo 2^32, and the file is 18 header bytes followed by the pixels |
| Screenshot.ShotRoundTrip | Framework.cpp:369-385 | whenever the screenshot is defined and both its dimensions are below 65536, loading its file gives back its width, height, BGR format and identical pixel bytes |
| Screenshot.ShotWidthTruncated | Framework.cpp:376 | a defined 65536x1 screenshot stores width 0 in its header, so loading it throws the invalid-dimensions message |

## Left out

- OpenGL calls. `glReadPixels`, the pack-state save and restore, and
  `glGetIntegerv` are foreign calls. `Screenshot.SaveFrontBuffer` takes the
  bytes the read leaves in the buffer as a parameter. The number of bytes
  the read stores is modelled (`Screenshot.PackedBytes`), from the pack
  state the function sets itself.
- File I/O. Opening is an `Option` parameter of `Tga.Load`, and writing is a
  `writable` flag of `Screenshot.SaveFrontBuffer`. `close` and the `_Clear`
  of earlier pixels are not modelled.
- The `catch(...)` clause of `Tga::Load` ("Unknown error occured."). It can
  only catch `std::bad_alloc`, and allocation failure is not modelled.
- Tga.Load: a short read is `Undefined` even where the C++ result is
  determinate. For a colour-map index, a short read leaves the previous
  index's high bytes, not indeterminate ones. The model claims nothing for
  files shorter than their header promises.
- Tga.LoadUnmappedRle: for 16-bit pixels the stream that follows the skip
  is defined only when it holds exactly three bytes: then `read(&rgb16, 16)`
  stores the two bytes it finds. Any stream that does not decode as a single
  packet that way ends in a short read, and that is `Undefined`.
- Tga.Load: a header shorter than 18 bytes is `Undefined`. The source reads
  uninitialised header bytes then.
- `__builtin_clz`. The GCC branch of `_unsigned_cntlz` is undefined for 0.
  The model uses the portable branch, which returns 32 for 0.
- `pack_4f_to_uint_10_10_10_2`, `pack_4f_to_int_10_10_10_2` and
  `_clamp_float`: floating-point arithmetic.
- `Timer` and `_get_ticks`: the wall clock.
- `build_glsl_program`, `check_gl_error`, the debug-output callback and
  `tex_tga_image2D`: GL and shader glue.
- `Tga::Save`: it is compiled out (`#if 0`).
- `next_power_of_two_exponent`, `tex_tga_cube_map`, the PNG loaders,
  `render_fsaa` and `save_gl_back_buffer`: declared but not defined in the
  sources.
- main.cpp and Framework.inl: the demo loop and a GL buffer upload.

## Findings

Each row has both halves. One member states the behaviour as written, with
the input that exposes it. The other states the intended property of a
corrected definition. `Tga.Load` and `Half.FloatToHalf` stay faithful to the
code as written, so every other lemma about them describes the program as it
stands. The corrected definitions are `Half.FloatToHalfCorrected`,
`TgaPixels.Mirror`, `TgaFindings.MapLengthField`, `TgaFindings.ColourMap16`,
`TgaFindings.Rle16`, `TgaFindings.UnmappedSkipUnsigned` and
`TgaFindings.MappedSkipUnsigned`.

| source | as written | input that shows it | evidently intended | confidence | as-written member | corrected member |
|---|---|---|---|---|---|---|
| Framework.cpp:700-735 | exponents above the binary16 range are not clamped; the overflow spills into the sign bit | 0x48000000 (2^17) gives 0x8000 (negative zero) | infinity with the input's sign (0x7c00) | high, not executed | Half.FloatToHalfNoSaturation | Half.CorrectedOverflow |
| Framework.cpp:700-735 | a NaN whose quiet bit is clear but whose payload is in bits 13..21 takes the normal path | 0x7f802000 gives 0x3c01 (a finite number) | a NaN (0x7c01) | high, not executed | Half.FloatToHalfSignalingNaN | Half.CorrectedNaN |
| Framework.cpp:715-732 | the rounding carry of a subnormal result selects the normal-overflow branch, whose exponent has wrapped | 0x377ff000 gives 0xfc00 (negative infinity) | the subnormal 0x0100 | high, not executed | Half.FloatToHalfUnderflowCarry | Half.CorrectedSubnormalMagnitude |
| Framework.cpp:711 | the shift amount `f_m_denorm_sa` is 2^31 or more for every exponent except 112 and 113, a negative `int` shift that C leaves undefined and x86 takes modulo 32; only the underflow branch uses the shifted value, and there modulo 32 is right for subnormal results (`Half.SubnormalShiftAmount`) but wraps to a small shift below 2^-25 | 0x28800000 (2^-46) gives 0x0400 (2^-14) | a signed zero | medium, not executed | Half.FloatToHalfShiftWrap | Half.CorrectedUnderflowToZero |
| Framework.cpp:914-919 | `_Flip` copies output row `y` from input row `mWidth - y` | a 2x2 image with descriptor 0x20 reads rows 2 and 1 of a two-row buffer | row `height - 1 - y` | high, not executed | TgaPixels.FlipDefined | TgaPixels.MirrorRow |
| Framework.cpp:944 | the colour-map length is unpacked with bytes 5 and 6 swapped | bytes 5, 6 = 0, 1 (256 entries) give length 1 | the little-endian field of bytes 5 and 6 | high, not executed | TgaFindings.MapLengthSwapped | TgaFindings.MapLengthFieldRoundTrip |
| Framework.cpp:963-971 | the 16-bit colour-map loop runs `colourMapSize * 2` times over a `colourMapSize * 3`-byte map | any type-1 file with `h[7] = 16` and a one-entry map writes six bytes into three | `colourMapSize` turns | high, not executed | TgaFindings.Map16Overrun | TgaFindings.ColourMap16Entry |
| Framework.cpp:1109 | each 16-bit run-length pixel is read with `read(&rgb16, 16)`, up to 16 bytes into a `GLushort` | a 2x1 depth-16 type-10 file holding raw packet 0x01 and two words | a 2-byte read | high, not executed | TgaFindings.Rle16RawPair | TgaFindings.Rle16MatchesRaw |
| Framework.cpp:1008-1013 | the ID length `header[0]` is a `GLchar`, signed on x86 | `h[0] = 0x80`, `h[1] = 0` gives a skip of 0xffffff80 | a skip of 128 bytes | medium, not executed | TgaFindings.UnmappedSkipLongId | TgaFindings.UnmappedSkipUnsignedId |
| Framework.cpp:931 | the same signed ID length in the colour-mapped skip | `h[0] = 0x80` with first entry 0 gives a skip of 0xff80 | a skip of 128 bytes | medium, not executed | TgaFindings.MappedSkipLongId | TgaFindings.MappedSkipUnsignedId |

=== FILE: bits.dfy ===
/** Byte-level helpers shared by the TGA loader and the screenshot writer:
    `_unpack_uint16`, the signed view of a `GLchar` header byte,
    little-endian integers as the loader reads them on a little-endian host,
    and the 5-5-5 colour expansion the 16-bit loaders repeat inline. */
module Bits {

  /** `_unpack_uint16(msb, lsb)`: the 16-bit value with `msb` as its high
      byte and `lsb` as its low byte (`lsb | msb << 8`), as the unsigned
      integer it becomes in the loader's `int` arithmetic. */
  function Unpack16(msb: bv8, lsb: bv8): (r: nat)
    ensures r < 0x1_0000
  {
    msb as nat * 256 + lsb as nat
  }

  /** `msb` is the high byte of the result and `lsb` the low one. */
  lemma Unpack16Bytes(msb: bv8, lsb: bv8)
    ensures Unpack16(msb, lsb) / 256 == msb as nat
    ensures Unpack16(msb, lsb) % 256 == lsb as nat
  {
  }

  /** The byte an `int` leaves when stored into a `GLubyte` (or masked
      with `& 255`): its value modulo 256. */
  function ByteOf(v: int): bv8
  {
    (v % 256) as bv8
  }

  lemma ByteOfValue(v: int)
    ensures ByteOf(v) as nat == v % 256
  {
    ByteValue(v % 256);
  }

  /** Converting an `int` in `0..255` to a byte keeps its value.  The
      solver handles the byte-to-`int` direction well and the other one
      poorly, so the proof finds the byte with that value by counting up
      (`ByteSearch`) and converts it back. */
  lemma ByteValue(k: int)
    requires 0 <= k < 256
    ensures (k as bv8) as int == k
  {
    ByteSearchValue(k, 0);
    ByteRoundTrip(ByteSearch(k, 0));
  }

  /** The first byte from `b` upwards whose value is `k`, or 255. */
  function ByteSearch(k: int, b: bv8): bv8
    decreases 255 - b as int
  {
    if b as int == k || b == 255 then b else ByteSearch(k, b + 1)
  }

  lemma {:induction false} ByteSearchValue(k: int, b: bv8)
    requires b as int <= k < 256
    ensures ByteSearch(k, b) as int == k
    decreases 255 - b as int
  {
    if b as int != k && b != 255 {
      ByteSucc(b);
      ByteSearchValue(k, b + 1);
    }
  }

  lemma ByteSucc(b: bv8)
    requires b < 255
    ensures (b + 1) as int == b as int + 1
  {
  }

  lemma ByteRoundTrip(b: bv8)
    ensures (b as int) as bv8 == b
  {
  }

  /** Splitting a 16-bit value into its two bytes and unpacking them gives
      it back. */
  lemma Unpack16OfBytes(v: nat)
    requires v < 0x1_0000
    ensures Unpack16(ByteOf(v / 256), ByteOf(v)) == v
  {
    var hi := ByteOf(v / 256);
    var lo := ByteOf(v);
    ByteOfValue(v / 256);
    ByteOfValue(v);
    assert hi as nat == v / 256;
    assert lo as nat == v % 256;
  }

  /** The value of a header byte read through a `GLchar`, as it takes
      part in `int` arithmetic.  `GLchar` is plain `char`, signed on x86,
      so the value is the byte's two's complement reading. */
  function Signed(b: bv8): (r: int)
    ensures -128 <= r < 128
    ensures r < 0 <==> b >= 0x80
    ensures r % 256 == b as int
  {
    if b < 0x80 then b as int else b as int - 256
  }

  /** Storing a small `int` into a `GLchar` keeps it modulo 256; reading
      it back through `Signed` recovers it. */
  lemma SignedOfStored(i: int)
    requires -128 <= i < 128
    ensures Signed((i % 256) as bv8) == i
  {
    var b := (i % 256) as bv8;
    ByteValue(i % 256);
    if i >= 0 {
      assert b as int == i;
    } else {
      assert b as int == i + 256;
    }
  }

  /** The unsigned value of a little-endian byte sequence: what a read of
      `|bs|` bytes into a zeroed integer holds on a little-endian host. */
  function LittleEndian(bs: seq<bv8>): nat
  {
    if |bs| == 0 then 0 else bs[0] as nat + 256 * LittleEndian(bs[1..])
  }

  function Pow256(n: nat): (r: nat)
    ensures r > 0
  {
    if n == 0 then 1 else 256 * Pow256(n - 1)
  }

  /** `n` little-endian bytes of `v`, dropping what does not fit. */
  function ToLittleEndian(v: nat, n: nat): (r: seq<bv8>)
    ensures |r| == n
  {
    if n == 0 then [] else [ByteOf(v)] + ToLittleEndian(v / 256, n - 1)
  }

  /** `n` bytes hold values below 256^n. */
  lemma {:induction false} LittleEndianBound(bs: seq<bv8>)
    ensures LittleEndian(bs) < Pow256(|bs|)
  {
    if |bs| > 0 {
      LittleEndianBound(bs[1..]);
    }
  }

  /** Writing a value that fits and reading it back gives the value. */
  lemma {:induction false} LittleEndianOfTo(v: nat, n: nat)
    requires v < Pow256(n)
    ensures LittleEndian(ToLittleEndian(v, n)) == v
  {
    if n > 0 {
      var r := ToLittleEndian(v, n);
      ByteOfValue(v);
      assert r[1..] == ToLittleEndian(v / 256, n - 1);
      assert v / 256 < Pow256(n - 1);
      LittleEndianOfTo(v / 256, n - 1);
    }
  }

  /** Reading bytes and writing the value back gives the bytes. */
  lemma {:induction false} ToOfLittleEndian(bs: seq<bv8>)
    ensures ToLittleEndian(LittleEndian(bs), |bs|) == bs
  {
    if |bs| > 0 {
      var v := LittleEndian(bs);
      assert v % 256 == bs[0] as nat;
      assert v / 256 == LittleEndian(bs[1..]);
      ToOfLittleEndian(bs[1..]);
    }
  }

  /** The 5-5-5 expansion of the 16-bit loaders: the little-endian word
      `lo, hi` split into its blue, green and red fields, each shifted left
      by three into a byte.  Bit 15 is ignored. */
  function Expand555(lo: bv8, hi: bv8): (r: seq<bv8>)
    ensures |r| == 3
    ensures forall k :: 0 <= k < 3 ==> r[k] & 7 == 0
  {
    var v: bv16 := (lo as bv16) | ((hi as bv16) << 8);
    [ ((v & 0x001f) << 3) as bv8,
      (((v & 0x03e0) >> 5) << 3) as bv8,
      (((v & 0x7c00) >> 10) << 3) as bv8 ]
  }

  /** Packs three expanded channels back into a little-endian 5-5-5 word
      with bit 15 clear. */
  function Pack555(b: bv8, g: bv8, r: bv8): (w: seq<bv8>)
    ensures |w| == 2
  {
    var v: bv16 := ((b >> 3) as bv16) | (((g >> 3) as bv16) << 5) | (((r >> 3) as bv16) << 10);
    [(v & 0xff) as bv8, (v >> 8) as bv8]
  }

  /** The expansion loses nothing but bit 15. */
  lemma Pack555OfExpand(lo: bv8, hi: bv8)
    ensures var e := Expand555(lo, hi); Pack555(e[0], e[1], e[2]) == [lo, hi & 0x7f]
  {
  }

  /** Channels whose low three bits are clear survive packing and expanding. */
  lemma Expand555OfPack(b: bv8, g: bv8, r: bv8)
    requires b & 7 == 0 && g & 7 == 0 && r & 7 == 0
    ensures var w := Pack555(b, g, r); Expand555(w[0], w[1]) == [b, g, r]
  {
  }
}

=== FILE: half.dfy ===
/** Branch-free conversion between IEEE 754-2008 binary16 and binary32 bit
    patterns (clause 3.6 of IEEE 754-2008).  The source reinterprets a float
    through a union, so both directions are modelled on raw bit patterns:
    `bv32` for a binary32 value and `bv16` for a binary16 value. */
module Half {

  /** `_unsigned_sels(test, a, b)`: `a` when the sign bit of `test` is set,
      `b` otherwise.  The source builds the mask by an arithmetic right
      shift of `test` by 31, which is the sign bit extended to all 32 bits;
      `_unsigned_neg(a)` is `0 - a`.  The two conversions below write this
      select out in place, as `(a & mask) | (b & !mask)`. */
  function Sels(test: bv32, a: bv32, b: bv32): (r: bv32)
    ensures r == if test >> 31 == 1 then a else b
  {
    SelsSelects(test, a, b);
    (a & (0 - (test >> 31))) | (b & !(0 - (test >> 31)))
  }

  lemma SelsSelects(test: bv32, a: bv32, b: bv32)
    ensures (a & (0 - (test >> 31))) | (b & !(0 - (test >> 31))) == if test >> 31 == 1 then a else b
  {
    SelsFirst(test, a, b);
    SelsSecond(test, a, b);
  }

  lemma SelsFirst(test: bv32, a: bv32, b: bv32)
    ensures test >> 31 == 1 ==> (a & (0 - (test >> 31))) | (b & !(0 - (test >> 31))) == a
  {
  }

  lemma SelsSecond(test: bv32, a: bv32, b: bv32)
    ensures test >> 31 != 1 ==> (a & (0 - (test >> 31))) | (b & !(0 - (test >> 31))) == b
  {
  }

  /** The portable `_unsigned_cntlz`: smear the leading one to the right,
      then count the zero bits with a SWAR population count. */
  function Cntlz(x: bv32): bv32
  {
    var x0 := x >> 1;
    var x1 := x | x0;
    var x2 := x1 >> 2;
    var x3 := x1 | x2;
    var x4 := x3 >> 4;
    var x5 := x3 | x4;
    var x6 := x5 >> 8;
    var x7 := x5 | x6;
    var x8 := x7 >> 16;
    var x9 := x7 | x8;
    var xA := !x9;
    var xB := xA >> 1;
    var xC := xB & 0x5555_5555;
    var xD := xA - xC;
    var xE := xD & 0x3333_3333;
    var xF := xD >> 2;
    var x10 := xF & 0x3333_3333;
    var x11 := xE + x10;
    var x12 := x11 >> 4;
    var x13 := x11 + x12;
    var x14 := x13 & 0x0f0f_0f0f;
    var x15 := x14 >> 8;
    var x16 := x14 + x15;
    var x17 := x16 >> 16;
    var x18 := x16 + x17;
    x18 & 0x0000_003f
  }

  /** `f_m_denorm_sa`, the amount the significand is shifted right by on
      the subnormal path: `1 - ((exponent bits - 0x38000000) >> 23)` in
      `unsigned` arithmetic.  For every exponent but 112 and 113 it is 2^31
      or more, and the `(int)` cast makes it negative
      (`ShiftAmountDefined`). */
  function DenormShiftAmount(f: bv32): bv32
  {
    1 - (((f & 0x7f80_0000) - 0x3800_0000) >> 23)
  }

  /** `float_to_half`, transcribed step by step.  The shift by
      `f_m_denorm_sa` receives a negative amount for every exponent except
      112 and 113 (`ShiftAmountDefined`), which C leaves undefined; it is
      modelled the way x86 executes it, on the amount's low five bits.  The
      shifted value only reaches the result on the underflow path
      (exponent 112 or below); the selects discard it everywhere else. */
  function FloatToHalf(f: bv32): bv16
  {
    var f_e := f & 0x7f80_0000;
    var f_m := f & 0x007f_ffff;
    var f_s := f & 0x8000_0000;
    var f_e_h_bias := f_e - 0x3800_0000;
    var f_m_round_mask := f_m & 0x0000_1000;
    var f_m_round_offset := f_m_round_mask << 1;
    var f_m_rounded := f_m + f_m_round_offset;
    var f_m_rounded_overflow := f_m_rounded & 0x0080_0000;
    var f_m_denorm_sa := DenormShiftAmount(f);
    var f_m_with_hidden := f_m_rounded | 0x0080_0000;
    var f_m_denorm := f_m_with_hidden >> (f_m_denorm_sa & 31);
    var f_em_norm_packed := f_e_h_bias | f_m_rounded;
    var f_e_overflow := f_e_h_bias + 0x0080_0000;
    var h_s := f_s >> 16;
    var h_m_nan := f_m >> 13;
    var h_m_denorm := f_m_denorm >> 13;
    var h_em_norm := f_em_norm_packed >> 13;
    var h_em_overflow := f_e_overflow >> 13;
    var is_e_eqz_msb := f_e - 1;
    var is_m_nez_msb := 0 - f_m;
    var is_h_m_nan_nez_msb := 0 - h_m_nan;
    var is_e_nflagged_msb := f_e - 0x7f80_0000;
    var is_ninf_msb := is_e_nflagged_msb | is_m_nez_msb;
    var is_underflow_msb := is_e_eqz_msb - 0x3800_0000;
    var is_nan_nunderflow_msb := is_h_m_nan_nez_msb | is_e_nflagged_msb;
    var is_m_snan_msb := 0x003f_ffff - f_m;
    var is_snan_msb := is_m_snan_msb & !is_e_nflagged_msb;
    var is_overflow_msb := 0 - f_m_rounded_overflow;
    var m1 := 0 - (is_nan_nunderflow_msb >> 31);
    var h_nan_underflow_result := (h_em_norm & m1) | (0x7c01 & !m1);
    var m2 := 0 - (is_ninf_msb >> 31);
    var h_inf_result := (h_nan_underflow_result & m2) | (0x7c00 & !m2);
    var m3 := 0 - (is_underflow_msb >> 31);
    var h_underflow_result := (h_m_denorm & m3) | (h_inf_result & !m3);
    var m4 := 0 - (is_overflow_msb >> 31);
    var h_overflow_result := (h_em_overflow & m4) | (h_underflow_result & !m4);
    var m5 := 0 - (is_snan_msb >> 31);
    var h_em_result := (0x7e00 & m5) | (h_overflow_result & !m5);
    var h_result := h_em_result | h_s;
    // the return converts the unsigned int to GLhalf: keep the low 16 bits
    (h_result & 0xffff) as bv16
  }

  /** `half_to_float`, transcribed step by step. */
  function HalfToFloat(hh: bv16): bv32
  {
    var h := hh as bv32;
    var h_e := h & 0x0000_7c00;
    var h_m := h & 0x0000_03ff;
    var h_s := h & 0x0000_8000;
    var h_e_f_bias := h_e + 0x0001_c000;
    var h_m_nlz := Cntlz(h_m);
    var f_s := h_s << 16;
    var f_e := h_e_f_bias << 13;
    var f_m := h_m << 13;
    var f_em := f_e | f_m;
    var h_f_m_sa := h_m_nlz - 8;
    var f_e_denorm_unpacked := 0x0000_007e - h_f_m_sa;
    var h_f_m := h_m << h_f_m_sa;
    var f_m_denorm := h_f_m & 0x007f_ffff;
    var f_e_denorm := f_e_denorm_unpacked << 23;
    var f_em_denorm := f_e_denorm | f_m_denorm;
    var f_em_nan := 0x7f80_0000 | f_m;
    var is_e_eqz_msb := h_e - 1;
    var is_m_nez_msb := 0 - h_m;
    var is_e_flagged_msb := 0x0000_7bff - h_e;
    var is_zero_msb := is_e_eqz_msb & !is_m_nez_msb;
    var is_inf_msb := is_e_flagged_msb & !is_m_nez_msb;
    var is_denorm_msb := is_m_nez_msb & is_e_eqz_msb;
    var is_nan_msb := is_e_flagged_msb & is_m_nez_msb;
    var is_zero := 0 - (is_zero_msb >> 31);
    var f_zero_result := f_em & !is_zero;
    var m1 := 0 - (is_denorm_msb >> 31);
    var f_denorm_result := (f_em_denorm & m1) | (f_zero_result & !m1);
    var m2 := 0 - (is_inf_msb >> 31);
    var f_inf_result := (0x7f80_0000 & m2) | (f_denorm_result & !m2);
    var m3 := 0 - (is_nan_msb >> 31);
    var f_nan_result := (f_em_nan & m3) | (f_inf_result & !m3);
    f_s | f_nan_result
  }



  // ---------------------------------------------------------------------
  // Field views of the two interchange formats.  Every statement below is
  // phrased through these, so that facts proved in one lemma are found by
  // the next without bit-level reasoning.

  /** Biased exponent field of a binary32 pattern (bits 30..23). */
  function Exp32(f: bv32): bv32 { (f >> 23) & 0xff }

  /** Trailing significand field of a binary32 pattern (bits 22..0). */
  function Mant32(f: bv32): bv32 { f & 0x7f_ffff }

  /** The sign of a binary32 pattern, moved to the binary16 sign position. */
  function Sign32(f: bv32): bv16 { ((f >> 16) & 0x8000) as bv16 }

  /** Biased exponent field of a binary16 pattern (bits 14..10). */
  function ExpH(h: bv16): bv32 { (h as bv32 >> 10) & 0x1f }

  /** Trailing significand field of a binary16 pattern (bits 9..0). */
  function MantH(h: bv16): bv32 { h as bv32 & 0x3ff }

  /** The sign of a binary16 pattern, moved to the binary32 sign position. */
  function SignH(h: bv16): bv32 { (h as bv32 & 0x8000) << 16 }

  predicate HalfIsNaN(h: bv16) { ExpH(h) == 31 && MantH(h) != 0 }

  predicate FloatIsNaN(f: bv32) { Exp32(f) == 0xff && Mant32(f) != 0 }

  /** The significand as `float_to_half` rounds it: bit 12, the first bit
      that does not fit in binary16, is added in at bit 13. */
  function Rounded(f: bv32): bv32 { Mant32(f) + ((Mant32(f) & 0x1000) << 1) }

  /** Rounding carries out of the 23-bit significand field. */
  predicate Carries(f: bv32) { Rounded(f) & 0x80_0000 != 0 }

  /** The count is exact: it is the position of the leading one seen from bit 31. */
  lemma CntlzCountsLeadingZeros(x: bv32)
    ensures Cntlz(x) <= 32
    ensures Cntlz(x) == 32 <==> x == 0
    ensures x != 0 ==> Cntlz(x) < 32
    ensures x != 0 ==> x >> (31 - Cntlz(x)) == 1
  {
  }

  // ---------------------------------------------------------------------
  // half_to_float.  For each class of input, a "masks" lemma fixes the sign
  // bits of the four class masks, a "path" lemma reads off the branch the
  // select chain then returns, and a value lemma reads that branch as IEEE
  // fields.

  lemma ZeroHalfMasks(h: bv16)
    requires ExpH(h) == 0 && MantH(h) == 0
    ensures var h_e := h as bv32 & 0x7c00; var h_m := h as bv32 & 0x3ff;
      && ((h_e - 1) & !(0 - h_m)) >> 31 == 1
      && ((0x7bff - h_e) & !(0 - h_m)) >> 31 == 0
      && ((0 - h_m) & (h_e - 1)) >> 31 == 0
      && ((0x7bff - h_e) & (0 - h_m)) >> 31 == 0
  {
  }

  lemma SubnormalHalfMasks(h: bv16)
    requires ExpH(h) == 0 && MantH(h) != 0
    ensures var h_e := h as bv32 & 0x7c00; var h_m := h as bv32 & 0x3ff;
      && ((h_e - 1) & !(0 - h_m)) >> 31 == 0
      && ((0x7bff - h_e) & !(0 - h_m)) >> 31 == 0
      && ((0 - h_m) & (h_e - 1)) >> 31 == 1
      && ((0x7bff - h_e) & (0 - h_m)) >> 31 == 0
  {
  }

  lemma NormalHalfMasks(h: bv16)
    requires 0 < ExpH(h) < 31
    ensures var h_e := h as bv32 & 0x7c00; var h_m := h as bv32 & 0x3ff;
      && ((h_e - 1) & !(0 - h_m)) >> 31 == 0
      && ((0x7bff - h_e) & !(0 - h_m)) >> 31 == 0
      && ((0 - h_m) & (h_e - 1)) >> 31 == 0
      && ((0x7bff - h_e) & (0 - h_m)) >> 31 == 0
  {
  }

  lemma InfinityHalfMasks(h: bv16)
    requires ExpH(h) == 31 && MantH(h) == 0
    ensures var h_e := h as bv32 & 0x7c00; var h_m := h as bv32 & 0x3ff;
      && ((h_e - 1) & !(0 - h_m)) >> 31 == 0
      && ((0x7bff - h_e) & !(0 - h_m)) >> 31 == 1
      && ((0 - h_m) & (h_e - 1)) >> 31 == 0
      && ((0x7bff - h_e) & (0 - h_m)) >> 31 == 0
  {
  }

  lemma NaNHalfMasks(h: bv16)
    requires ExpH(h) == 31 && MantH(h) != 0
    ensures var h_e := h as bv32 & 0x7c00; var h_m := h as bv32 & 0x3ff;
      && ((h_e - 1) & !(0 - h_m)) >> 31 == 0
      && ((0x7bff - h_e) & !(0 - h_m)) >> 31 == 0
      && ((0 - h_m) & (h_e - 1)) >> 31 == 0
      && ((0x7bff - h_e) & (0 - h_m)) >> 31 == 1
  {
  }

  lemma ZeroHalfPath(h: bv16)
    requires ExpH(h) == 0 && MantH(h) == 0
    ensures HalfToFloat(h) == (h as bv32 & 0x8000) << 16
  {
    ZeroHalfMasks(h);
  }

  lemma SubnormalHalfPath(h: bv16)
    requires ExpH(h) == 0 && MantH(h) != 0
    ensures var hw := h as bv32; var sa := Cntlz(hw & 0x3ff) - 8;
      HalfToFloat(h) == ((hw & 0x8000) << 16) | (((0x7e - sa) << 23) | (((hw & 0x3ff) << sa) & 0x7f_ffff))
  {
    SubnormalHalfMasks(h);
  }

  lemma NormalHalfPath(h: bv16)
    requires 0 < ExpH(h) < 31
    ensures var hw := h as bv32;
      HalfToFloat(h) == ((hw & 0x8000) << 16) | ((((hw & 0x7c00) + 0x1_c000) << 13) | ((hw & 0x3ff) << 13))
  {
    NormalHalfMasks(h);
  }

  lemma InfinityHalfPath(h: bv16)
    requires ExpH(h) == 31 && MantH(h) == 0
    ensures HalfToFloat(h) == ((h as bv32 & 0x8000) << 16) | 0x7f80_0000
  {
    InfinityHalfMasks(h);
  }

  lemma NaNHalfPath(h: bv16)
    requires ExpH(h) == 31 && MantH(h) != 0
    ensures var hw := h as bv32;
      HalfToFloat(h) == ((hw & 0x8000) << 16) | (0x7f80_0000 | ((hw & 0x3ff) << 13))
  {
    NaNHalfMasks(h);
  }

  /** `f` is the binary32 encoding of the normal binary16 value `h`: same
      sign, the exponent rebiased from 15 to 127, and the 10-bit significand
      placed at the top of the 23-bit one. */
  predicate WidensNormal(h: bv16, f: bv32)
  {
    && f & 0x8000_0000 == SignH(h)
    && Exp32(f) == ExpH(h) + 112
    && Mant32(f) == MantH(h) << 13
  }

  /** The normal branch of `half_to_float` is such an encoding. */
  lemma NormalWidening(h: bv16)
    requires 0 < ExpH(h) < 31
    ensures var hw := h as bv32;
      WidensNormal(h, ((hw & 0x8000) << 16) | ((((hw & 0x7c00) + 0x1_c000) << 13) | ((hw & 0x3ff) << 13)))
  {
  }

  /** `f` is the binary32 encoding of the subnormal binary16 value `h`:
      same sign, and a significand (hidden bit included) that is the
      binary16 significand shifted left by exactly as much as the exponent
      is below 126, so that both denote MantH(h) * 2^-24. */
  predicate WidensSubnormal(h: bv16, f: bv32)
  {
    && f & 0x8000_0000 == SignH(h)
    && 103 <= Exp32(f) <= 112
    && (Mant32(f) | 0x80_0000) >> (126 - Exp32(f)) == MantH(h)
    && Mant32(f) | 0x80_0000 == MantH(h) << (126 - Exp32(f))
  }

  // The subnormal branch of `half_to_float`, with `c` standing for the
  // leading-zero count of the significand, one conjunct at a time.

  lemma SubnormalWideningSign(h: bv16, c: bv32)
    requires h as bv32 & 0x3ff != 0
    requires 22 <= c < 32 && (h as bv32 & 0x3ff) >> (31 - c) == 1
    ensures (((h as bv32 & 0x8000) << 16) | (((0x7e - (c - 8)) << 23) | (((h as bv32 & 0x3ff) << (c - 8)) & 0x7f_ffff))) & 0x8000_0000 == SignH(h)
  {
  }

  lemma SubnormalWideningExp(h: bv16, c: bv32)
    requires h as bv32 & 0x3ff != 0
    requires 22 <= c < 32 && (h as bv32 & 0x3ff) >> (31 - c) == 1
    ensures 103 <= Exp32(((h as bv32 & 0x8000) << 16) | (((0x7e - (c - 8)) << 23) | (((h as bv32 & 0x3ff) << (c - 8)) & 0x7f_ffff))) <= 112
  {
  }

  lemma SubnormalWideningExact(h: bv16, c: bv32)
    requires h as bv32 & 0x3ff != 0
    requires 22 <= c < 32 && (h as bv32 & 0x3ff) >> (31 - c) == 1
    ensures (Mant32(((h as bv32 & 0x8000) << 16) | (((0x7e - (c - 8)) << 23) | (((h as bv32 & 0x3ff) << (c - 8)) & 0x7f_ffff))) | 0x80_0000) >> (126 - Exp32(((h as bv32 & 0x8000) << 16) | (((0x7e - (c - 8)) << 23) | (((h as bv32 & 0x3ff) << (c - 8)) & 0x7f_ffff)))) == MantH(h)
  {
  }

  lemma SubnormalWideningShift(h: bv16, c: bv32)
    requires h as bv32 & 0x3ff != 0
    requires 22 <= c < 32 && (h as bv32 & 0x3ff) >> (31 - c) == 1
    ensures Mant32(((h as bv32 & 0x8000) << 16) | (((0x7e - (c - 8)) << 23) | (((h as bv32 & 0x3ff) << (c - 8)) & 0x7f_ffff))) | 0x80_0000 == MantH(h) << (126 - Exp32(((h as bv32 & 0x8000) << 16) | (((0x7e - (c - 8)) << 23) | (((h as bv32 & 0x3ff) << (c - 8)) & 0x7f_ffff))))
  {
  }

  lemma SubnormalWideningAt(h: bv16, c: bv32)
    requires h as bv32 & 0x3ff != 0
    requires 22 <= c < 32 && (h as bv32 & 0x3ff) >> (31 - c) == 1
    ensures WidensSubnormal(h, ((h as bv32 & 0x8000) << 16) | (((0x7e - (c - 8)) << 23) | (((h as bv32 & 0x3ff) << (c - 8)) & 0x7f_ffff)))
  {
    SubnormalWideningSign(h, c);
    SubnormalWideningExp(h, c);
    SubnormalWideningExact(h, c);
    SubnormalWideningShift(h, c);
  }

  /** A non-zero 10-bit significand has between 22 and 31 leading zeros,
      and its leading one is where the count says. */
  lemma SignificandLeadingZeros(x: bv32)
    ensures x != 0 && x < 0x400 ==> 22 <= Cntlz(x) < 32 && x >> (31 - Cntlz(x)) == 1
  {
    CntlzCountsLeadingZeros(x);
  }

  /** The subnormal branch of `half_to_float` is such an encoding. */
  lemma SubnormalWidening(h: bv16)
    requires ExpH(h) == 0 && MantH(h) != 0
    ensures var hw := h as bv32; var sa := Cntlz(hw & 0x3ff) - 8;
      WidensSubnormal(h, ((hw & 0x8000) << 16) | (((0x7e - sa) << 23) | (((hw & 0x3ff) << sa) & 0x7f_ffff)))
  {
    SignificandLeadingZeros(h as bv32 & 0x3ff);
    SubnormalWideningAt(h, Cntlz(h as bv32 & 0x3ff));
  }

  /** Signed zeros stay signed zeros. */
  lemma HalfToFloatZero(h: bv16)
    requires ExpH(h) == 0 && MantH(h) == 0
    ensures HalfToFloat(h) == SignH(h)
  {
    ZeroHalfPath(h);
  }

  /** A normal binary16 value maps to the binary32 value with the same sign,
      the exponent rebiased from 15 to 127, and the significand widened. */
  lemma HalfToFloatNormal(h: bv16)
    requires 0 < ExpH(h) < 31
    ensures WidensNormal(h, HalfToFloat(h))
  {
    NormalHalfPath(h);
    NormalWidening(h);
  }

  /** A subnormal binary16 value m * 2^-24 becomes a normal binary32 value:
      its significand, hidden bit included, is m shifted so that the leading
      one lands on bit 23, and the exponent pays for that shift. */
  lemma HalfToFloatSubnormal(h: bv16)
    requires ExpH(h) == 0 && MantH(h) != 0
    ensures WidensSubnormal(h, HalfToFloat(h))
  {
    SubnormalHalfPath(h);
    SubnormalWidening(h);
  }

  /** Infinities keep their sign. */
  lemma HalfToFloatInfinity(h: bv16)
    requires ExpH(h) == 31 && MantH(h) == 0
    ensures HalfToFloat(h) == SignH(h) | 0x7f80_0000
  {
    InfinityHalfPath(h);
  }

  /** NaNs keep their sign, and their payload moves to the top of the
      binary32 significand. */
  lemma HalfToFloatNaN(h: bv16)
    requires ExpH(h) == 31 && MantH(h) != 0
    ensures HalfToFloat(h) == SignH(h) | 0x7f80_0000 | (MantH(h) << 13)
    ensures FloatIsNaN(HalfToFloat(h))
  {
    NaNHalfPath(h);
  }

  // ---------------------------------------------------------------------
  // float_to_half.  The select chain's masks are `is_nan_nunderflow`,
  // `is_ninf`, `is_underflow`, `is_overflow` and `is_snan`, applied in that
  // order.  The source's `is_snan` tests the top significand bit, which
  // IEEE 754-2008 (clause 6.2.1) makes the quiet bit, so the lemmas call
  // that path the quiet-NaN path.  Masks and paths are stated on the raw
  // fields, as the source computes them; `FieldsOf` links those to Exp32,
  // Mant32 and Carries.

  lemma FieldsOf(f: bv32)
    ensures Exp32(f) == (f >> 23) & 0xff
    ensures Mant32(f) == f & 0x7f_ffff
    ensures Carries(f) == (((f & 0x7f_ffff) + (((f & 0x7f_ffff) & 0x1000) << 1)) & 0x80_0000 != 0)
    ensures Sign32(f) == ((f >> 16) & 0x8000) as bv16
  {
  }

  lemma NormalRangeMasks(f: bv32)
    requires 113 <= (f >> 23) & 0xff <= 142
    ensures var f_e := f & 0x7f80_0000; var f_m := f & 0x007f_ffff;
      var is_e_nflagged_msb := f_e - 0x7f80_0000;
      && ((0 - (f_m >> 13)) | is_e_nflagged_msb) >> 31 == 1
      && (is_e_nflagged_msb | (0 - f_m)) >> 31 == 1
      && ((f_e - 1) - 0x3800_0000) >> 31 == 0
      && ((0x003f_ffff - f_m) & !is_e_nflagged_msb) >> 31 == 0
  {
  }

  lemma UnderflowRangeMasks(f: bv32)
    requires (f >> 23) & 0xff <= 112
    ensures var f_e := f & 0x7f80_0000; var f_m := f & 0x007f_ffff;
      var is_e_nflagged_msb := f_e - 0x7f80_0000;
      && ((0 - (f_m >> 13)) | is_e_nflagged_msb) >> 31 == 1
      && (is_e_nflagged_msb | (0 - f_m)) >> 31 == 1
      && ((f_e - 1) - 0x3800_0000) >> 31 == 1
      && ((0x003f_ffff - f_m) & !is_e_nflagged_msb) >> 31 == 0
  {
  }

  lemma NoCarryMask(f: bv32)
    requires ((f & 0x7f_ffff) + (((f & 0x7f_ffff) & 0x1000) << 1)) & 0x80_0000 == 0
    ensures (0 - (((f & 0x7f_ffff) + (((f & 0x7f_ffff) & 0x1000) << 1)) & 0x80_0000)) >> 31 == 0
  {
  }

  lemma CarryMask(f: bv32)
    requires ((f & 0x7f_ffff) + (((f & 0x7f_ffff) & 0x1000) << 1)) & 0x80_0000 != 0
    ensures (0 - (((f & 0x7f_ffff) + (((f & 0x7f_ffff) & 0x1000) << 1)) & 0x80_0000)) >> 31 == 1
  {
  }

  lemma InfinityMasks(f: bv32)
    requires (f >> 23) & 0xff == 0xff && f & 0x7f_ffff == 0
    ensures var f_e := f & 0x7f80_0000; var f_m := f & 0x007f_ffff;
      var is_e_nflagged_msb := f_e - 0x7f80_0000;
      && (is_e_nflagged_msb | (0 - f_m)) >> 31 == 0
      && ((f_e - 1) - 0x3800_0000) >> 31 == 0
      && (0 - ((f_m + ((f_m & 0x1000) << 1)) & 0x80_0000)) >> 31 == 0
      && ((0x003f_ffff - f_m) & !is_e_nflagged_msb) >> 31 == 0
  {
  }

  lemma QuietNaNMasks(f: bv32)
    requires (f >> 23) & 0xff == 0xff && f & 0x7f_ffff >= 0x40_0000
    ensures ((0x003f_ffff - (f & 0x007f_ffff)) & !((f & 0x7f80_0000) - 0x7f80_0000)) >> 31 == 1
  {
  }

  lemma NormalPath(f: bv32)
    requires 113 <= (f >> 23) & 0xff <= 142
    requires ((f & 0x7f_ffff) + (((f & 0x7f_ffff) & 0x1000) << 1)) & 0x80_0000 == 0
    ensures FloatToHalf(f) == ((((((f & 0x7f80_0000) - 0x3800_0000) | ((f & 0x7f_ffff) + (((f & 0x7f_ffff) & 0x1000) << 1))) >> 13) | ((f & 0x8000_0000) >> 16)) & 0xffff) as bv16
  {
    NormalRangeMasks(f);
    NoCarryMask(f);
  }

  lemma NormalCarryPath(f: bv32)
    requires 113 <= (f >> 23) & 0xff <= 142
    requires ((f & 0x7f_ffff) + (((f & 0x7f_ffff) & 0x1000) << 1)) & 0x80_0000 != 0
    ensures FloatToHalf(f) == ((((((f & 0x7f80_0000) - 0x3800_0000) + 0x80_0000) >> 13) | ((f & 0x8000_0000) >> 16)) & 0xffff) as bv16
  {
    NormalRangeMasks(f);
    CarryMask(f);
  }

  lemma DenormPath(f: bv32)
    requires (f >> 23) & 0xff <= 112
    requires ((f & 0x7f_ffff) + (((f & 0x7f_ffff) & 0x1000) << 1)) & 0x80_0000 == 0
    ensures FloatToHalf(f) == (((((((f & 0x7f_ffff) + (((f & 0x7f_ffff) & 0x1000) << 1)) | 0x80_0000) >> ((1 - (((f & 0x7f80_0000) - 0x3800_0000) >> 23)) & 31)) >> 13) | ((f & 0x8000_0000) >> 16)) & 0xffff) as bv16
  {
    UnderflowRangeMasks(f);
    NoCarryMask(f);
  }

  lemma InfinityPath(f: bv32)
    requires (f >> 23) & 0xff == 0xff && f & 0x7f_ffff == 0
    ensures FloatToHalf(f) == ((0x7c00 | ((f & 0x8000_0000) >> 16)) & 0xffff) as bv16
  {
    InfinityMasks(f);
  }

  lemma QuietNaNPath(f: bv32)
    requires (f >> 23) & 0xff == 0xff && f & 0x7f_ffff >= 0x40_0000
    ensures FloatToHalf(f) == ((0x7e00 | ((f & 0x8000_0000) >> 16)) & 0xffff) as bv16
  {
    QuietNaNMasks(f);
  }

  // The same paths, restated on Exp32, Mant32 and Carries.

  lemma NormalPathWhen(f: bv32)
    ensures 113 <= Exp32(f) <= 142 && !Carries(f) ==>
      FloatToHalf(f) == ((((((f & 0x7f80_0000) - 0x3800_0000) | ((f & 0x7f_ffff) + (((f & 0x7f_ffff) & 0x1000) << 1))) >> 13) | ((f & 0x8000_0000) >> 16)) & 0xffff) as bv16
  {
    FieldsOf(f);
    if 113 <= Exp32(f) <= 142 && !Carries(f) {
      NormalPath(f);
    }
  }

  lemma NormalCarryPathWhen(f: bv32)
    ensures 113 <= Exp32(f) <= 142 && Carries(f) ==>
      FloatToHalf(f) == ((((((f & 0x7f80_0000) - 0x3800_0000) + 0x80_0000) >> 13) | ((f & 0x8000_0000) >> 16)) & 0xffff) as bv16
  {
    FieldsOf(f);
    if 113 <= Exp32(f) <= 142 && Carries(f) {
      NormalCarryPath(f);
    }
  }

  lemma DenormPathWhen(f: bv32)
    ensures 102 <= Exp32(f) <= 112 && !Carries(f) ==>
      FloatToHalf(f) == (((((((f & 0x7f_ffff) + (((f & 0x7f_ffff) & 0x1000) << 1)) | 0x80_0000) >> ((1 - (((f & 0x7f80_0000) - 0x3800_0000) >> 23)) & 31)) >> 13) | ((f & 0x8000_0000) >> 16)) & 0xffff) as bv16
  {
    FieldsOf(f);
    if 102 <= Exp32(f) <= 112 && !Carries(f) {
      DenormPath(f);
    }
  }

  lemma InfinityPathWhen(f: bv32)
    ensures Exp32(f) == 0xff && Mant32(f) == 0 ==>
      FloatToHalf(f) == ((0x7c00 | ((f & 0x8000_0000) >> 16)) & 0xffff) as bv16
  {
    FieldsOf(f);
    if Exp32(f) == 0xff && Mant32(f) == 0 {
      InfinityPath(f);
    }
  }

  lemma QuietNaNPathWhen(f: bv32)
    ensures Exp32(f) == 0xff && Mant32(f) >= 0x40_0000 ==>
      FloatToHalf(f) == ((0x7e00 | ((f & 0x8000_0000) >> 16)) & 0xffff) as bv16
  {
    FieldsOf(f);
    if Exp32(f) == 0xff && Mant32(f) >= 0x40_0000 {
      QuietNaNPath(f);
    }
  }

  // What each branch value means: first on the raw fields, then restated
  // on Exp32, Mant32 and Sign32.

  lemma NormalValueRaw(f: bv32)
    requires 113 <= (f >> 23) & 0xff <= 142
    requires ((f & 0x7f_ffff) + (((f & 0x7f_ffff) & 0x1000) << 1)) & 0x80_0000 == 0
    ensures ((((((f & 0x7f80_0000) - 0x3800_0000) | ((f & 0x7f_ffff) + (((f & 0x7f_ffff) & 0x1000) << 1))) >> 13) | ((f & 0x8000_0000) >> 16)) & 0xffff) as bv16
      == (((((f >> 23) & 0xff) - 113) << 10) + ((0x80_0000 + (f & 0x7f_ffff) + 0x1000) >> 13)) as bv16 | ((f >> 16) & 0x8000) as bv16
  {
  }

  lemma NormalCarryValueRaw(f: bv32)
    requires 113 <= (f >> 23) & 0xff <= 142
    requires ((f & 0x7f_ffff) + (((f & 0x7f_ffff) & 0x1000) << 1)) & 0x80_0000 != 0
    ensures ((((((f & 0x7f80_0000) - 0x3800_0000) + 0x80_0000) >> 13) | ((f & 0x8000_0000) >> 16)) & 0xffff) as bv16
      == (((((f >> 23) & 0xff) - 113) << 10) + ((0x80_0000 + (f & 0x7f_ffff) + 0x1000) >> 13)) as bv16 | ((f >> 16) & 0x8000) as bv16
  {
  }

  lemma DenormValueRaw(f: bv32)
    requires 102 <= (f >> 23) & 0xff <= 112
    requires ((f & 0x7f_ffff) + (((f & 0x7f_ffff) & 0x1000) << 1)) & 0x80_0000 == 0
    ensures (((((((f & 0x7f_ffff) + (((f & 0x7f_ffff) & 0x1000) << 1)) | 0x80_0000) >> ((1 - (((f & 0x7f80_0000) - 0x3800_0000) >> 23)) & 31)) >> 13) | ((f & 0x8000_0000) >> 16)) & 0xffff) as bv16
      == ((0x80_0000 + (f & 0x7f_ffff) + 0x1000) >> (126 - ((f >> 23) & 0xff))) as bv16 | ((f >> 16) & 0x8000) as bv16
  {
  }

  lemma NormalFieldsRaw(f: bv32)
    requires 113 <= (f >> 23) & 0xff <= 142
    ensures (((((f >> 23) & 0xff) - 113) << 10) + ((0x80_0000 + (f & 0x7f_ffff) + 0x1000) >> 13)) as bv16 | ((f >> 16) & 0x8000) as bv16
      == (((Exp32(f) - 113) << 10) + ((0x80_0000 + Mant32(f) + 0x1000) >> 13)) as bv16 | Sign32(f)
  {
  }

  lemma DenormFieldsRaw(f: bv32)
    requires 102 <= (f >> 23) & 0xff <= 112
    ensures ((0x80_0000 + (f & 0x7f_ffff) + 0x1000) >> (126 - ((f >> 23) & 0xff))) as bv16 | ((f >> 16) & 0x8000) as bv16
      == ((0x80_0000 + Mant32(f) + 0x1000) >> (126 - Exp32(f))) as bv16 | Sign32(f)
  {
    FieldsOf(f);
  }

  lemma NormalValue(f: bv32)
    ensures 113 <= Exp32(f) <= 142 && !Carries(f) ==>
      ((((((f & 0x7f80_0000) - 0x3800_0000) | ((f & 0x7f_ffff) + (((f & 0x7f_ffff) & 0x1000) << 1))) >> 13) | ((f & 0x8000_0000) >> 16)) & 0xffff) as bv16
      == (((Exp32(f) - 113) << 10) + ((0x80_0000 + Mant32(f) + 0x1000) >> 13)) as bv16 | Sign32(f)
  {
    FieldsOf(f);
    if 113 <= Exp32(f) <= 142 && !Carries(f) {
      NormalValueRaw(f);
      NormalFieldsRaw(f);
    }
  }

  lemma NormalCarryValue(f: bv32)
    ensures 113 <= Exp32(f) <= 142 && Carries(f) ==>
      ((((((f & 0x7f80_0000) - 0x3800_0000) + 0x80_0000) >> 13) | ((f & 0x8000_0000) >> 16)) & 0xffff) as bv16
      == (((Exp32(f) - 113) << 10) + ((0x80_0000 + Mant32(f) + 0x1000) >> 13)) as bv16 | Sign32(f)
  {
    FieldsOf(f);
    if 113 <= Exp32(f) <= 142 && Carries(f) {
      NormalCarryValueRaw(f);
      NormalFieldsRaw(f);
    }
  }

  lemma DenormValue(f: bv32)
    ensures 102 <= Exp32(f) <= 112 && !Carries(f) ==>
      (((((((f & 0x7f_ffff) + (((f & 0x7f_ffff) & 0x1000) << 1)) | 0x80_0000) >> ((1 - (((f & 0x7f80_0000) - 0x3800_0000) >> 23)) & 31)) >> 13) | ((f & 0x8000_0000) >> 16)) & 0xffff) as bv16
      == ((0x80_0000 + Mant32(f) + 0x1000) >> (126 - Exp32(f))) as bv16 | Sign32(f)
  {
    FieldsOf(f);
    if 102 <= Exp32(f) <= 112 && !Carries(f) {
      DenormValueRaw(f);
      DenormFieldsRaw(f);
    }
  }

  lemma SpecialValues(f: bv32)
    ensures ((0x7c00 | ((f & 0x8000_0000) >> 16)) & 0xffff) as bv16 == 0x7c00 | Sign32(f)
    ensures ((0x7e00 | ((f & 0x8000_0000) >> 16)) & 0xffff) as bv16 == 0x7e00 | Sign32(f)
  {
  }

  lemma NormalRoundingNoCarry(f: bv32)
    ensures 113 <= Exp32(f) <= 142 && !Carries(f) ==>
      FloatToHalf(f) == (((Exp32(f) - 113) << 10) + ((0x80_0000 + Mant32(f) + 0x1000) >> 13)) as bv16 | Sign32(f)
  {
    NormalPathWhen(f);
    NormalValue(f);
  }

  lemma NormalRoundingCarry(f: bv32)
    ensures 113 <= Exp32(f) <= 142 && Carries(f) ==>
      FloatToHalf(f) == (((Exp32(f) - 113) << 10) + ((0x80_0000 + Mant32(f) + 0x1000) >> 13)) as bv16 | Sign32(f)
  {
    NormalCarryPathWhen(f);
    NormalCarryValue(f);
  }

  /** In the binary16 normal range the result is the binary32 significand,
      hidden bit included, rounded to 11 bits with ties away from zero,
      under the exponent rebiased from 127 to 15.  A carry out of the
      significand moves into the exponent, so a carry out of exponent 30
      gives infinity. */
  lemma FloatToHalfNormalRounding(f: bv32)
    ensures 113 <= Exp32(f) <= 142 ==>
      FloatToHalf(f) == (((Exp32(f) - 113) << 10) + ((0x80_0000 + Mant32(f) + 0x1000) >> 13)) as bv16 | Sign32(f)
  {
    NormalRoundingNoCarry(f);
    NormalRoundingCarry(f);
  }

  /** Between half the smallest binary16 subnormal and the normal range,
      when rounding at bit 12 does not carry, the significand is rounded at
      bit 12 and then truncated to the subnormal's precision. */
  lemma FloatToHalfSubnormal(f: bv32)
    ensures 102 <= Exp32(f) <= 112 && !Carries(f) ==>
      FloatToHalf(f) == ((0x80_0000 + Mant32(f) + 0x1000) >> (126 - Exp32(f))) as bv16 | Sign32(f)
  {
    DenormPathWhen(f);
    DenormValue(f);
  }

  /** Infinities keep their sign; a NaN whose top significand bit is set
      becomes the binary16 NaN 0x7e00 with the input's sign. */
  lemma FloatToHalfSpecials(f: bv32)
    ensures Exp32(f) == 0xff && Mant32(f) == 0 ==> FloatToHalf(f) == 0x7c00 | Sign32(f)
    ensures Exp32(f) == 0xff && Mant32(f) >= 0x40_0000 ==> FloatToHalf(f) == 0x7e00 | Sign32(f)
  {
    InfinityPathWhen(f);
    QuietNaNPathWhen(f);
    SpecialValues(f);
  }

  // ---------------------------------------------------------------------
  // Round trip: every binary16 value that is not a NaN survives
  // half_to_float followed by float_to_half.

  // Each step below concludes a single fact: the solver handles a chain of
  // one-conclusion lemmas far better than one lemma with several.

  lemma NormalNarrowsRange(h: bv16, f: bv32)
    ensures 0 < ExpH(h) < 31 && WidensNormal(h, f) ==> 113 <= Exp32(f) <= 142
  {
  }

  lemma NormalNarrowsValue(h: bv16, f: bv32)
    ensures 0 < ExpH(h) < 31 && WidensNormal(h, f) ==>
      (((Exp32(f) - 113) << 10) + ((0x80_0000 + Mant32(f) + 0x1000) >> 13)) as bv16 | Sign32(f) == h
  {
  }

  /** `float_to_half` takes the widening of a normal value back to it. */
  lemma NormalNarrows(h: bv16, f: bv32)
    ensures 0 < ExpH(h) < 31 && WidensNormal(h, f) ==> FloatToHalf(f) == h
  {
    NormalNarrowsRange(h, f);
    NormalNarrowsValue(h, f);
    FloatToHalfNormalRounding(f);
  }

  lemma SubnormalNarrowsRange(h: bv16, f: bv32)
    ensures ExpH(h) == 0 && MantH(h) != 0 && WidensSubnormal(h, f) ==> 102 <= Exp32(f) <= 112 && !Carries(f)
  {
  }

  lemma SubnormalNarrowsValue(h: bv16, f: bv32)
    ensures ExpH(h) == 0 && MantH(h) != 0 && WidensSubnormal(h, f) ==>
      ((0x80_0000 + Mant32(f) + 0x1000) >> (126 - Exp32(f))) as bv16 | Sign32(f) == h
  {
  }

  /** `float_to_half` takes the widening of a subnormal value back to it. */
  lemma SubnormalNarrows(h: bv16, f: bv32)
    ensures ExpH(h) == 0 && MantH(h) != 0 && WidensSubnormal(h, f) ==> FloatToHalf(f) == h
  {
    SubnormalNarrowsRange(h, f);
    SubnormalNarrowsValue(h, f);
    FloatToHalfSubnormal(f);
  }

  lemma HalfToFloatNormalWhen(h: bv16)
    ensures 0 < ExpH(h) < 31 ==> WidensNormal(h, HalfToFloat(h))
  {
    if 0 < ExpH(h) < 31 {
      HalfToFloatNormal(h);
    }
  }

  lemma HalfToFloatSubnormalWhen(h: bv16)
    ensures ExpH(h) == 0 && MantH(h) != 0 ==> WidensSubnormal(h, HalfToFloat(h))
  {
    if ExpH(h) == 0 && MantH(h) != 0 {
      HalfToFloatSubnormal(h);
    }
  }

  lemma RoundTripZero(h: bv16)
    ensures ExpH(h) == 0 && MantH(h) == 0 ==> FloatToHalf(HalfToFloat(h)) == h
  {
  }

  lemma RoundTripInfinity(h: bv16)
    ensures ExpH(h) == 31 && MantH(h) == 0 ==> FloatToHalf(HalfToFloat(h)) == h
  {
  }

  lemma RoundTripNormal(h: bv16)
    ensures 0 < ExpH(h) < 31 ==> FloatToHalf(HalfToFloat(h)) == h
  {
    HalfToFloatNormalWhen(h);
    NormalNarrows(h, HalfToFloat(h));
  }

  lemma RoundTripSubnormal(h: bv16)
    ensures ExpH(h) == 0 && MantH(h) != 0 ==> FloatToHalf(HalfToFloat(h)) == h
  {
    HalfToFloatSubnormalWhen(h);
    SubnormalNarrows(h, HalfToFloat(h));
  }

  lemma HalfClasses(h: bv16)
    ensures ExpH(h) == 0 || 0 < ExpH(h) < 31 || ExpH(h) == 31
  {
  }

  /** Converting a binary16 value that is not a NaN to binary32 and back
      gives the same bits, signed zeros and infinities included. */
  lemma RoundTrip(h: bv16)
    requires !HalfIsNaN(h)
    ensures FloatToHalf(HalfToFloat(h)) == h
  {
    HalfClasses(h);
    if ExpH(h) == 0 && MantH(h) == 0 {
      RoundTripZero(h);
    } else if ExpH(h) == 0 {
      RoundTripSubnormal(h);
    } else if ExpH(h) < 31 {
      RoundTripNormal(h);
    } else {
      RoundTripInfinity(h);
    }
  }

  /** A NaN does not survive: the payload 1 comes back as the finite value
      0x3c01 (1.0009765625). */
  lemma NaNRoundTripLost()
    ensures HalfIsNaN(0x7c01)
    ensures FloatToHalf(HalfToFloat(0x7c01)) == 0x3c01
  {
  }

  // ---------------------------------------------------------------------
  // Inputs on which float_to_half disagrees with IEEE 754 conversion.

  /** 2^17 is above the binary16 range, yet it comes out as negative zero:
      the exponent spills into the sign bit instead of saturating. */
  lemma FloatToHalfNoSaturation()
    ensures FloatToHalf(0x4800_0000) == 0x8000
  {
  }

  /** The input's sign bit is OR-ed into bit 15 on every path, so a
      negative input never gives a positive result.  The converse fails:
      overflow spills into bit 15 (`FloatToHalfNoSaturation`). */
  lemma FloatToHalfKeepsSign(f: bv32)
    ensures Sign32(f) != 0 ==> FloatToHalf(f) & 0x8000 != 0
  {
  }

  /** A signalling NaN (quiet bit 22 clear) whose payload sits in bits
      13..21 comes out as the finite number 0x3c01. */
  lemma FloatToHalfSignalingNaN()
    ensures FloatIsNaN(0x7f80_2000)
    ensures FloatToHalf(0x7f80_2000) == 0x3c01
  {
  }

  /** 0x377ff000 (about 1.5e-5, a binary16 subnormal) rounds with a carry,
      and the carry branch, meant for normal inputs, yields negative
      infinity. */
  lemma FloatToHalfUnderflowCarry()
    ensures Carries(0x377f_f000) && Exp32(0x377f_f000) == 110
    ensures FloatToHalf(0x377f_f000) == 0xfc00
  {
  }

  /** 2^-46 is far below the smallest binary16 subnormal, yet the
      subnormal shift amount is 0xfffffe20 (-480 as an `int`), whose low
      five bits are 0: the significand is not shifted and the result is
      2^-14. */
  lemma FloatToHalfShiftWrap()
    ensures DenormShiftAmount(0x2880_0000) == 0xffff_fe20
    ensures DenormShiftAmount(0x2880_0000) & 31 == 0
    ensures FloatToHalf(0x2880_0000) == 0x0400
  {
  }

  /** The shift amount is a valid `int` shift only at exponents 112 and
      113, where it is 1 and 0. */
  lemma ShiftAmountDefined(f: bv32)
    ensures DenormShiftAmount(f) < 32 <==> 112 <= Exp32(f) <= 113
    ensures DenormShiftAmount(f) < 0x8000_0000 <==> 112 <= Exp32(f) <= 113
    ensures Exp32(f) == 112 ==> DenormShiftAmount(f) == 1
    ensures Exp32(f) == 113 ==> DenormShiftAmount(f) == 0
  {
  }

  /** Every binary16 subnormal result below exponent 112 is computed with a
      shift amount of 2^31 or more, negative as an `int`, so the C shift is
      undefined on the whole subnormal range; the amount's low five bits are
      the intended shift `113 - exponent` (2 to 11), which is why the x86
      reading of `FloatToHalfSubnormal` holds. */
  lemma SubnormalShiftAmount(f: bv32)
    ensures 102 <= Exp32(f) <= 111 ==> DenormShiftAmount(f) >= 0x8000_0000
    ensures 102 <= Exp32(f) <= 111 ==> DenormShiftAmount(f) & 31 == 113 - Exp32(f)
  {
  }

  // ---------------------------------------------------------------------
  // The conversion the routine evidently intends.  It keeps the routine's
  // rounding (round half away from zero at the first dropped bit of a
  // normal result, rounding at bit 12 before the subnormal shift), and
  // differs from it only where the routine is wrong: values beyond the
  // binary16 range become infinities, NaNs stay NaNs, a subnormal whose
  // rounding carries stays a subnormal or the smallest normal, and values
  // below half the smallest subnormal become signed zeros.

  function FloatToHalfCorrected(f: bv32): bv16
  {
    if Exp32(f) == 0xff && Mant32(f) == 0 then 0x7c00 | Sign32(f)
    else if Exp32(f) == 0xff && Mant32(f) >= 0x40_0000 then 0x7e00 | Sign32(f)
    else if Exp32(f) == 0xff then
      // a NaN keeps the top ten bits of its payload, or becomes 0x7c01
      // when those are all zero
      (if Mant32(f) >> 13 == 0 then 0x7c01 else 0x7c00 | (Mant32(f) >> 13) as bv16) | Sign32(f)
    else if Exp32(f) > 142 then 0x7c00 | Sign32(f)
    else if Exp32(f) >= 113 then (((Exp32(f) - 113) << 10) + ((0x80_0000 + Mant32(f) + 0x1000) >> 13)) as bv16 | Sign32(f)
    else if Exp32(f) >= 102 then ((0x80_0000 + Mant32(f) + 0x1000) >> (126 - Exp32(f))) as bv16 | Sign32(f)
    else Sign32(f)
  }

  lemma CorrectedNormalBranch(f: bv32)
    ensures 113 <= Exp32(f) <= 142 ==> FloatToHalfCorrected(f) == (((Exp32(f) - 113) << 10) + ((0x80_0000 + Mant32(f) + 0x1000) >> 13)) as bv16 | Sign32(f)
  {
  }

  lemma CorrectedSubnormalBranch(f: bv32)
    ensures 102 <= Exp32(f) <= 112 ==> FloatToHalfCorrected(f) == ((0x80_0000 + Mant32(f) + 0x1000) >> (126 - Exp32(f))) as bv16 | Sign32(f)
  {
  }

  lemma CorrectedSpecialBranches(f: bv32)
    ensures Exp32(f) == 0xff && Mant32(f) == 0 ==> FloatToHalfCorrected(f) == 0x7c00 | Sign32(f)
    ensures Exp32(f) == 0xff && Mant32(f) >= 0x40_0000 ==> FloatToHalfCorrected(f) == 0x7e00 | Sign32(f)
  {
  }

  lemma CorrectedAgreesNormal(f: bv32)
    ensures 113 <= Exp32(f) <= 142 ==> FloatToHalfCorrected(f) == FloatToHalf(f)
  {
    CorrectedNormalBranch(f);
    FloatToHalfNormalRounding(f);
  }

  lemma CorrectedAgreesSubnormal(f: bv32)
    ensures 102 <= Exp32(f) <= 112 && !Carries(f) ==> FloatToHalfCorrected(f) == FloatToHalf(f)
  {
    CorrectedSubnormalBranch(f);
    FloatToHalfSubnormal(f);
  }

  lemma CorrectedAgreesSpecial(f: bv32)
    ensures Exp32(f) == 0xff && (Mant32(f) == 0 || Mant32(f) >= 0x40_0000) ==> FloatToHalfCorrected(f) == FloatToHalf(f)
  {
    CorrectedSpecialBranches(f);
    FloatToHalfSpecials(f);
  }

  /** The correction changes nothing where the routine is right: in the
      normal range, for subnormal results whose rounding does not carry,
      for infinities, and for NaNs with the quiet bit set. */
  lemma CorrectedAgrees(f: bv32)
    ensures (|| 113 <= Exp32(f) <= 142
             || (102 <= Exp32(f) <= 112 && !Carries(f))
             || (Exp32(f) == 0xff && (Mant32(f) == 0 || Mant32(f) >= 0x40_0000)))
      ==> FloatToHalfCorrected(f) == FloatToHalf(f)
  {
    CorrectedAgreesNormal(f);
    CorrectedAgreesSubnormal(f);
    CorrectedAgreesSpecial(f);
  }

  lemma CorrectedNormalMagnitude(f: bv32)
    ensures 113 <= Exp32(f) <= 142 ==> FloatToHalfCorrected(f) & 0x7fff <= 0x7c00
  {
    CorrectedNormalBranch(f);
  }

  lemma CorrectedNormalOverflow(f: bv32)
    ensures 113 <= Exp32(f) <= 142 ==>
      (FloatToHalfCorrected(f) & 0x7fff == 0x7c00 <==> Exp32(f) == 142 && Mant32(f) >= 0x7f_f000)
  {
    CorrectedNormalBranch(f);
  }

  lemma CorrectedSubnormalMagnitude(f: bv32)
    ensures 102 <= Exp32(f) <= 112 ==> FloatToHalfCorrected(f) & 0x7fff <= 0x400
  {
    CorrectedSubnormalBranch(f);
  }

  lemma CorrectedSignBit(f: bv32)
    ensures FloatToHalfCorrected(f) & 0x8000 == Sign32(f)
  {
  }

  lemma HalfNaNMagnitude(x: bv16)
    ensures HalfIsNaN(x) <==> x & 0x7fff > 0x7c00
  {
  }

  /** Every finite binary32 value becomes a finite binary16 value or an
      infinity, never a NaN. */
  lemma CorrectedFiniteMagnitude(f: bv32)
    ensures Exp32(f) != 0xff ==> FloatToHalfCorrected(f) & 0x7fff <= 0x7c00
  {
    CorrectedNormalMagnitude(f);
    CorrectedSubnormalMagnitude(f);
  }

  lemma CorrectedNaNSpecial(f: bv32)
    ensures Exp32(f) == 0xff ==> (FloatIsNaN(f) <==> FloatToHalfCorrected(f) & 0x7fff > 0x7c00)
  {
  }

  /** NaNs, and only NaNs, become NaNs. */
  lemma CorrectedNaN(f: bv32)
    ensures FloatIsNaN(f) <==> HalfIsNaN(FloatToHalfCorrected(f))
  {
    HalfNaNMagnitude(FloatToHalfCorrected(f));
    CorrectedFiniteMagnitude(f);
    CorrectedNaNSpecial(f);
  }

  /** A finite value becomes an infinity exactly when it is at least
      65520, the binary16 maximum plus half a unit in its last place. */
  lemma CorrectedOverflow(f: bv32)
    ensures Exp32(f) != 0xff ==>
      (FloatToHalfCorrected(f) & 0x7fff == 0x7c00 <==> Exp32(f) > 142 || (Exp32(f) == 142 && Mant32(f) >= 0x7f_f000))
  {
    CorrectedNormalOverflow(f);
    CorrectedSubnormalMagnitude(f);
  }

  lemma CorrectedRoundTripZero(h: bv16)
    ensures ExpH(h) == 0 && MantH(h) == 0 ==> FloatToHalfCorrected(HalfToFloat(h)) == h
  {
  }

  lemma CorrectedRoundTripSubnormal(h: bv16)
    ensures ExpH(h) == 0 && MantH(h) != 0 ==> FloatToHalfCorrected(HalfToFloat(h)) == h
  {
    HalfToFloatSubnormalWhen(h);
    SubnormalNarrowsRange(h, HalfToFloat(h));
    CorrectedAgreesSubnormal(HalfToFloat(h));
    RoundTripSubnormal(h);
  }

  lemma CorrectedRoundTripNormal(h: bv16)
    ensures 0 < ExpH(h) < 31 ==> FloatToHalfCorrected(HalfToFloat(h)) == h
  {
    HalfToFloatNormalWhen(h);
    NormalNarrowsRange(h, HalfToFloat(h));
    CorrectedAgreesNormal(HalfToFloat(h));
    RoundTripNormal(h);
  }

  lemma CorrectedRoundTripInfinity(h: bv16)
    ensures ExpH(h) == 31 && MantH(h) == 0 ==> FloatToHalfCorrected(HalfToFloat(h)) == h
  {
  }

  /** The corrected conversion is still a left inverse of `half_to_float`
      on every binary16 value that is not a NaN. */
  lemma CorrectedRoundTrip(h: bv16)
    requires !HalfIsNaN(h)
    ensures FloatToHalfCorrected(HalfToFloat(h)) == h
  {
    HalfClasses(h);
    if ExpH(h) == 0 && MantH(h) == 0 {
      CorrectedRoundTripZero(h);
    } else if ExpH(h) == 0 {
      CorrectedRoundTripSubnormal(h);
    } else if ExpH(h) < 31 {
      CorrectedRoundTripNormal(h);
    } else {
      CorrectedRoundTripInfinity(h);
    }
  }

  lemma CorrectedNaNPayload(h: bv16)
    ensures ExpH(h) == 31 && MantH(h) != 0 && MantH(h) < 0x200 ==> FloatToHalfCorrected(HalfToFloat(h)) == h
  {
  }

  /** A NaN survives the corrected round trip as a NaN, and a NaN whose
      quiet bit is clear survives it bit for bit. */
  lemma CorrectedNaNRoundTrip(h: bv16)
    requires HalfIsNaN(h)
    ensures HalfIsNaN(FloatToHalfCorrected(HalfToFloat(h)))
    ensures MantH(h) < 0x200 ==> FloatToHalfCorrected(HalfToFloat(h)) == h
  {
    HalfToFloatNaN(h);
    CorrectedNaN(HalfToFloat(h));
    CorrectedNaNPayload(h);
  }

  /** The corrected results on the inputs that expose the routine. */
  lemma CorrectedExamples()
    ensures FloatToHalfCorrected(0x4800_0000) == 0x7c00
    ensures FloatToHalfCorrected(0x7f80_2000) == 0x7c01
    ensures FloatToHalfCorrected(0x377f_f000) == 0x0100
    ensures FloatToHalfCorrected(0x2880_0000) == 0
  {
  }

  /** Values below half the smallest binary16 subnormal become signed zeros. */
  lemma CorrectedUnderflowToZero(f: bv32)
    ensures Exp32(f) <= 101 ==> FloatToHalfCorrected(f) & 0x7fff == 0
  {
  }
}

=== FILE: outcome.dfy ===
/** What a call of the loader or the screenshot writer comes to. */
module Outcomes {

  /** `Done` carries the result; `Thrown` the message of the `FWException`
      that escapes; `Undefined` marks an input on which the C++ reads or
      writes out of bounds, overflows a signed `int`, or uses bytes a
      failed stream read left indeterminate.  The model claims nothing
      about what the program does there. */
  datatype Outcome<T> = Done(value: T) | Thrown(message: string) | Undefined

  /** A value that may be absent: the contents of a file that could not be
      opened are `None`. */
  datatype Option<T> = None | Some(value: T)
}

=== FILE: power_of_two.dfy ===
/** `is_power_of_two` and `next_power_of_two` on 32-bit unsigned integers. */
module PowerOfTwo {

  /** `is_power_of_two`: nonzero, and clearing the lowest set bit
      (`n & (n - 1)`) leaves nothing. */
  function IsPowerOfTwo(n: bv32): bool
  {
    n != 0 && n & (n - 1) == 0
  }

  lemma Halves(n: bv32)
    requires n != 0
    ensures (n >> 1) as int < n as int
  {
  }

  /** Reference definition: the number of set bits. */
  function PopCount(n: bv32): nat
    decreases n as int
  {
    if n == 0 then 0 else Halves(n); (n & 1) as nat + PopCount(n >> 1)
  }

  lemma PopCountZero(n: bv32)
    ensures PopCount(n) == 0 <==> n == 0
  {
    if n != 0 {
      if n & 1 == 0 {
        assert n >> 1 != 0;
      }
    }
  }

  lemma OddPowerOfTwo(n: bv32)
    requires n & 1 == 1
    ensures IsPowerOfTwo(n) <==> n >> 1 == 0
  {
  }

  lemma EvenPowerOfTwo(n: bv32)
    requires n != 0 && n & 1 == 0
    ensures IsPowerOfTwo(n) <==> IsPowerOfTwo(n >> 1)
  {
  }

  /** A number passes `is_power_of_two` exactly when it has one set bit. */
  lemma {:induction false} IsPowerOfTwoOneBit(n: bv32)
    ensures IsPowerOfTwo(n) <==> PopCount(n) == 1
    decreases n as int
  {
    if n != 0 {
      Halves(n);
      if n & 1 == 1 {
        OddPowerOfTwo(n);
        PopCountZero(n >> 1);
      } else {
        EvenPowerOfTwo(n);
        IsPowerOfTwoOneBit(n >> 1);
      }
    }
  }

  /** The shift amounts the loop of `next_power_of_two` takes, in order,
      and the value that ends it. */
  const Shifts: seq<bv32> := [1, 2, 4, 8, 16, 32]

  /** One turn of that loop: `number | number >> i`. */
  function Step(v: bv32, i: bv32): bv32
    requires i < 32
  {
    v | (v >> i)
  }

  /** The value after the first `k` turns of the loop: every set bit of `m`
      copied into the positions below it, down to `2^k - 1` places. */
  function Smear(m: bv32, k: nat): bv32
    requires k <= 5
  {
    if k == 0 then m else Step(Smear(m, k - 1), Shifts[k - 1])
  }

  /** All five turns. */
  function SmearAll(m: bv32): bv32
  {
    Step(Step(Step(Step(Step(m, 1), 2), 4), 8), 16)
  }

  lemma SmearOne(m: bv32)
    ensures Smear(m, 1) == Step(m, 1)
  {
  }

  lemma SmearTwo(m: bv32)
    ensures Smear(m, 2) == Step(Smear(m, 1), 2)
  {
  }

  lemma SmearThree(m: bv32)
    ensures Smear(m, 3) == Step(Smear(m, 2), 4)
  {
  }

  lemma SmearFour(m: bv32)
    ensures Smear(m, 4) == Step(Smear(m, 3), 8)
  {
  }

  lemma SmearFive(m: bv32)
    ensures Smear(m, 5) == Step(Smear(m, 4), 16)
  {
  }

  lemma SmearUnfolds(m: bv32)
    ensures Smear(m, 5) == SmearAll(m)
  {
    SmearOne(m);
    SmearTwo(m);
    SmearThree(m);
    SmearFour(m);
    SmearFive(m);
  }

  /** The smeared value plus one is a power of two, or wraps to zero when
      the top bit is set. */
  lemma SmearPowerOfTwo(number: bv32)
    requires 0 < number <= 0x8000_0000
    ensures IsPowerOfTwo(SmearAll(number - 1) + 1)
  {
  }

  lemma SmearAbove(number: bv32)
    requires 0 < number <= 0x8000_0000
    ensures number <= SmearAll(number - 1) + 1
  {
  }

  lemma SmearTight(number: bv32)
    requires 0 < number <= 0x8000_0000
    ensures (SmearAll(number - 1) + 1) >> 1 < number
  {
  }

  lemma SmearWraps(number: bv32)
    requires number > 0x8000_0000
    ensures SmearAll(number - 1) + 1 == 0
  {
  }

  lemma SmearPowerOfTwoFixed(n: bv32)
    requires IsPowerOfTwo(n)
    ensures SmearAll(n - 1) + 1 == n
  {
  }

  /** The loop of `next_power_of_two`: five turns of `Step`, with shifts
      1, 2, 4, 8 and 16. */
  method SmearBits(m: bv32) returns (n: bv32)
    ensures n == SmearAll(m)
  {
    n := m;
    var i: bv32 := 1;
    ghost var k := 0;
    while i < 32
      invariant k <= 5 && i == Shifts[k]
      invariant n == Smear(m, k)
    {
      n := Step(n, i);
      i := i << 1;
      k := k + 1;
    }
    SmearUnfolds(m);
  }

  /** `next_power_of_two`: the least power of two not below `number`,
      1 for 0, and 0 (wrapped) when no 32-bit power of two is large enough. */
  method NextPowerOfTwo(number: bv32) returns (r: bv32)
    ensures number == 0 ==> r == 1
    ensures 0 < number <= 0x8000_0000 ==> IsPowerOfTwo(r)
    ensures 0 < number <= 0x8000_0000 ==> number <= r
    ensures 0 < number <= 0x8000_0000 ==> r >> 1 < number
    ensures IsPowerOfTwo(number) ==> r == number
    ensures number > 0x8000_0000 ==> r == 0
  {
    if number == 0 {
      return 1;
    }
    var n := SmearBits(number - 1);
    r := n + 1;
    if number <= 0x8000_0000 {
      SmearPowerOfTwo(number);
      SmearAbove(number);
      SmearTight(number);
    } else {
      SmearWraps(number);
    }
    if IsPowerOfTwo(number) {
      SmearPowerOfTwoFixed(number);
    }
  }
}

=== FILE: rle.dfy ===
/** The run-length packet scheme shared by TGA image types 9, 10 and 11
    (section "Run-length encoded" of the Truevision TGA File Format
    Specification, version 2.0).  A packet is a header byte whose low seven
    bits plus one give a count; with the high bit set one element follows
    and stands for `count` copies of itself, otherwise `count` elements
    follow.  The loaders decode packets until the pixel buffer is reached
    or passed; they never clip a packet. */
module Rle {
  import opened Outcomes
  import Bits

  /** `blockSize = 1 + (packetHeader & 0x7F)`. */
  function BlockSize(header: bv8): (n: nat)
    ensures 1 <= n <= 128
  {
    1 + (header & 0x7f) as nat
  }

  /** `packetHeader & 0x80`: a run packet. */
  predicate IsRun(header: bv8)
  {
    header & 0x80 != 0
  }

  /** `n` copies of `e`, one after the other. */
  function Repeat(e: seq<bv8>, n: nat): (r: seq<bv8>)
    ensures |r| == |e| * n
  {
    if n == 0 then [] else e + Repeat(e, n - 1)
  }

  lemma SplitProduct(count: nat, n: nat, size: nat)
    requires n <= count
    ensures n * size + (count - n) * size == count * size
  {
  }

  lemma ProductMonotone(n: nat, count: nat, size: nat)
    requires n <= count
    ensures n * size <= count * size
  {
  }

  /** The loop of the RLE loaders: `count` elements of `size` bytes each
      decoded from the packets at the front of `src`.  A packet longer than
      what is left of the buffer would be written past its end, and a read
      past the end of the stream leaves the element indeterminate; both are
      `Undefined`.  Bytes after the last packet needed are not read. */
  function Expand(src: seq<bv8>, count: nat, size: nat): (r: Outcome<seq<bv8>>)
    ensures !r.Thrown?
    ensures r.Done? ==> |r.value| == count * size
    decreases count
  {
    if count == 0 then Done([])
    else if |src| == 0 then Undefined
    else
      var n := BlockSize(src[0]);
      if n > count then Undefined
      else
        var len := if IsRun(src[0]) then size else n * size;
        if |src| < 1 + len then Undefined
        else
          var rest := Expand(src[1 + len..], count - n, size);
          if rest.Done? then
            var piece := Piece(src[1..1 + len], n, size, IsRun(src[0]));
            PieceLength(|piece|, |rest.value|, n, count, size);
            Done(piece + rest.value)
          else Undefined
  }

  /** The elements one packet stands for: its single element repeated `n`
      times for a run, its `n` stored elements for a raw packet. */
  function Piece(elems: seq<bv8>, n: nat, size: nat, run: bool): (r: seq<bv8>)
    requires |elems| == (if run then size else n * size)
    ensures |r| == n * size
  {
    if run then PieceSize(|elems|, |elems| * n, n, size, run); Repeat(elems, n) else elems
  }

  /** A run repeats one element `n` times; a raw packet stores its `n`. */
  lemma PieceSize(elemsLen: nat, pieceLen: nat, n: nat, size: nat, run: bool)
    requires elemsLen == (if run then size else n * size)
    requires pieceLen == (if run then elemsLen * n else elemsLen)
    ensures pieceLen == n * size
  {
  }

  /** A packet's `n` elements and the `count - n` after them make `count`. */
  lemma PieceLength(pieceLen: nat, restLen: nat, n: nat, count: nat, size: nat)
    requires n <= count && pieceLen == n * size && restLen == (count - n) * size
    ensures pieceLen + restLen == count * size
  {
    SplitProduct(count, n, size);
  }

  /** A packet as a writer would produce it: a run of `length` copies of
      one element, or `length` elements stored as they are. */
  datatype Packet = Run(length: nat, element: seq<bv8>) | Raw(length: nat, elements: seq<bv8>)

  predicate ValidPacket(p: Packet, size: nat)
  {
    && 1 <= p.length <= 128
    && (p.Run? ==> |p.element| == size)
    && (p.Raw? ==> |p.elements| == p.length * size)
  }

  predicate ValidPackets(ps: seq<Packet>, size: nat)
  {
    forall i :: 0 <= i < |ps| ==> ValidPacket(ps[i], size)
  }

  function RunHeader(length: nat): bv8
    requires 1 <= length <= 128
  {
    0x80 | (length - 1) as bv8
  }

  function RawHeader(length: nat): bv8
    requires 1 <= length <= 128
  {
    (length - 1) as bv8
  }

  lemma RunHeaderIsRun(length: nat)
    requires 1 <= length <= 128
    ensures IsRun(RunHeader(length))
  {
  }

  lemma RunHeaderCount(length: nat)
    requires 1 <= length <= 128
    ensures BlockSize(RunHeader(length)) == length
  {
    var b := (length - 1) as bv8;
    Bits.ByteValue(length - 1);
    LowBits(b);
  }

  lemma RawHeaderIsRaw(length: nat)
    requires 1 <= length <= 128
    ensures !IsRun(RawHeader(length))
  {
  }

  lemma RawHeaderCount(length: nat)
    requires 1 <= length <= 128
    ensures BlockSize(RawHeader(length)) == length
  {
    var b := (length - 1) as bv8;
    Bits.ByteValue(length - 1);
    LowBits(b);
  }

  lemma LowBits(b: bv8)
    requires b as int < 0x80
    ensures (0x80 | b) & 0x7f == b && b & 0x7f == b
  {
  }

  /** The bytes of one packet. */
  function Encode(p: Packet, size: nat): seq<bv8>
    requires ValidPacket(p, size)
  {
    match p
    case Run(length, element) => [RunHeader(length)] + element
    case Raw(length, elements) => [RawHeader(length)] + elements
  }

  function EncodeAll(ps: seq<Packet>, size: nat): seq<bv8>
    requires ValidPackets(ps, size)
  {
    if |ps| == 0 then [] else Encode(ps[0], size) + EncodeAll(ps[1..], size)
  }

  /** The elements one packet stands for. */
  function Elements(p: Packet): seq<bv8>
  {
    match p
    case Run(length, element) => Repeat(element, length)
    case Raw(_, elements) => elements
  }

  function ElementsAll(ps: seq<Packet>): seq<bv8>
  {
    if |ps| == 0 then [] else Elements(ps[0]) + ElementsAll(ps[1..])
  }

  /** The number of elements the packets stand for. */
  function Total(ps: seq<Packet>): nat
  {
    if |ps| == 0 then 0 else ps[0].length + Total(ps[1..])
  }

  /** Valid packets stand for `Total(ps)` elements of `size` bytes. */
  lemma {:induction false} ElementsLength(ps: seq<Packet>, size: nat)
    requires ValidPackets(ps, size)
    ensures |ElementsAll(ps)| == Total(ps) * size
  {
    if |ps| > 0 {
      TailValid(ps, size);
      ElementsLength(ps[1..], size);
      PacketLength(ps[0], size);
      Distribute(ps[0].length, Total(ps[1..]), size);
    }
  }

  /** One valid packet stands for `length` elements of `size` bytes. */
  lemma PacketLength(p: Packet, size: nat)
    requires ValidPacket(p, size)
    ensures |Elements(p)| == p.length * size
  {
  }

  lemma Distribute(a: nat, b: nat, size: nat)
    ensures (a + b) * size == a * size + b * size
  {
  }

  lemma TailValid(ps: seq<Packet>, size: nat)
    requires ValidPackets(ps, size) && |ps| > 0
    ensures ValidPackets(ps[1..], size)
  {
    forall i | 0 <= i < |ps[1..]| ensures ValidPacket(ps[1..][i], size) {
      assert ps[1..][i] == ps[i + 1];
    }
  }

  /** Decoding one packet's bytes followed by anything gives its elements
      and leaves the rest of the stream where the next packet starts. */
  lemma ExpandPacket(p: Packet, size: nat, tail: seq<bv8>, count: nat)
    requires ValidPacket(p, size) && p.length <= count
    ensures Expand(Encode(p, size) + tail, count, size)
         == (var rest := Expand(tail, count - p.length, size);
             if rest.Done? then Done(Elements(p) + rest.value) else Undefined)
  {
    match p
    case Run(length, element) =>
      ExpandRun(length, element, size, tail, count);
    case Raw(length, elements) =>
      ExpandRaw(length, elements, size, tail, count);
  }

  lemma ExpandRun(length: nat, element: seq<bv8>, size: nat, tail: seq<bv8>, count: nat)
    requires 1 <= length <= 128 && |element| == size && length <= count
    ensures Expand([RunHeader(length)] + element + tail, count, size)
         == (var rest := Expand(tail, count - length, size);
             if rest.Done? then Done(Repeat(element, length) + rest.value) else Undefined)
  {
    var src := [RunHeader(length)] + element + tail;
    RunHeaderIsRun(length);
    RunHeaderCount(length);
    assert src[0] == RunHeader(length);
    assert src[1..1 + size] == element;
    assert src[1 + size..] == tail;
  }

  lemma ExpandRaw(length: nat, elements: seq<bv8>, size: nat, tail: seq<bv8>, count: nat)
    requires 1 <= length <= 128 && |elements| == length * size && length <= count
    ensures Expand([RawHeader(length)] + elements + tail, count, size)
         == (var rest := Expand(tail, count - length, size);
             if rest.Done? then Done(elements + rest.value) else Undefined)
  {
    var src := [RawHeader(length)] + elements + tail;
    var k := |elements|;
    RawHeaderIsRaw(length);
    RawHeaderCount(length);
    assert src[0] == RawHeader(length);
    assert src[1..1 + k] == elements;
    assert src[1 + k..] == tail;
  }

  /** Packets that tile `Total(ps)` elements exactly decode to the elements
      they stand for, whatever follows them in the stream. */
  lemma {:induction false} ExpandEncoded(ps: seq<Packet>, size: nat, tail: seq<bv8>)
    requires ValidPackets(ps, size)
    ensures Expand(EncodeAll(ps, size) + tail, Total(ps), size) == Done(ElementsAll(ps))
  {
    if |ps| > 0 {
      var p := ps[0];
      var next := EncodeAll(ps[1..], size) + tail;
      assert ValidPacket(p, size);
      TailValid(ps, size);
      assert EncodeAll(ps, size) + tail == Encode(p, size) + next;
      ExpandEncoded(ps[1..], size, tail);
      ExpandStep(p, size, next, Total(ps), Total(ps[1..]), ElementsAll(ps[1..]));
    }
  }

  /** `ExpandPacket` where the rest of the stream decodes. */
  lemma ExpandStep(p: Packet, size: nat, next: seq<bv8>, count: nat, restCount: nat, restElements: seq<bv8>)
    requires ValidPacket(p, size) && count == p.length + restCount
    requires Expand(next, restCount, size) == Done(restElements)
    ensures Expand(Encode(p, size) + next, count, size) == Done(Elements(p) + restElements)
  {
    ExpandPacket(p, size, next, count);
  }

  /** A single packet that covers every element and ends the stream
      decodes to the elements it stands for. */
  lemma ExpandLastPacket(src: seq<bv8>, count: nat, size: nat)
    requires 0 < |src| && BlockSize(src[0]) == count
    requires |src| == 1 + (if IsRun(src[0]) then size else count * size)
    ensures Expand(src, count, size) == Done(if IsRun(src[0]) then Repeat(src[1..], count) else src[1..])
  {
    var len := if IsRun(src[0]) then size else count * size;
    assert src[1 + len..] == [];
    assert Expand(src[1 + len..], 0, size) == Done([]);
    var piece := if IsRun(src[0]) then Repeat(src[1..1 + len], count) else src[1..1 + len];
    assert src[1..1 + len] == src[1..];
    assert Expand(src, count, size) == Done(piece + []);
    assert piece + [] == piece;
  }

  /** A packet whose count exceeds the elements still missing is never
      clipped: the loaders would write past the end of the pixel buffer. */
  lemma PacketOverrun(src: seq<bv8>, count: nat, size: nat)
    requires 0 < count && |src| > 0 && BlockSize(src[0]) > count
    ensures Expand(src, count, size) == Undefined
  {
  }
}

=== FILE: screenshot.dfy ===
/** `save_gl_front_buffer`: the viewport check, the name of the file and the
    bytes written to it.  The pixels come from `glReadPixels`, which is not
    part of this model: they are a parameter holding what the call leaves
    in the `tgaWidth * tgaHeight * 3`-byte buffer.  How many bytes the call
    writes is modelled, since it decides whether that buffer overflows. */
module Screenshot {
  import opened Bits
  import opened Outcomes
  import opened Tga
  import TgaProperties
  import Rle

  const InvalidViewport := "Invalid viewport dimensions."

  /** A screenshot as written: the file's name, its contents, and the
      value the `GLuint` counter `sShotCounter` takes afterwards. */
  datatype Shot = Shot(name: string, bytes: seq<bv8>, nextCounter: nat)

  /** The decimal digits of `n`, most significant first, as `<<` prints an
      unsigned integer. */
  function Decimal(n: nat): (r: string)
    ensures |r| >= 1
    decreases n
  {
    if n < 10 then [Digit(n)] else Decimal(n / 10) + [Digit(n % 10)]
  }

  function Digit(d: nat): char
    requires d < 10
  {
    ('0' as int + d) as char
  }

  /** The value of a string of decimal digits. */
  function DigitsValue(s: string): nat
  {
    if |s| == 0 then 0
    else DigitsValue(s[..|s| - 1]) * 10 + (if '0' <= s[|s| - 1] <= '9' then (s[|s| - 1] as int - '0' as int) else 0)
  }

  /** Reading the digits back gives the number. */
  lemma {:induction false} DecimalValue(n: nat)
    ensures DigitsValue(Decimal(n)) == n
    decreases n
  {
    var s := Decimal(n);
    if n >= 10 {
      DecimalValue(n / 10);
      assert s[..|s| - 1] == Decimal(n / 10);
    }
  }

  /** Every character printed is a digit. */
  lemma {:induction false} DecimalDigits(n: nat)
    ensures forall i :: 0 <= i < |Decimal(n)| ==> '0' <= Decimal(n)[i] <= '9'
    decreases n
  {
    if n >= 10 {
      DecimalDigits(n / 10);
    }
  }

  /** Numbers below 1000 print in at most three digits. */
  lemma {:induction false} DecimalLength(n: nat)
    ensures n < 10 ==> |Decimal(n)| == 1
    ensures 10 <= n < 100 ==> |Decimal(n)| == 2
    ensures 100 <= n < 1000 ==> |Decimal(n)| == 3
  {
    if n >= 10 {
      DecimalLength(n / 10);
    }
  }

  /** The counter with a `'0'` in front below 10 and another below 100. */
  function Padded(counter: nat): string
  {
    (if counter < 10 then "0" else "") + (if counter < 100 then "0" else "") + Decimal(counter)
  }

  /** `"screenshot"`, the padded counter, `".tga"`. */
  function ShotName(counter: nat): string
  {
    "screenshot" + Padded(counter) + ".tga"
  }

  /** Counters 1 to 999 print in exactly three digits that read back as
      the counter. */
  lemma PaddedDigits(counter: nat)
    requires counter < 1000
    ensures |Padded(counter)| == 3
    ensures DigitsValue(Padded(counter)) == counter
  {
    DecimalLength(counter);
    DecimalValue(counter);
    var d := Decimal(counter);
    if counter < 10 {
      assert Padded(counter) == "0" + ("0" + d);
      ZeroPrefix(d);
      ZeroPrefix("0" + d);
    } else if counter < 100 {
      assert Padded(counter) == "0" + d;
      ZeroPrefix(d);
    } else {
      assert Padded(counter) == d;
    }
  }

  /** Below 1000 every name has the same length, and the counter can be
      read back from characters 10 to 12. */
  lemma ShotNameDigits(counter: nat)
    requires counter < 1000
    ensures |ShotName(counter)| == 17
    ensures DigitsValue(ShotName(counter)[10..13]) == counter
  {
    PaddedDigits(counter);
    assert ShotName(counter)[10..13] == Padded(counter);
  }

  /** A leading zero does not change the value. */
  lemma {:induction false} ZeroPrefix(s: string)
    ensures DigitsValue("0" + s) == DigitsValue(s)
    decreases |s|
  {
    if |s| > 0 {
      assert ("0" + s)[..|"0" + s| - 1] == "0" + s[..|s| - 1];
      ZeroPrefix(s[..|s| - 1]);
    }
  }

  /** The 18 header bytes of `tgaHeader`: type 2, 24 bits per pixel,
      descriptor 0, no ID field and no colour map, and the dimensions
      stored `& 255` and `>> 8 & 255`. */
  function ShotHeader(tgaWidth: int, tgaHeight: int): (h: Header)
    ensures h[0] == 0 && h[1] == 0 && h[2] == TypeRgb && h[16] == 24 && h[17] == 0
  {
    [0, 0, 2, 0, 0, 0, 0, 0, 0, 0, 0, 0,
     ByteOf(tgaWidth), ByteOf(tgaWidth / 256), ByteOf(tgaHeight), ByteOf(tgaHeight / 256), 24, 0]
  }

  /** A dimension below 65536 reads back from the header unchanged. */
  lemma ShotHeaderWidth(tgaWidth: int, tgaHeight: int)
    requires 0 <= tgaWidth < 0x1_0000
    ensures Width(ShotHeader(tgaWidth, tgaHeight)) == tgaWidth
  {
    WidthUnpacked(ShotHeader(tgaWidth, tgaHeight));
    Unpack16OfBytes(tgaWidth);
  }

  lemma ShotHeaderHeight(tgaWidth: int, tgaHeight: int)
    requires 0 <= tgaHeight < 0x1_0000
    ensures Height(ShotHeader(tgaWidth, tgaHeight)) == tgaHeight
  {
    HeightUnpacked(ShotHeader(tgaWidth, tgaHeight));
    Unpack16OfBytes(tgaHeight);
  }

  /** The row stride `glReadPixels` packs `GL_BGR` / `GL_UNSIGNED_BYTE` rows
      with, once `GL_PACK_ALIGNMENT` is 4 and `GL_PACK_ROW_LENGTH` is 0:
      three bytes per pixel, rounded up to a multiple of 4. */
  function PackedRow(width: nat): (r: nat)
    ensures 3 * width <= r < 3 * width + 4 && r % 4 == 0
    ensures r == 3 * width <==> (3 * width) % 4 == 0
  {
    (3 * width + 3) / 4 * 4
  }

  /** The bytes `glReadPixels` stores for a `width` by `height` rectangle:
      every row but the last is padded to the stride. */
  function PackedBytes(width: nat, height: nat): nat
    requires 0 < height
  {
    (height - 1) * PackedRow(width) + 3 * width
  }

  /** The source reads the rectangle `(x, y, width, height)` into a buffer of
      `(width - x) * (height - y) * 3` bytes.  That fits exactly when the
      viewport starts at the origin and the rows need no padding (or there
      is only one row). */
  lemma ReadFits(x: int, y: int, width: int, height: int)
    requires 0 <= x < width && 0 <= y < height
    ensures PackedBytes(width, height) <= (width - x) * (height - y) * 3
        <==> x == 0 && y == 0 && (height == 1 || (3 * width) % 4 == 0)
  {
    PaddingExcess(width, height);
    BufferShortfall(x, y, width, height);
  }

  /** Padding adds bytes beyond `3 * (width * height)` exactly when there is
      a padded row, that is a row before the last whose length is not a
      multiple of 4. */
  lemma PaddingExcess(width: nat, height: nat)
    requires 0 < height
    ensures PackedBytes(width, height) >= 3 * (width * height)
    ensures PackedBytes(width, height) == 3 * (width * height) <==> height == 1 || (3 * width) % 4 == 0
  {
    var s := PackedRow(width);
    assert PackedBytes(width, height) == (height - 1) * s + 3 * width;
    assert 3 * (width * height) == (height - 1) * (3 * width) + 3 * width;
    assert (height - 1) * s - (height - 1) * (3 * width) == (height - 1) * (s - 3 * width);
    if height > 1 && (3 * width) % 4 != 0 {
      assert s - 3 * width > 0;
    }
  }

  /** The buffer is smaller than the whole rectangle exactly when the
      viewport does not start at the origin. */
  lemma BufferShortfall(x: nat, y: nat, width: nat, height: nat)
    requires x < width && y < height
    ensures (width - x) * (height - y) * 3 <= 3 * (width * height)
    ensures (width - x) * (height - y) * 3 == 3 * (width * height) <==> x == 0 && y == 0
  {
    var tw, th := width - x, height - y;
    Rle.SplitProduct(width, x, height);
    Rle.SplitProduct(height, y, tw);
    assert width * height == x * height + y * tw + th * tw;
    assert tw * th == th * tw;
    if x > 0 {
      assert x * height > 0;
    } else if y > 0 {
      assert y * tw > 0;
    }
  }

  /** `save_gl_front_buffer(x, y, width, height)` with the screenshot
      counter at `counter`; `writable` says whether the file could be opened
      for writing, and `pixels` holds the bytes of the pixel buffer.  The
      viewport must start inside the given size; the image is what lies
      to the right of and above `(x, y)`.  `glReadPixels` is asked for the
      whole `width` by `height` rectangle, so unless `ReadFits` holds it
      writes past the end of the buffer. */
  function SaveFrontBuffer(x: int, y: int, width: int, height: int, counter: nat, writable: bool,
                           pixels: seq<bv8>): (r: Outcome<Shot>)
    requires 0 <= x < width && 0 <= y < height ==> |pixels| == (width - x) * (height - y) * 3
    ensures r.Thrown? <==> !(0 <= x < width && 0 <= y < height)
                           || (!writable && (width - x) * (height - y) * 3 <= IntMax
                               && x == 0 && y == 0 && (height == 1 || (3 * width) % 4 == 0))
    ensures r.Thrown? && !(0 <= x < width && 0 <= y < height) ==> r.message == InvalidViewport
    ensures r == Undefined <==> 0 <= x < width && 0 <= y < height
                                && ((width - x) * (height - y) * 3 > IntMax
                                    || !(x == 0 && y == 0 && (height == 1 || (3 * width) % 4 == 0)))
    ensures r.Done? ==> r.value.name == ShotName(counter)
    ensures r.Done? ==> r.value.nextCounter == (counter + 1) % 0x1_0000_0000
    ensures r.Done? ==> |r.value.bytes| == 18 + |pixels|
    ensures r.Done? ==> r.value.bytes[18..] == pixels
  {
    if x >= width || y >= height || x < 0 || y < 0 then Thrown(InvalidViewport)
    else
      var tgaWidth := width - x;
      var tgaHeight := height - y;
      ReadFits(x, y, width, height);
      if tgaWidth * tgaHeight * 3 > IntMax then Undefined
      else if PackedBytes(width, height) > tgaWidth * tgaHeight * 3 then Undefined
      else if !writable then Thrown(FileNotFound(ShotName(counter)))
      else Done(Shot(ShotName(counter), ShotHeader(tgaWidth, tgaHeight) + pixels, (counter + 1) % 0x1_0000_0000))
  }

  /** What the screenshot writer saves, the loader reads back: the same
      dimensions, BGR, and the same pixel bytes. */
  lemma ShotRoundTrip(x: int, y: int, width: int, height: int, counter: nat, pixels: seq<bv8>)
    requires 0 <= x < width && 0 <= y < height
    requires x == 0 && y == 0 && (height == 1 || (3 * width) % 4 == 0)
    requires width - x < 0x1_0000 && height - y < 0x1_0000
    requires (width - x) * (height - y) * 3 <= IntMax
    requires |pixels| == (width - x) * (height - y) * 3
    ensures SaveFrontBuffer(x, y, width, height, counter, true, pixels).Done?
    ensures Load(ShotName(counter), Some(SaveFrontBuffer(x, y, width, height, counter, true, pixels).value.bytes))
         == Done(Image(width - x, height - y, PixelFormatBgr, pixels))
  {
    var tgaWidth, tgaHeight := width - x, height - y;
    var h := ShotHeader(tgaWidth, tgaHeight);
    ShotHeaderWidth(tgaWidth, tgaHeight);
    ShotHeaderHeight(tgaWidth, tgaHeight);
    assert h + [] + pixels + [] == h + pixels;
    TgaProperties.LoadCopiesPixels(ShotName(counter), h, [], pixels, []);
  }

  /** The header keeps only the low 16 bits of each dimension: a defined
      65536 by 1 screenshot stores width 0, and loading it throws. */
  lemma ShotWidthTruncated(counter: nat, pixels: seq<bv8>)
    requires |pixels| == 196608
    ensures SaveFrontBuffer(0, 0, 65536, 1, counter, true, pixels)
         == Done(Shot(ShotName(counter), ShotHeader(65536, 1) + pixels, (counter + 1) % 0x1_0000_0000))
    ensures Load(ShotName(counter), Some(ShotHeader(65536, 1) + pixels))
         == Thrown(InFile(ShotName(counter), InvalidDimensions))
  {
    var h := ShotHeader(65536, 1);
    WideShot(counter, pixels);
    WidthUnpacked(h);
    assert h[12] == 0 && h[13] == 0;
    TgaProperties.LoadRejectsEmptyImage(ShotName(counter), h, pixels);
  }

  lemma WideShot(counter: nat, pixels: seq<bv8>)
    requires |pixels| == 196608
    ensures SaveFrontBuffer(0, 0, 65536, 1, counter, true, pixels)
         == Done(Shot(ShotName(counter), ShotHeader(65536, 1) + pixels, (counter + 1) % 0x1_0000_0000))
  {
    ReadFits(0, 0, 65536, 1);
  }
}

=== FILE: tga.dfy ===
/** The TGA loader: `Tga::Load` and the six `_Load*` routines it dispatches
    to.  The file is a byte sequence; the stream is the part of it after
    the 18 header bytes, and `seekg(offset, cur)` drops the first `offset`
    bytes of that. */
module Tga {
  import opened Bits
  import opened Outcomes
  import opened TgaPixels
  import Rle

  /** The 18 header bytes, kept in the `GLchar` array the loader reads
      them into (`char`, signed as on x86); where the C++ does `int`
      arithmetic with one of them, `Signed` gives the value taking part. */
  type Header = h: seq<bv8> | |h| == 18
    witness [0, 0, 0, 0, 0, 0, 0, 0, 0, 0, 0, 0, 0, 0, 0, 0, 0, 0]

  /** `_TgaImageType`. */
  const TypeColourMapped: bv8 := 1
  const TypeRgb: bv8 := 2
  const TypeLuminance: bv8 := 3
  const TypeColourMappedRle: bv8 := 9
  const TypeRgbRle: bv8 := 10
  const TypeLuminanceRle: bv8 := 11

  /** `Tga::PIXEL_FORMAT_*`: each value is also the number of bytes a
      pixel takes in `mPixels`. */
  const PixelFormatUnknown: nat := 0
  const PixelFormatLuminance: nat := 1
  const PixelFormatLuminanceAlpha: nat := 2
  const PixelFormatBgr: nat := 3
  const PixelFormatBgra: nat := 4

  /** The largest `int`: products beyond it overflow. */
  const IntMax: nat := 0x7fff_ffff

  /** The state a successful `Load` leaves: `mWidth`, `mHeight`,
      `mPixelFormat` and the `mPixels` buffer. */
  datatype Image = Image(width: nat, height: nat, pixelFormat: nat, pixels: seq<bv8>)

  /** What one `_Load*` routine sets: `mPixelFormat` and `mPixels`. */
  datatype Decoded = Decoded(pixelFormat: nat, pixels: seq<bv8>)

  const InvalidDescriptor := "Invalid TGA image descriptor."
  const InvalidBpp := "Invalid TGA bits per pixel amount."
  const InvalidCmSize := "Invalid TGA colour map size."
  const InvalidDescriptorByte := "Invalid TGA image descriptor byte."
  const InvalidDimensions := "Invalid TGA dimensions."
  const UnknownType := "Unknown TGA image type code."

  /** `_TgaLoaderException(filename, log)`. */
  function InFile(filename: string, log: string): string
  {
    "In file " + filename + ": " + log
  }

  /** `_FileNotFoundException(file)`. */
  function FileNotFound(file: string): string
  {
    "File " + file + " not found."
  }

  // ---------------------------------------------------------------------
  // Header fields

  /** `mWidth = _unpack_uint16(header[13], header[12])`: bytes 12 and 13,
      little-endian (`WidthUnpacked`). */
  function Width(h: Header): nat
  {
    LittleEndian(h[12..14])
  }

  /** `mHeight = _unpack_uint16(header[15], header[14])`: bytes 14 and 15,
      little-endian (`HeightUnpacked`). */
  function Height(h: Header): nat
  {
    LittleEndian(h[14..16])
  }

  lemma WidthUnpacked(h: Header)
    ensures Width(h) == Unpack16(h[13], h[12])
  {
    var bs := h[12..14];
    assert bs[1..] == [h[13]];
    assert LittleEndian(bs[1..]) == h[13] as nat + 256 * LittleEndian([]);
    assert LittleEndian(bs) == h[12] as nat + 256 * LittleEndian(bs[1..]);
  }

  lemma HeightUnpacked(h: Header)
    ensures Height(h) == Unpack16(h[15], h[14])
  {
    var bs := h[14..16];
    assert bs[1..] == [h[15]];
    assert LittleEndian(bs[1..]) == h[15] as nat + 256 * LittleEndian([]);
    assert LittleEndian(bs) == h[14] as nat + 256 * LittleEndian(bs[1..]);
  }

  /** `1 == (header[17] >> 5 & 0x01)`: bit 5 of the descriptor. */
  predicate FlipBit(h: Header)
  {
    (h[17] >> 5) & 1 == 1
  }

  /** The skip of the luminance and truecolor loaders:
      `header[0] + header[1] * (first entry + map length * (header[7] >> 3))`,
      in `int` and stored into a `GLuint`. */
  function UnmappedSkip(h: Header): (r: nat)
    ensures r < 0x1_0000_0000
  {
    (Signed(h[0]) + Signed(h[1]) * MapBlock(h)) % 0x1_0000_0000
  }

  /** `first entry + map length * (header[7] >> 3)`, the factor of
      `header[1]` in the unmapped skip. */
  function MapBlock(h: Header): int
  {
    Unpack16(h[4], h[3]) + Unpack16(h[6], h[5]) * (Signed(h[7]) / 8)
  }

  /** The skip of the colour-mapped loaders: `first entry + header[0]`,
      stored into a `GLushort`. */
  function MappedSkip(h: Header): (r: nat)
    ensures r < 0x1_0000
  {
    (Unpack16(h[4], h[3]) + Signed(h[0])) % 0x1_0000
  }

  /** `colourMapSize = _unpack_uint16(header[5], header[6])`: the colour-map
      length with `header[5]` as its high byte. */
  function MapLength(h: Header): nat
  {
    LittleEndian([h[6], h[5]])
  }

  lemma MapLengthUnpacked(h: Header)
    ensures MapLength(h) == Unpack16(h[5], h[6])
  {
    var bs := [h[6], h[5]];
    assert bs[1..] == [h[5]];
    assert LittleEndian(bs[1..]) == h[5] as nat + 256 * LittleEndian([]);
  }

  /** `header[7] >> 3`: the colour-map entry size in bytes, arithmetic
      shift of the signed byte. */
  function EntrySize(h: Header): int
  {
    Signed(h[7]) / 8
  }

  /** `(GLubyte)(header[16] >> 3)`: bytes per colour-map index. */
  function BytesPerIndex(h: Header): nat
  {
    (Signed(h[16]) / 8) % 256
  }

  /** `seekg(offset, cur)`: past the end of the file every later read fails. */
  function Skip(stream: seq<bv8>, offset: nat): (r: seq<bv8>)
    ensures offset <= |stream| ==> r == stream[offset..]
  {
    if offset <= |stream| then stream[offset..] else []
  }

  // ---------------------------------------------------------------------
  // The loaders

  /** The loaders read `mWidth` and `mHeight`, which `Load` has set from
      the header; they take them as `width` and `height`. */

  /** The flip test every loader ends with. */
  function Finish(width: nat, height: nat, h: Header, pf: nat, pixels: seq<bv8>): (r: Outcome<Decoded>)
    requires |pixels| == width * height * pf
    ensures !r.Thrown?
    ensures r.Done? ==> r.value.pixelFormat == pf && |r.value.pixels| == |pixels|
    ensures !FlipBit(h) ==> r == Done(Decoded(pf, pixels))
  {
    if FlipBit(h) then
      var flipped := Flip(pixels, width, height, pf);
      if flipped.Done? then Done(Decoded(pf, flipped.value)) else Undefined
    else Done(Decoded(pf, pixels))
  }

  /** Reading `Width * Height * pf` bytes verbatim. */
  function Direct(width: nat, height: nat, h: Header, data: seq<bv8>, pf: nat): (r: Outcome<Decoded>)
    ensures !r.Thrown?
    ensures r.Done? ==> r.value.pixelFormat == pf
    ensures r.Done? ==> |r.value.pixels| == width * height * pf
    ensures width * height * pf > IntMax || |data| < width * height * pf ==> r == Undefined
  {
    var n := width * height * pf;
    if n > IntMax || |data| < n then Undefined else Finish(width, height, h, pf, data[..n])
  }

  /** Decoding `Width * Height` run-length packets of `pf`-byte pixels. */
  function DirectRle(width: nat, height: nat, h: Header, data: seq<bv8>, pf: nat): (r: Outcome<Decoded>)
    ensures !r.Thrown?
    ensures r.Done? ==> r.value.pixelFormat == pf
    ensures r.Done? ==> |r.value.pixels| == width * height * pf
    ensures width * height * pf > IntMax ==> r == Undefined
  {
    if width * height * pf > IntMax then Undefined
    else
      var pixels := Rle.Expand(data, width * height, pf);
      if pixels.Done? then Finish(width, height, h, pf, pixels.value) else Undefined
  }

  /** The packet loop of the 16-bit branch of `_LoadUnmappedRle`.  Each
      word is read with `read(&rgb16, 16)`: up to sixteen bytes into a
      two-byte `GLushort`, which stays inside the variable only when the
      file ends two bytes later, and any later read finds the file ended.
      So `count` pixels decode only from one packet header and one word
      that end the stream and cover every pixel: a run of `count` copies,
      or a raw packet of a single pixel. */
  function Rle16AsWritten(data: seq<bv8>, count: nat): (r: Outcome<seq<bv8>>)
    ensures !r.Thrown?
    ensures r.Done? ==> |r.value| == 3 * count
    ensures 0 < count && |data| > 3 ==> r == Undefined
  {
    if count == 0 then Done([])
    else if |data| != 3 then Undefined
    else if Rle.BlockSize(data[0]) == count && (Rle.IsRun(data[0]) || count == 1) then
      Done(Rle.Repeat(Expand555(data[1], data[2]), count))
    else Undefined
  }

  /** The 16-bit branch of `_LoadUnmappedRle`, converted to BGR. */
  function DirectRle16(width: nat, height: nat, h: Header, data: seq<bv8>): (r: Outcome<Decoded>)
    ensures !r.Thrown?
    ensures r.Done? ==> r.value.pixelFormat == PixelFormatBgr
    ensures r.Done? ==> |r.value.pixels| == width * height * PixelFormatBgr
    ensures width * height * 3 > IntMax ==> r == Undefined
  {
    if width * height * 3 > IntMax then Undefined
    else
      var pixels := Rle16AsWritten(data, width * height);
      if pixels.Done? then Finish(width, height, h, PixelFormatBgr, pixels.value) else Undefined
  }

  /** `_LoadLuminance`: type 3, 8 or 16 bits per pixel copied verbatim. */
  function LoadLuminance(width: nat, height: nat, h: Header, stream: seq<bv8>): (r: Outcome<Decoded>)
    ensures r.Thrown? <==> !(h[16] == 8 || h[16] == 16)
    ensures r.Thrown? ==> r.message == InvalidBpp
    ensures r.Done? ==> r.value.pixelFormat == (h[16] >> 3) as nat
    ensures r.Done? ==> |r.value.pixels| == width * height * r.value.pixelFormat
  {
    var data := Skip(stream, UnmappedSkip(h));
    if h[16] == 8 || h[16] == 16 then Direct(width, height, h, data, (h[16] >> 3) as nat)
    else Thrown(InvalidBpp)
  }

  /** `_LoadUnmapped`: type 2; 16-bit pixels expanded to BGR, 24 and 32-bit
      pixels copied verbatim. */
  function LoadUnmapped(width: nat, height: nat, h: Header, stream: seq<bv8>): (r: Outcome<Decoded>)
    ensures r.Thrown? <==> !(h[16] == 16 || h[16] == 24 || h[16] == 32)
    ensures r.Thrown? ==> r.message == InvalidBpp
    ensures r.Done? ==> r.value.pixelFormat == if h[16] == 16 then PixelFormatBgr else (h[16] >> 3) as nat
    ensures r.Done? ==> |r.value.pixels| == width * height * r.value.pixelFormat
    ensures h[16] == 16 && width * height * 3 > IntMax ==> r == Undefined
  {
    var data := Skip(stream, UnmappedSkip(h));
    if h[16] == 16 then
      if width * height * 3 > IntMax then Undefined
      else
        var pixels := ExpandWords(data, width * height);
        if pixels.Done? then Finish(width, height, h, PixelFormatBgr, pixels.value) else Undefined
    else if h[16] == 24 || h[16] == 32 then Direct(width, height, h, data, (h[16] >> 3) as nat)
    else Thrown(InvalidBpp)
  }

  /** `_LoadUnmappedRle`: type 10.  For 16-bit pixels every word is read
      with `read(&rgb16, 16)`, so only a stream that ends two bytes after
      its first packet header decodes (`Rle16AsWritten`). */
  function LoadUnmappedRle(width: nat, height: nat, h: Header, stream: seq<bv8>): (r: Outcome<Decoded>)
    ensures r.Thrown? <==> !(h[16] == 16 || h[16] == 24 || h[16] == 32)
    ensures r.Thrown? ==> r.message == InvalidBpp
    ensures h[16] == 16 && 0 < width * height && |Skip(stream, UnmappedSkip(h))| > 3 ==> r == Undefined
    ensures r.Done? ==> r.value.pixelFormat == if h[16] == 16 then PixelFormatBgr else (h[16] >> 3) as nat
    ensures r.Done? ==> |r.value.pixels| == width * height * r.value.pixelFormat
  {
    var data := Skip(stream, UnmappedSkip(h));
    if h[16] == 16 then DirectRle16(width, height, h, data)
    else if h[16] == 24 || h[16] == 32 then DirectRle(width, height, h, data, (h[16] >> 3) as nat)
    else Thrown(InvalidBpp)
  }

  /** `_LoadLuminanceRle`: type 11, 8 or 16 bits per pixel. */
  function LoadLuminanceRle(width: nat, height: nat, h: Header, stream: seq<bv8>): (r: Outcome<Decoded>)
    ensures r.Thrown? <==> !(h[16] == 8 || h[16] == 16)
    ensures r.Thrown? ==> r.message == InvalidBpp
    ensures r.Done? ==> r.value.pixelFormat == (h[16] >> 3) as nat
    ensures r.Done? ==> |r.value.pixels| == width * height * r.value.pixelFormat
  {
    var data := Skip(stream, UnmappedSkip(h));
    if h[16] == 8 || h[16] == 16 then DirectRle(width, height, h, data, (h[16] >> 3) as nat)
    else Thrown(InvalidBpp)
  }

  /** The checks both colour-mapped loaders make, in their order, with the
      descriptor message that differs between them; `None` when all pass. */
  function MappedChecks(h: Header, descriptorMessage: string): (r: Option<string>)
    ensures r.None? <==> h[17] == 0 && h[16] != 0 && MapLength(h) >= 1 && 2 <= EntrySize(h) <= 4
  {
    if h[17] != 0 then Some(descriptorMessage)
    else if h[16] == 0 then Some(InvalidBpp)
    else if MapLength(h) < 1 then Some(InvalidCmSize)
    else if !(2 <= EntrySize(h) <= 4) then Some(InvalidBpp)
    else None
  }

  /** The pixels of the colour-mapped loaders once the checks pass: the
      colour map, then `Width * Height` indices, stored one after the other
      or (`rle`) in run-length packets.  A 2-byte entry size runs the
      expansion loop `2 * len` times over a `3 * len`-byte map; an index of
      more than four bytes is read into a four-byte `GLuint`. */
  function Mapped(width: nat, height: nat, h: Header, data: seq<bv8>, rle: bool): (r: Outcome<Decoded>)
    requires MappedChecks(h, "").None?
    ensures !r.Thrown?
    ensures r.Done? ==> r.value.pixelFormat == EntrySize(h) && 3 <= EntrySize(h) <= 4
    ensures r.Done? ==> |r.value.pixels| == width * height * r.value.pixelFormat
    ensures r.Done? ==> width * height * EntrySize(h) <= IntMax && BytesPerIndex(h) <= 4
  {
    var len := MapLength(h);
    var pf := EntrySize(h);
    if pf == 2 then Undefined
    else
      var colourMap := Read(data, len * pf);
      var count := width * height;
      var bpi := BytesPerIndex(h);
      if !colourMap.Done? || count * pf > IntMax || bpi > 4 then Undefined
      else
        var src := data[len * pf..];
        var raw := if rle then Rle.Expand(src, count, bpi) else Done(src);
        if raw.Done? then
          var pixels := Indexed(colourMap.value, len, pf, raw.value, bpi, count);
          if pixels.Done? then Finish(width, height, h, pf, pixels.value) else Undefined
        else Undefined
  }

  /** `_LoadColourMapped`: type 1. */
  function LoadColourMapped(width: nat, height: nat, h: Header, stream: seq<bv8>): (r: Outcome<Decoded>)
    ensures r.Thrown? <==> MappedChecks(h, InvalidDescriptor).Some?
    ensures r.Thrown? ==> r.message == MappedChecks(h, InvalidDescriptor).value
    ensures r.Done? ==> !FlipBit(h)
    ensures r.Done? ==> r.value.pixelFormat == PixelFormatBgr || r.value.pixelFormat == PixelFormatBgra
    ensures r.Done? ==> |r.value.pixels| == width * height * r.value.pixelFormat
  {
    var data := Skip(stream, MappedSkip(h));
    var failure := MappedChecks(h, InvalidDescriptor);
    if failure.Some? then Thrown(failure.value) else Mapped(width, height, h, data, false)
  }

  /** `_LoadColourMappedRle`: type 9. */
  function LoadColourMappedRle(width: nat, height: nat, h: Header, stream: seq<bv8>): (r: Outcome<Decoded>)
    ensures r.Thrown? <==> MappedChecks(h, InvalidDescriptorByte).Some?
    ensures r.Thrown? ==> r.message == MappedChecks(h, InvalidDescriptorByte).value
    ensures r.Done? ==> !FlipBit(h)
    ensures r.Done? ==> r.value.pixelFormat == PixelFormatBgr || r.value.pixelFormat == PixelFormatBgra
    ensures r.Done? ==> |r.value.pixels| == width * height * r.value.pixelFormat
  {
    var data := Skip(stream, MappedSkip(h));
    var failure := MappedChecks(h, InvalidDescriptorByte);
    if failure.Some? then Thrown(failure.value) else Mapped(width, height, h, data, true)
  }

  // ---------------------------------------------------------------------
  // Tga::Load

  /** The `try` block of `Tga::Load`: dispatch on the image type code. */
  function Dispatch(filename: string, width: nat, height: nat, h: Header, stream: seq<bv8>): (r: Outcome<Decoded>)
    ensures r.Done? ==> 1 <= r.value.pixelFormat <= 4
    ensures r.Done? ==> |r.value.pixels| == width * height * r.value.pixelFormat
  {
    if h[2] == TypeRgb then LoadUnmapped(width, height, h, stream)
    else if h[2] == TypeColourMapped then LoadColourMapped(width, height, h, stream)
    else if h[2] == TypeLuminance then LoadLuminance(width, height, h, stream)
    else if h[2] == TypeColourMappedRle then LoadColourMappedRle(width, height, h, stream)
    else if h[2] == TypeRgbRle then LoadUnmappedRle(width, height, h, stream)
    else if h[2] == TypeLuminanceRle then LoadLuminanceRle(width, height, h, stream)
    else Thrown(InFile(filename, UnknownType))
  }

  /** The `catch` clauses of `Tga::Load`: a loader's exception is thrown
      again with the file name in front of its message. */
  function Rewrap(filename: string, width: nat, height: nat, decoded: Outcome<Decoded>): (r: Outcome<Image>)
  {
    match decoded
    case Done(d) => Done(Image(width, height, d.pixelFormat, d.pixels))
    case Thrown(message) => Thrown(InFile(filename, message))
    case Undefined => Undefined
  }

  /** `Tga::Load` once the 18 header bytes `h` are read; `body` is the
      rest of the file.  Every exception raised inside the `try` block
      comes out rewrapped with the file name. */
  function LoadHeader(filename: string, h: Header, body: seq<bv8>): (r: Outcome<Image>)
    ensures r.Done? ==> r.value.width == Width(h) && r.value.height == Height(h)
    ensures r.Done? ==> 0 < r.value.width && 0 < r.value.height
    ensures r.Done? ==> 1 <= r.value.pixelFormat <= 4
    ensures r.Done? ==> |r.value.pixels| == r.value.width * r.value.height * r.value.pixelFormat
    ensures Width(h) * Height(h) > IntMax ==> r == Undefined
  {
    var width := Width(h);
    var height := Height(h);
    if width * height > IntMax then Undefined
    else if width * height == 0 then Thrown(InFile(filename, InvalidDimensions))
    else
      NonZeroFactors(width, height);
      Rewrap(filename, width, height, Dispatch(filename, width, height, h, body))
  }

  lemma NonZeroFactors(a: nat, b: nat)
    requires a * b != 0
    ensures 0 < a && 0 < b
  {
  }

  /** `Tga::Load(filename)`, `file` being the file's contents or `None`
      when it cannot be opened. */
  function Load(filename: string, file: Option<seq<bv8>>): (r: Outcome<Image>)
    ensures r.Done? ==> file.Some? && |file.value| >= 18
    ensures r.Done? ==> r.value.width == Width(file.value[..18]) && r.value.height == Height(file.value[..18])
    ensures r.Done? ==> 0 < r.value.width && 0 < r.value.height
    ensures r.Done? ==> 1 <= r.value.pixelFormat <= 4
    ensures r.Done? ==> |r.value.pixels| == r.value.width * r.value.height * r.value.pixelFormat
    ensures file.Some? && |file.value| < 18 ==> r == Undefined
  {
    if file.None? then Thrown(FileNotFound(filename))
    else if |file.value| < 18 then Undefined
    else LoadHeader(filename, file.value[..18], file.value[18..])
  }
}

=== FILE: tga_findings.dfy ===
/** Places where the loader does not do what the TGA layout it reads calls
    for.  Each comes in two halves: a lemma about the model of the code as
    written that exhibits the discrepancy, and the evidently intended
    definition with the property it was meant to have. */
module TgaFindings {
  import opened Bits
  import opened Outcomes
  import opened TgaPixels
  import opened Tga
  import Rle

  // ---------------------------------------------------------------------
  // The colour-map length is read with its bytes swapped

  /** The colour-map length as the TGA layout stores it: bytes 5 and 6,
      little-endian, like every other 16-bit header field. */
  function MapLengthField(h: Header): nat
  {
    LittleEndian(h[5..7])
  }

  /** A writer that stores a length `n` in bytes 5 and 6 gets `n` back. */
  lemma MapLengthFieldRoundTrip(h: Header, n: nat)
    requires n < 0x1_0000 && h[5..7] == ToLittleEndian(n, 2)
    ensures MapLengthField(h) == n
  {
    assert Pow256(2) == 0x1_0000 by {
      assert Pow256(1) == 256 * Pow256(0);
    }
    LittleEndianOfTo(n, 2);
  }

  lemma MapLengthFieldUnpacked(h: Header)
    ensures MapLengthField(h) == Unpack16(h[6], h[5])
  {
    var bs := h[5..7];
    assert bs[1..] == [h[6]];
    assert LittleEndian(bs[1..]) == h[6] as nat + 256 * LittleEndian([]);
  }

  /** The as-written length agrees with the field only when both bytes are
      equal. */
  lemma MapLengthAgrees(h: Header)
    ensures MapLength(h) == MapLengthField(h) <==> h[5] == h[6]
  {
    MapLengthUnpacked(h);
    MapLengthFieldUnpacked(h);
    SwapAgrees(h[5], h[6]);
  }

  lemma SwapAgrees(a: bv8, b: bv8)
    ensures Unpack16(a, b) == Unpack16(b, a) <==> a == b
  {
  }

  /** A 256-entry colour map (bytes 5 and 6 equal to 0 and 1) is taken for
      a one-entry map. */
  lemma MapLengthSwapped(h: Header)
    requires h[5] == 0 && h[6] == 1
    ensures MapLength(h) == 1
  {
    MapLengthUnpacked(h);
  }

  // ---------------------------------------------------------------------
  // The 16-bit colour-map loop runs twice as long as the map

  /** Every 16-bit colour map with an entry overruns its buffer: the loop
      runs `colourMapSize * 2` turns of three bytes into a map of
      `colourMapSize * 3`, so the model of the loader is `Undefined` on it. */
  lemma Map16Overrun(width: nat, height: nat, h: Header, data: seq<bv8>)
    requires MappedChecks(h, "").None? && EntrySize(h) == 2
    ensures Mapped(width, height, h, data, false) == Undefined
  {
  }

  /** The intended 16-bit colour map: `len` words, each expanded to three
      bytes. */
  function ColourMap16(data: seq<bv8>, len: nat): (r: Outcome<seq<bv8>>)
    ensures r.Done? <==> 2 * len <= |data|
    ensures r.Done? ==> |r.value| == len * 3
  {
    ExpandWords(data, len)
  }

  /** Entry `k` of the intended map is stored word `k` expanded. */
  lemma ColourMap16Entry(data: seq<bv8>, len: nat, k: nat)
    requires 2 * len <= |data| && k < len
    ensures Entry(ColourMap16(data, len).value, len, 3, k) == Expand555(data[2 * k], data[2 * k + 1])
  {
    Words555At(data[..2 * len], len, k);
  }

  // ---------------------------------------------------------------------
  // The 16-bit run-length loader reads sixteen bytes per pixel

  /** A 16-bit type-10 image with a pixel reads past its two-byte buffer
      whenever more than one word follows the first packet header. */
  lemma Rle16Overrun(width: nat, height: nat, h: Header, stream: seq<bv8>)
    requires h[16] == 16 && 0 < width && 0 < height
    requires |stream| > UnmappedSkip(h) + 3
    ensures LoadUnmappedRle(width, height, h, stream) == Undefined
  {
    assert |Skip(stream, UnmappedSkip(h))| > 3;
  }

  /** A 2x1 image stored as a raw packet of two words: the first sixteen-byte
      read overruns `rgb16`, where the intended decoding gives both words. */
  lemma Rle16RawPair(h: Header, a: bv8, b: bv8, c: bv8, d: bv8)
    requires h[16] == 16 && UnmappedSkip(h) == 0
    ensures LoadUnmappedRle(2, 1, h, [0x01, a, b, c, d]) == Undefined
    ensures Rle16([0x01, a, b, c, d], 2) == Done(Expand555(a, b) + Expand555(c, d))
  {
    var data: seq<bv8> := [0x01, a, b, c, d];
    assert Skip(data, 0) == data;
    assert Rle.BlockSize(0x01) == 2 && !Rle.IsRun(0x01);
    Rle.ExpandLastPacket(data, 2, 2);
    var words: seq<bv8> := [a, b, c, d];
    assert data[1..] == words;
    assert words[2..] == [c, d];
    assert [c, d][2..] == [];
    assert Words555([c, d], 1) == Expand555(c, d) + Words555([], 0);
    assert Words555(words, 2) == Expand555(a, b) + Words555([c, d], 1);
    assert Words555(words, 2) == Expand555(a, b) + Expand555(c, d);
    assert Rle.Expand(data, 2, 2) == Done(words);
  }

  /** Where the code as written does decode a 16-bit stream, a single
      packet ending the file, it gives what the intended decoding gives. */
  lemma Rle16AsWrittenAgrees(data: seq<bv8>, count: nat)
    requires Rle16AsWritten(data, count).Done?
    ensures Rle16AsWritten(data, count) == Rle16(data, count)
  {
    if count > 0 {
      Rle.ExpandLastPacket(data, count, 2);
      assert data[1..] == [data[1], data[2]];
      if Rle.IsRun(data[0]) {
        WordsOfRepeat(data[1], data[2], count);
      } else {
        assert data[1..][2..] == [];
        assert Words555(data[1..], 1) == Expand555(data[1], data[2]) + [];
        assert Rle.Repeat(Expand555(data[1], data[2]), 1) == Expand555(data[1], data[2]) + [];
      }
    }
  }

  /** `n` copies of a word expand to `n` copies of its three bytes. */
  lemma {:induction false} WordsOfRepeat(lo: bv8, hi: bv8, n: nat)
    ensures 2 * n <= |Rle.Repeat([lo, hi], n)|
    ensures Words555(Rle.Repeat([lo, hi], n), n) == Rle.Repeat(Expand555(lo, hi), n)
  {
    if n > 0 {
      WordsOfRepeat(lo, hi, n - 1);
      var r := Rle.Repeat([lo, hi], n);
      assert r == [lo, hi] + Rle.Repeat([lo, hi], n - 1);
      assert r[2..] == Rle.Repeat([lo, hi], n - 1);
    }
  }

  /** A 2x1 image stored as one run packet that ends the file decodes as
      two copies of its word. */
  lemma Rle16SingleRun(h: Header, lo: bv8, hi: bv8)
    requires h[16] == 16 && !FlipBit(h) && UnmappedSkip(h) == 0
    ensures LoadUnmappedRle(2, 1, h, [0x81, lo, hi]) == Done(Decoded(3, Expand555(lo, hi) + Expand555(lo, hi)))
  {
    var data: seq<bv8> := [0x81, lo, hi];
    assert Skip(data, 0) == data;
    assert Rle.BlockSize(0x81) == 2 && Rle.IsRun(0x81);
    var e := Expand555(lo, hi);
    assert Rle.Repeat(e, 2) == e + (e + Rle.Repeat(e, 0));
    assert Rle.Repeat(e, 2) == e + e;
    assert Rle16AsWritten(data, 2 * 1) == Done(e + e);
    assert DirectRle16(2, 1, h, data) == Finish(2, 1, h, 3, e + e);
  }

  /** The intended 16-bit run-length decoding: packets of two-byte words,
      each word expanded as the uncompressed loader does. */
  function Rle16(data: seq<bv8>, count: nat): (r: Outcome<seq<bv8>>)
    ensures !r.Thrown?
    ensures r.Done? ==> |r.value| == 3 * count
  {
    var words := Rle.Expand(data, count, 2);
    if words.Done? then Done(Words555(words.value, count)) else Undefined
  }

  /** Packets of words decode to what the uncompressed loader makes of the
      words they stand for. */
  lemma Rle16MatchesRaw(ps: seq<Rle.Packet>, tail: seq<bv8>, rawTail: seq<bv8>)
    requires Rle.ValidPackets(ps, 2)
    ensures Rle16(Rle.EncodeAll(ps, 2) + tail, Rle.Total(ps))
         == ExpandWords(Rle.ElementsAll(ps) + rawTail, Rle.Total(ps))
  {
    Rle.ExpandEncoded(ps, 2, tail);
    Rle.ElementsLength(ps, 2);
    assert (Rle.ElementsAll(ps) + rawTail)[..2 * Rle.Total(ps)] == Rle.ElementsAll(ps);
  }

  // ---------------------------------------------------------------------
  // The ID length is read through a signed byte

  /** The skip of the unmapped loaders with the header bytes read unsigned,
      as the TGA layout defines them; the first-entry index (bytes 3 and 4)
      and the map length (bytes 5 and 6) are little-endian. */
  function UnmappedSkipUnsigned(h: Header): int
  {
    h[0] as nat + h[1] as nat * (LittleEndian(h[3..5]) + MapLengthField(h) * (h[7] as nat / 8))
  }

  /** Without a colour map the intended skip is the ID field, whatever its
      length. */
  lemma UnmappedSkipUnsignedId(h: Header)
    requires h[1] == 0
    ensures UnmappedSkipUnsigned(h) == h[0] as nat
  {
  }

  /** An ID field of 128 bytes or more makes the as-written skip wrap to
      nearly 4 GiB. */
  lemma UnmappedSkipLongId(h: Header)
    requires h[1] == 0 && h[0] >= 0x80
    ensures UnmappedSkip(h) == 0xffff_ff00 + h[0] as nat
  {
  }

  /** The skip of the colour-mapped loaders with the ID length read
      unsigned. */
  function MappedSkipUnsigned(h: Header): nat
  {
    Unpack16(h[4], h[3]) + h[0] as nat
  }

  /** With a first-entry index of zero the intended skip is the ID field. */
  lemma MappedSkipUnsignedId(h: Header)
    requires h[3] == 0 && h[4] == 0
    ensures MappedSkipUnsigned(h) == h[0] as nat
  {
  }

  /** The as-written colour-mapped skip turns an ID field of 128 bytes or
      more into a skip of nearly 64 KiB. */
  lemma MappedSkipLongId(h: Header)
    requires h[3] == 0 && h[4] == 0 && h[0] >= 0x80
    ensures MappedSkip(h) == 0xff00 + h[0] as nat
  {
  }
}

=== FILE: tga_pixels.dfy ===
/** The pieces the six TGA loaders build pixel buffers from: plain reads,
    16-bit 5-5-5 words, colour-map lookups, and `_Flip`. */
module TgaPixels {
  import opened Bits
  import opened Outcomes

  /** `fileStream.read(buffer, n)`: the next `n` bytes, or indeterminate
      bytes when the stream ends first. */
  function Read(src: seq<bv8>, n: nat): (r: Outcome<seq<bv8>>)
    ensures r.Done? <==> n <= |src|
    ensures r.Done? ==> r.value == src[..n]
  {
    if n <= |src| then Done(src[..n]) else Undefined
  }

  // ---------------------------------------------------------------------
  // 16-bit words

  /** The first `count` words of `ws` (little-endian pairs) expanded to
      three bytes each. */
  function Words555(ws: seq<bv8>, count: nat): (r: seq<bv8>)
    requires 2 * count <= |ws|
    ensures |r| == 3 * count
  {
    if count == 0 then [] else Expand555(ws[0], ws[1]) + Words555(ws[2..], count - 1)
  }

  /** Pixel `i` of the expansion is word `i` expanded. */
  lemma {:induction false} Words555At(ws: seq<bv8>, count: nat, i: nat)
    requires 2 * count <= |ws| && i < count
    ensures Words555(ws, count)[3 * i..3 * i + 3] == Expand555(ws[2 * i], ws[2 * i + 1])
  {
    if i > 0 {
      Words555At(ws[2..], count - 1, i - 1);
      var r := Words555(ws, count);
      assert r == Expand555(ws[0], ws[1]) + Words555(ws[2..], count - 1);
      assert r[3 * i..3 * i + 3] == Words555(ws[2..], count - 1)[3 * (i - 1)..3 * (i - 1) + 3];
    }
  }

  /** The loop of the 16-bit truecolor loader: `count` words read and
      expanded, three bytes per pixel. */
  function ExpandWords(src: seq<bv8>, count: nat): (r: Outcome<seq<bv8>>)
    ensures !r.Thrown?
    ensures r.Done? <==> 2 * count <= |src|
    ensures r.Done? ==> |r.value| == 3 * count
  {
    if 2 * count <= |src| then Done(Words555(src[..2 * count], count)) else Undefined
  }

  // ---------------------------------------------------------------------
  // Colour maps

  lemma EntryInMap(index: nat, len: nat, pf: nat)
    requires index < len
    ensures index * pf + pf <= len * pf
  {
    assert (index + 1) * pf <= len * pf;
  }

  /** Colour-map entry `index`: the `pf` bytes at `colourMap[index*pf]`. */
  function Entry(colourMap: seq<bv8>, len: nat, pf: nat, index: nat): (r: seq<bv8>)
    requires |colourMap| == len * pf && index < len
    ensures |r| == pf
  {
    EntryInMap(index, len, pf);
    colourMap[index * pf..index * pf + pf]
  }

  /** `index * mPixelFormat` in the loaders: a `GLuint` times a `GLint`,
      so the product is an unsigned one, taken modulo 2^32. */
  function MapOffset(index: nat, pf: nat): (r: nat)
    ensures r < 0x1_0000_0000
    ensures index * pf < 0x1_0000_0000 ==> r == index * pf
  {
    (index * pf) % 0x1_0000_0000
  }

  /** The `pf` bytes `memcpy` copies from `&colourMap[index * mPixelFormat]`. */
  function Lookup(colourMap: seq<bv8>, pf: nat, index: nat): (r: seq<bv8>)
    requires MapOffset(index, pf) + pf <= |colourMap|
    ensures |r| == pf
  {
    colourMap[MapOffset(index, pf)..MapOffset(index, pf) + pf]
  }

  /** The pixel loop of the colour-mapped loaders: `count` indices of
      `bytesPerIndex` little-endian bytes each, every one replaced by the
      `pf` bytes at its wrapped offset in the colour map.  Nothing checks
      the index against the map length: an offset whose entry does not lie
      inside the map reads outside it. */
  function Indexed(colourMap: seq<bv8>, len: nat, pf: nat, src: seq<bv8>,
                   bytesPerIndex: nat, count: nat): (r: Outcome<seq<bv8>>)
    requires |colourMap| == len * pf
    ensures !r.Thrown?
    ensures r.Done? ==> |r.value| == count * pf
    decreases count
  {
    if count == 0 then Done([])
    else if |src| < bytesPerIndex then Undefined
    else
      var index := LittleEndian(src[..bytesPerIndex]);
      if MapOffset(index, pf) + pf > |colourMap| then Undefined
      else
        var rest := Indexed(colourMap, len, pf, src[bytesPerIndex..], bytesPerIndex, count - 1);
        if rest.Done? then Done(Lookup(colourMap, pf, index) + rest.value) else Undefined
  }

  /** The index the loaders read for pixel `i`. */
  function IndexAt(src: seq<bv8>, bytesPerIndex: nat, i: nat): nat
    requires (i + 1) * bytesPerIndex <= |src|
  {
    LittleEndian(src[i * bytesPerIndex..i * bytesPerIndex + bytesPerIndex])
  }

  /** Where the lookup succeeds, pixel `i` is the colour-map entry of index `i`. */
  lemma {:induction false} IndexedAt(colourMap: seq<bv8>, len: nat, pf: nat, src: seq<bv8>,
                                     bytesPerIndex: nat, count: nat, i: nat)
    requires |colourMap| == len * pf && i < count
    requires Indexed(colourMap, len, pf, src, bytesPerIndex, count).Done?
    ensures (i + 1) * bytesPerIndex <= |src|
    ensures MapOffset(IndexAt(src, bytesPerIndex, i), pf) + pf <= |colourMap|
    ensures i * pf + pf <= count * pf
    ensures Indexed(colourMap, len, pf, src, bytesPerIndex, count).value[i * pf..i * pf + pf]
         == Lookup(colourMap, pf, IndexAt(src, bytesPerIndex, i))
  {
    EntryInMap(i, count, pf);
    var r := Indexed(colourMap, len, pf, src, bytesPerIndex, count).value;
    var rest := Indexed(colourMap, len, pf, src[bytesPerIndex..], bytesPerIndex, count - 1);
    var index := LittleEndian(src[..bytesPerIndex]);
    var entry := Lookup(colourMap, pf, index);
    assert r == entry + rest.value;
    if i == 0 {
      assert src[0..bytesPerIndex] == src[..bytesPerIndex];
      assert r[0..pf] == entry;
    } else {
      IndexedAt(colourMap, len, pf, src[bytesPerIndex..], bytesPerIndex, count - 1, i - 1);
      ShiftedSlice(src, bytesPerIndex, i);
      ShiftedSlice(r, pf, i);
    }
  }

  lemma ShiftedSlice<T>(s: seq<T>, k: nat, i: nat)
    requires 0 < i && k <= |s| && i * k <= |s[k..]|
    ensures (i + 1) * k <= |s|
    ensures s[k..][(i - 1) * k..(i - 1) * k + k] == s[i * k..i * k + k]
  {
    assert (i - 1) * k + k == i * k;
  }

  /** The lookup reads `count * bytesPerIndex` bytes and no more. */
  lemma {:induction false} IndexedIgnoresTail(colourMap: seq<bv8>, len: nat, pf: nat, src: seq<bv8>,
                                              tail: seq<bv8>, bytesPerIndex: nat, count: nat)
    requires |colourMap| == len * pf && count * bytesPerIndex <= |src|
    ensures Indexed(colourMap, len, pf, src + tail, bytesPerIndex, count)
         == Indexed(colourMap, len, pf, src, bytesPerIndex, count)
    decreases count
  {
    if count > 0 {
      NextRow(count - 1, bytesPerIndex);
      assert (src + tail)[..bytesPerIndex] == src[..bytesPerIndex];
      assert (src + tail)[bytesPerIndex..] == src[bytesPerIndex..] + tail;
      IndexedIgnoresTail(colourMap, len, pf, src[bytesPerIndex..], tail, bytesPerIndex, count - 1);
    }
  }

  /** An index whose wrapped offset leaves no whole entry inside the map
      makes the lookup read outside it. */
  lemma IndexPastMap(colourMap: seq<bv8>, len: nat, pf: nat, src: seq<bv8>,
                     bytesPerIndex: nat, count: nat)
    requires |colourMap| == len * pf && 0 < count && bytesPerIndex <= |src|
    requires MapOffset(LittleEndian(src[..bytesPerIndex]), pf) + pf > len * pf
    ensures Indexed(colourMap, len, pf, src, bytesPerIndex, count) == Undefined
  {
  }

  /** With indices of at most three bytes and entries of at most four the
      offset cannot wrap: the lookup stays inside the map exactly when the
      index is below the map length, and it is then that index's entry. */
  lemma NarrowIndex(colourMap: seq<bv8>, len: nat, pf: nat, bs: seq<bv8>)
    requires |colourMap| == len * pf && 0 < pf <= 4 && |bs| <= 3
    ensures MapOffset(LittleEndian(bs), pf) + pf <= |colourMap| <==> LittleEndian(bs) < len
    ensures LittleEndian(bs) < len ==> Lookup(colourMap, pf, LittleEndian(bs)) == Entry(colourMap, len, pf, LittleEndian(bs))
  {
    var index := LittleEndian(bs);
    LittleEndianBound(bs);
    Pow256Narrow(|bs|);
    NarrowProduct(index, pf);
    EntryBound(index, len, pf);
  }

  lemma Pow256Narrow(n: nat)
    requires n <= 3
    ensures Pow256(n) <= 0x100_0000
  {
    if n > 0 {
      Pow256Narrow(n - 1);
    }
  }

  lemma NarrowProduct(index: nat, pf: nat)
    requires index < 0x100_0000 && pf <= 4
    ensures index * pf < 0x1_0000_0000
  {
    assert index * pf <= index * 4;
  }

  lemma EntryBound(index: nat, len: nat, pf: nat)
    requires 0 < pf
    ensures index * pf + pf <= len * pf <==> index < len
  {
    if index < len {
      assert (index + 1) * pf <= len * pf;
    } else {
      assert index * pf >= len * pf;
    }
  }

  /** Four-byte indices wrap: with four-byte entries the index 0x40000000
      names offset 0, so a one-entry map yields its entry. */
  lemma WrappedIndex(colourMap: seq<bv8>)
    requires |colourMap| == 4
    ensures Indexed(colourMap, 1, 4, [0, 0, 0, 0x40], 4, 1) == Done(colourMap)
  {
    var src: seq<bv8> := [0, 0, 0, 0x40];
    assert src[..4] == src;
    assert LittleEndian(src) == 0x4000_0000 by {
      assert src[1..] == [0, 0, 0x40];
      assert src[1..][1..] == [0, 0x40];
      assert src[1..][1..][1..] == [0x40];
      assert src[1..][1..][1..][1..] == [];
    }
    assert MapOffset(0x4000_0000, 4) == 0;
    assert Lookup(colourMap, 4, 0x4000_0000) == colourMap[0..4] == colourMap;
    assert Indexed(colourMap, 1, 4, src[4..], 4, 0) == Done([]);
    assert colourMap + [] == colourMap;
  }

  // ---------------------------------------------------------------------
  // Rows

  /** The image as rows of `rowLen` bytes, bottom row first: the vertical
      mirror a flip of `height` rows is meant to produce. */
  function Mirror(pixels: seq<bv8>, rowLen: nat, height: nat): (r: seq<bv8>)
    requires |pixels| == rowLen * height
    ensures |r| == |pixels|
  {
    if height == 0 then []
    else
      var top := (height - 1) * rowLen;
      pixels[top..] + Mirror(pixels[..top], rowLen, height - 1)
  }

  /** Mirroring rows `row` then `rest` puts `row` last. */
  lemma {:induction false} MirrorCons(row: seq<bv8>, rest: seq<bv8>, rowLen: nat, height: nat)
    requires |row| == rowLen && |rest| == rowLen * height
    ensures Mirror(row + rest, rowLen, height + 1) == Mirror(rest, rowLen, height) + row
  {
    var all := row + rest;
    var top := height * rowLen;
    if height == 0 {
      assert all[top..] == row;
    } else {
      var restTop := (height - 1) * rowLen;
      assert all[top..] == rest[restTop..];
      assert all[..top] == row + rest[..restTop];
      MirrorCons(row, rest[..restTop], rowLen, height - 1);
    }
  }

  /** Mirroring twice gives the rows back in their order. */
  lemma {:induction false} MirrorInvolution(pixels: seq<bv8>, rowLen: nat, height: nat)
    requires |pixels| == rowLen * height
    ensures Mirror(Mirror(pixels, rowLen, height), rowLen, height) == pixels
  {
    if height > 0 {
      var top := (height - 1) * rowLen;
      var last := pixels[top..];
      var rest := pixels[..top];
      MirrorInvolution(rest, rowLen, height - 1);
      MirrorCons(last, Mirror(rest, rowLen, height - 1), rowLen, height - 1);
      assert rest + last == pixels;
    }
  }

  /** Row `r` of a buffer of `rowLen`-byte rows. */
  function Row(pixels: seq<bv8>, rowLen: nat, r: nat): seq<bv8>
    requires (r + 1) * rowLen <= |pixels|
  {
    pixels[r * rowLen..r * rowLen + rowLen]
  }

  /** Row `y` of the mirror is row `height - 1 - y` of the image. */
  lemma {:induction false} MirrorRow(pixels: seq<bv8>, rowLen: nat, height: nat, y: nat)
    requires |pixels| == rowLen * height && y < height
    ensures (y + 1) * rowLen <= |pixels|
    ensures (height - y) * rowLen <= |pixels|
    ensures Row(Mirror(pixels, rowLen, height), rowLen, y) == Row(pixels, rowLen, height - 1 - y)
  {
    ProductMonotone(y + 1, height, rowLen);
    ProductMonotone(height - y, height, rowLen);
    if y == 0 {
      MirrorFirstRow(pixels, rowLen, height);
    } else {
      var top := (height - 1) * rowLen;
      ProductMonotone(height - 1, height, rowLen);
      ProductMonotone(y, height - 1, rowLen);
      ProductMonotone(height - y, height - 1, rowLen);
      MirrorRow(pixels[..top], rowLen, height - 1, y - 1);
      MirrorLaterRow(pixels, rowLen, height, y);
    }
  }

  /** The first row of the mirror is the last row of the image. */
  lemma MirrorFirstRow(pixels: seq<bv8>, rowLen: nat, height: nat)
    requires |pixels| == rowLen * height && 0 < height
    ensures rowLen <= |pixels|
    ensures Row(Mirror(pixels, rowLen, height), rowLen, 0) == Row(pixels, rowLen, height - 1)
  {
    var top := (height - 1) * rowLen;
    NextRow(height - 1, rowLen);
    var last := pixels[top..];
    var rest := Mirror(pixels[..top], rowLen, height - 1);
    assert Mirror(pixels, rowLen, height) == last + rest;
    RowOfHead(last, rest, rowLen);
  }

  /** Row `y > 0` of the mirror is row `y - 1` of the mirror of the rows
      below the last, if that one is the right row of the image. */
  lemma MirrorLaterRow(pixels: seq<bv8>, rowLen: nat, height: nat, y: nat)
    requires |pixels| == rowLen * height && 0 < y < height
    requires (height - 1) * rowLen <= |pixels|
    requires y * rowLen <= (height - 1) * rowLen && (height - y) * rowLen <= (height - 1) * rowLen
    requires Row(Mirror(pixels[..(height - 1) * rowLen], rowLen, height - 1), rowLen, y - 1)
          == Row(pixels[..(height - 1) * rowLen], rowLen, height - 1 - 1 - (y - 1))
    ensures (y + 1) * rowLen <= |pixels|
    ensures Row(Mirror(pixels, rowLen, height), rowLen, y) == Row(pixels, rowLen, height - 1 - y)
  {
    var top := (height - 1) * rowLen;
    NextRow(height - 1, rowLen);
    var last := pixels[top..];
    var rest := Mirror(pixels[..top], rowLen, height - 1);
    assert Mirror(pixels, rowLen, height) == last + rest;
    RowOfTail(last, rest, rowLen, y - 1);
    RowOfPrefix(pixels, rowLen, height - 1 - y, top);
  }

  /** The first row of `row + rest` is `row`. */
  lemma RowOfHead(row: seq<bv8>, rest: seq<bv8>, rowLen: nat)
    requires |row| == rowLen
    ensures Row(row + rest, rowLen, 0) == row
  {
  }

  /** Row `r + 1` of `row + rest` is row `r` of `rest`. */
  lemma RowOfTail(row: seq<bv8>, rest: seq<bv8>, rowLen: nat, r: nat)
    requires |row| == rowLen && (r + 1) * rowLen <= |rest|
    ensures (r + 2) * rowLen <= |row + rest|
    ensures Row(row + rest, rowLen, r + 1) == Row(rest, rowLen, r)
  {
    NextRow(r + 1, rowLen);
    NextRow(r, rowLen);
    assert (row + rest)[(r + 1) * rowLen..(r + 1) * rowLen + rowLen] == rest[r * rowLen..r * rowLen + rowLen];
  }

  /** A row that lies inside a prefix is the same row of the whole. */
  lemma RowOfPrefix(pixels: seq<bv8>, rowLen: nat, r: nat, n: nat)
    requires (r + 1) * rowLen <= n <= |pixels|
    ensures Row(pixels[..n], rowLen, r) == Row(pixels, rowLen, r)
  {
    NextRow(r, rowLen);
  }

  lemma NextRow(k: nat, rowLen: nat)
    ensures (k + 1) * rowLen == rowLen + k * rowLen
  {
  }

  /** The loops of `_Flip` from output row `y` on: output row `y` is copied
      from input row `width - y` (rows of `rowLen = width * pixelFormat`
      bytes), which lies inside the buffer only when
      `0 <= width - y < height`. */
  function FlipFrom(pixels: seq<bv8>, width: nat, height: nat, rowLen: nat, y: nat): (r: Outcome<seq<bv8>>)
    requires |pixels| == rowLen * height && y <= height
    ensures !r.Thrown?
    ensures r.Done? ==> |r.value| == (height - y) * rowLen
    decreases height - y
  {
    if y == height then Done([])
    else
      var source := width - y;
      if source < 0 || source >= height then Undefined
      else
        var row := SourceRow(pixels, rowLen, height, source);
        var rest := FlipFrom(pixels, width, height, rowLen, y + 1);
        if rest.Done? then
          FlipLength(|row|, |rest.value|, height, y, rowLen);
          Done(row + rest.value)
        else Undefined
  }

  /** Row `source` of a `height`-row buffer, which lies inside it. */
  function SourceRow(pixels: seq<bv8>, rowLen: nat, height: nat, source: nat): (r: seq<bv8>)
    requires |pixels| == rowLen * height && source < height
    ensures (source + 1) * rowLen <= |pixels|
    ensures r == Row(pixels, rowLen, source) && |r| == rowLen
  {
    RowInBuffer(source, height, rowLen);
    Row(pixels, rowLen, source)
  }

  /** One row followed by the rows after row `y` make the rows from `y` on. */
  lemma FlipLength(rowLength: nat, restLength: nat, height: nat, y: nat, rowLen: nat)
    requires y < height && rowLength == rowLen && restLength == (height - (y + 1)) * rowLen
    ensures rowLength + restLength == (height - y) * rowLen
  {
    RowsFrom(height, y, rowLen);
  }

  lemma RowInBuffer(r: nat, height: nat, rowLen: nat)
    requires r < height
    ensures (r + 1) * rowLen <= rowLen * height
  {
    ProductMonotone(r + 1, height, rowLen);
  }

  lemma RowsFrom(height: nat, y: nat, rowLen: nat)
    requires y < height
    ensures (height - y) * rowLen == rowLen + (height - (y + 1)) * rowLen
  {
    NextRow(height - (y + 1), rowLen);
  }

  lemma RowsOfPixels(width: nat, height: nat, pf: nat)
    ensures width * height * pf == (width * pf) * height
  {
  }

  /** `_Flip`. */
  function Flip(pixels: seq<bv8>, width: nat, height: nat, pf: nat): (r: Outcome<seq<bv8>>)
    requires |pixels| == width * height * pf
    ensures !r.Thrown?
    ensures r.Done? ==> |r.value| == |pixels|
  {
    RowsOfPixels(width, height, pf);
    FlipFrom(pixels, width, height, width * pf, 0)
  }

  /** From output row `y` on, every row `_Flip` reads lies in the buffer
      exactly when `width - y < height` and `height <= width + 1`. */
  lemma {:induction false} FlipFromDefined(pixels: seq<bv8>, width: nat, height: nat, rowLen: nat, y: nat)
    requires |pixels| == rowLen * height && y < height
    ensures FlipFrom(pixels, width, height, rowLen, y).Done? <==> (width < height + y && height <= width + 1)
    decreases height - y
  {
    if y + 1 < height {
      FlipFromDefined(pixels, width, height, rowLen, y + 1);
    }
  }

  /** Every row `_Flip` reads lies in the buffer exactly when the image is
      one row taller than it is wide. */
  lemma FlipDefined(pixels: seq<bv8>, width: nat, height: nat, pf: nat)
    requires |pixels| == width * height * pf && 0 < height
    ensures Flip(pixels, width, height, pf).Done? <==> width + 1 == height
  {
    RowsOfPixels(width, height, pf);
    FlipFromDefined(pixels, width, height, width * pf, 0);
  }

  /** From output row `y` on, the as-written flip emits the mirror of the
      rows below `height - y` when the image is one row taller than wide. */
  lemma {:induction false} FlipFromMirror(pixels: seq<bv8>, width: nat, height: nat, rowLen: nat, y: nat)
    requires |pixels| == rowLen * height && y <= height && width + 1 == height
    ensures (height - y) * rowLen <= |pixels|
    ensures FlipFrom(pixels, width, height, rowLen, y)
         == Done(Mirror(pixels[..(height - y) * rowLen], rowLen, height - y))
    decreases height - y
  {
    ProductMonotone(height - y, height, rowLen);
    if y < height {
      FlipFromMirror(pixels, width, height, rowLen, y + 1);
      var k := height - y;
      ProductMonotone(k - 1, k, rowLen);
      NextRow(k - 1, rowLen);
      LastRowOfPrefix(pixels, rowLen, k);
      PrefixOfPrefix(pixels, (k - 1) * rowLen, k * rowLen);
    }
  }

  /** The last of the first `k` rows. */
  lemma LastRowOfPrefix(pixels: seq<bv8>, rowLen: nat, k: nat)
    requires 0 < k && k * rowLen <= |pixels|
    ensures (k - 1) * rowLen <= k * rowLen
    ensures pixels[..k * rowLen][(k - 1) * rowLen..] == Row(pixels, rowLen, k - 1)
  {
    NextRow(k - 1, rowLen);
  }

  lemma PrefixOfPrefix(s: seq<bv8>, a: nat, b: nat)
    requires a <= b <= |s|
    ensures s[..b][..a] == s[..a]
  {
  }

  lemma ProductMonotone(n: nat, count: nat, size: nat)
    requires n <= count
    ensures n * size <= count * size
  {
  }

  /** Where `_Flip` stays in bounds it produces exactly the vertical mirror. */
  lemma FlipIsMirror(pixels: seq<bv8>, width: nat, height: nat, pf: nat)
    requires |pixels| == width * height * pf && width + 1 == height
    ensures |pixels| == (width * pf) * height
    ensures Flip(pixels, width, height, pf) == Done(Mirror(pixels, width * pf, height))
  {
    var rowLen := width * pf;
    RowsOfPixels(width, height, pf);
    FlipFromMirror(pixels, width, height, rowLen, 0);
    assert (height - 0) * rowLen == |pixels|;
    assert pixels[..|pixels|] == pixels;
  }
}

=== FILE: tga_properties.dfy ===
/** What `Tga::Load` promises about whole files: which files it rejects and
    with which message, which it copies verbatim, and that the run-length
    types decode to what the plain types store. */
module TgaProperties {
  import opened Bits
  import opened Outcomes
  import opened TgaPixels
  import opened Tga
  import Rle

  /** The first 18 bytes are the header, the rest the stream. */
  lemma LoadSplits(filename: string, h: Header, body: seq<bv8>)
    ensures Load(filename, Some(h + body)) == LoadHeader(filename, h, body)
  {
    assert (h + body)[..18] == h;
    assert (h + body)[18..] == body;
  }

  /** Past the dimension checks, `Load` is the dispatch with its result
      rewrapped. */
  lemma LoadDispatches(filename: string, h: Header, body: seq<bv8>)
    requires 0 < Width(h) && 0 < Height(h) && Width(h) * Height(h) <= IntMax
    ensures Load(filename, Some(h + body))
         == Rewrap(filename, Width(h), Height(h), Dispatch(filename, Width(h), Height(h), h, body))
  {
    LoadSplits(filename, h, body);
    PositiveArea(Width(h), Height(h));
    assert LoadHeader(filename, h, body)
        == Rewrap(filename, Width(h), Height(h), Dispatch(filename, Width(h), Height(h), h, body));
  }

  lemma PositiveArea(width: nat, height: nat)
    requires 0 < width && 0 < height
    ensures width * height != 0
  {
  }

  lemma Regroup(a: seq<bv8>, b: seq<bv8>, c: seq<bv8>, d: seq<bv8>)
    ensures a + b + c + d == a + (b + c + d)
    ensures b + c + d == b + (c + d)
  {
  }

  /** Skipping a prefix leaves what follows it. */
  lemma SkipPrefix(prefix: seq<bv8>, rest: seq<bv8>)
    ensures Skip(prefix + rest, |prefix|) == rest
  {
    assert (prefix + rest)[|prefix|..] == rest;
  }

  // ---------------------------------------------------------------------
  // Rejections

  /** Every exception `LoadHeader` raises names the file. */
  lemma LoadHeaderNamesFile(filename: string, h: Header, body: seq<bv8>)
    requires LoadHeader(filename, h, body).Thrown?
    ensures LoadHeader(filename, h, body).message[..8] == "In file "
  {
    var m := LoadHeader(filename, h, body).message;
    if Width(h) * Height(h) == 0 {
      assert m == InFile(filename, InvalidDimensions);
    } else {
      var d := Dispatch(filename, Width(h), Height(h), h, body);
      assert m == InFile(filename, d.message);
    }
  }

  /** `_FileNotFoundException` comes out exactly when the file cannot be
      opened; it is not rewrapped. */
  lemma LoadMissingFile(filename: string, file: Option<seq<bv8>>)
    ensures Load(filename, file) == Thrown(FileNotFound(filename)) <==> file.None?
  {
    if file.Some? && |file.value| >= 18 {
      var r := LoadHeader(filename, file.value[..18], file.value[18..]);
      if r.Thrown? {
        LoadHeaderNamesFile(filename, file.value[..18], file.value[18..]);
        assert r.message[0] == 'I';
      }
    }
  }

  /** A zero width or height is rejected whatever the type code. */
  lemma LoadRejectsEmptyImage(filename: string, h: Header, body: seq<bv8>)
    requires Width(h) == 0 || Height(h) == 0
    ensures Load(filename, Some(h + body)) == Thrown(InFile(filename, InvalidDimensions))
  {
    LoadSplits(filename, h, body);
    ZeroFactor(Width(h), Height(h));
    LoadHeaderEmpty(filename, h, body);
  }

  lemma ZeroFactor(a: nat, b: nat)
    requires a == 0 || b == 0
    ensures a * b == 0
  {
  }

  lemma LoadHeaderEmpty(filename: string, h: Header, body: seq<bv8>)
    requires Width(h) * Height(h) == 0
    ensures LoadHeader(filename, h, body) == Thrown(InFile(filename, InvalidDimensions))
  {
  }

  /** An unknown type code raises a loader exception inside the `try` block,
      so the message names the file twice. */
  lemma LoadRejectsUnknownType(filename: string, h: Header, body: seq<bv8>)
    requires h[2] !in {1, 2, 3, 9, 10, 11}
    requires 0 < Width(h) && 0 < Height(h) && Width(h) * Height(h) <= IntMax
    ensures Load(filename, Some(h + body))
         == Thrown(InFile(filename, InFile(filename, UnknownType)))
  {
    LoadDispatches(filename, h, body);
    assert Dispatch(filename, Width(h), Height(h), h, body) == Thrown(InFile(filename, UnknownType));
  }

  /** A truecolor file whose pixels are not 16, 24 or 32 bits is rejected,
      compressed or not. */
  lemma LoadRejectsTruecolorDepth(filename: string, h: Header, body: seq<bv8>)
    requires h[2] == 2 || h[2] == 10
    requires h[16] !in {16, 24, 32}
    requires 0 < Width(h) && 0 < Height(h) && Width(h) * Height(h) <= IntMax
    ensures Load(filename, Some(h + body))
         == Thrown(InFile(filename, InvalidBpp))
  {
    LoadDispatches(filename, h, body);
    var d := Dispatch(filename, Width(h), Height(h), h, body);
    if h[2] == 2 {
      assert d == LoadUnmapped(Width(h), Height(h), h, body);
    } else {
      assert d == LoadUnmappedRle(Width(h), Height(h), h, body);
    }
  }

  /** A luminance file whose pixels are not 8 or 16 bits is rejected,
      compressed or not. */
  lemma LoadRejectsLuminanceDepth(filename: string, h: Header, body: seq<bv8>)
    requires h[2] == 3 || h[2] == 11
    requires h[16] !in {8, 16}
    requires 0 < Width(h) && 0 < Height(h) && Width(h) * Height(h) <= IntMax
    ensures Load(filename, Some(h + body))
         == Thrown(InFile(filename, InvalidBpp))
  {
    LoadDispatches(filename, h, body);
    var d := Dispatch(filename, Width(h), Height(h), h, body);
    if h[2] == 3 {
      assert d == LoadLuminance(Width(h), Height(h), h, body);
    } else {
      assert d == LoadLuminanceRle(Width(h), Height(h), h, body);
    }
  }

  /** A colour-mapped file with a nonzero descriptor byte is rejected; the
      two colour-mapped loaders word the message differently. */
  lemma LoadRejectsMappedDescriptor(filename: string, h: Header, body: seq<bv8>)
    requires h[2] == 1 || h[2] == 9
    requires h[17] != 0
    requires 0 < Width(h) && 0 < Height(h) && Width(h) * Height(h) <= IntMax
    ensures Load(filename, Some(h + body))
         == Thrown(InFile(filename, if h[2] == 1 then InvalidDescriptor else InvalidDescriptorByte))
  {
    LoadDispatches(filename, h, body);
  }

  // ---------------------------------------------------------------------
  // Uncompressed pixels

  /** With no colour map and an ID field under 128 bytes, the unmapped and
      luminance loaders skip exactly the ID field. */
  lemma UnmappedSkipIdOnly(h: Header)
    requires h[1] == 0 && h[0] < 0x80
    ensures UnmappedSkip(h) == h[0] as nat
  {
    SkipOfId(Signed(h[0]), Signed(h[1]), MapBlock(h));
  }

  lemma SkipOfId(id: int, flag: int, block: int)
    requires 0 <= id < 0x80 && flag == 0
    ensures (id + flag * block) % 0x1_0000_0000 == id
  {
  }

  lemma DirectCopies(width: nat, height: nat, h: Header, pixels: seq<bv8>, tail: seq<bv8>, pf: nat)
    requires !FlipBit(h) && width * height * pf <= IntMax && |pixels| == width * height * pf
    ensures Direct(width, height, h, pixels + tail, pf) == Done(Decoded(pf, pixels))
  {
    assert (pixels + tail)[..width * height * pf] == pixels;
  }

  lemma AreaBound(width: nat, height: nat, pf: nat)
    requires 1 <= pf && width * height * pf <= IntMax
    ensures width * height <= IntMax
  {
    assert width * height <= width * height * pf;
  }

  /** The type codes and depths whose pixels are stored as they are kept. */
  predicate Verbatim(h: Header)
  {
    || (h[2] == TypeRgb && (h[16] == 24 || h[16] == 32))
    || (h[2] == TypeLuminance && (h[16] == 8 || h[16] == 16))
  }

  lemma DispatchCopies(filename: string, width: nat, height: nat, h: Header,
                       id: seq<bv8>, pixels: seq<bv8>, tail: seq<bv8>)
    requires Verbatim(h)
    requires h[1] == 0 && h[0] < 0x80 && |id| == h[0] as nat && !FlipBit(h)
    requires width * height * (h[16] >> 3) as nat <= IntMax
    requires |pixels| == width * height * (h[16] >> 3) as nat
    ensures Dispatch(filename, width, height, h, id + pixels + tail) == Done(Decoded((h[16] >> 3) as nat, pixels))
  {
    var stream := id + pixels + tail;
    UnmappedSkipIdOnly(h);
    SkipPrefix(id, pixels + tail);
    assert stream == id + (pixels + tail);
    DirectCopies(width, height, h, pixels, tail, (h[16] >> 3) as nat);
    if h[2] == TypeRgb {
      assert Dispatch(filename, width, height, h, stream) == LoadUnmapped(width, height, h, stream);
    } else {
      assert Dispatch(filename, width, height, h, stream) == LoadLuminance(width, height, h, stream);
    }
  }

  /** An uncompressed 24 or 32-bit truecolor or 8 or 16-bit luminance file
      with no colour map, not flipped, is loaded with its pixels exactly as
      stored after the ID field; the pixel format is the depth in bytes. */
  lemma LoadCopiesPixels(filename: string, h: Header, id: seq<bv8>, pixels: seq<bv8>, tail: seq<bv8>)
    requires Verbatim(h)
    requires h[1] == 0 && h[0] < 0x80 && |id| == h[0] as nat && !FlipBit(h)
    requires 0 < Width(h) && 0 < Height(h)
    requires Width(h) * Height(h) * (h[16] >> 3) as nat <= IntMax
    requires |pixels| == Width(h) * Height(h) * (h[16] >> 3) as nat
    ensures Load(filename, Some(h + id + pixels + tail))
         == Done(Image(Width(h), Height(h), (h[16] >> 3) as nat, pixels))
  {
    Regroup(h, id, pixels, tail);
    AreaBound(Width(h), Height(h), (h[16] >> 3) as nat);
    LoadDispatches(filename, h, id + pixels + tail);
    DispatchCopies(filename, Width(h), Height(h), h, id, pixels, tail);
  }

  lemma ExpandWordsPrefix(words: seq<bv8>, tail: seq<bv8>, count: nat)
    requires |words| == 2 * count
    ensures ExpandWords(words + tail, count) == Done(Words555(words, count))
  {
    assert (words + tail)[..2 * count] == words;
  }

  lemma UnmappedExpandsWords(width: nat, height: nat, h: Header,
                             skipped: seq<bv8>, words: seq<bv8>, tail: seq<bv8>)
    requires h[16] == 16 && !FlipBit(h) && |skipped| == UnmappedSkip(h)
    requires width * height * 3 <= IntMax && |words| == 2 * (width * height)
    ensures LoadUnmapped(width, height, h, skipped + (words + tail))
         == Done(Decoded(PixelFormatBgr, Words555(words, width * height)))
  {
    SkipPrefix(skipped, words + tail);
    ExpandWordsPrefix(words, tail, width * height);
  }

  lemma DispatchExpandsWords(filename: string, width: nat, height: nat, h: Header,
                             id: seq<bv8>, words: seq<bv8>, tail: seq<bv8>)
    requires h[2] == TypeRgb && h[16] == 16
    requires h[1] == 0 && h[0] < 0x80 && |id| == h[0] as nat && !FlipBit(h)
    requires width * height * 3 <= IntMax && |words| == 2 * (width * height)
    ensures Dispatch(filename, width, height, h, id + words + tail) == Done(Decoded(PixelFormatBgr, Words555(words, width * height)))
  {
    UnmappedSkipIdOnly(h);
    UnmappedExpandsWords(width, height, h, id, words, tail);
    Regroup(h, id, words, tail);
  }

  /** An uncompressed 16-bit truecolor file with no colour map, not
      flipped, is loaded as BGR: every stored word expanded to three bytes. */
  lemma LoadExpandsWords(filename: string, h: Header, id: seq<bv8>, words: seq<bv8>, tail: seq<bv8>)
    requires h[2] == TypeRgb && h[16] == 16
    requires h[1] == 0 && h[0] < 0x80 && |id| == h[0] as nat && !FlipBit(h)
    requires 0 < Width(h) && 0 < Height(h) && Width(h) * Height(h) * 3 <= IntMax
    requires |words| == 2 * (Width(h) * Height(h))
    ensures Load(filename, Some(h + id + words + tail))
         == Done(Image(Width(h), Height(h), PixelFormatBgr, Words555(words, Width(h) * Height(h))))
  {
    Regroup(h, id, words, tail);
    AreaBound(Width(h), Height(h), 3);
    LoadDispatches(filename, h, id + words + tail);
    DispatchExpandsWords(filename, Width(h), Height(h), h, id, words, tail);
  }

  // ---------------------------------------------------------------------
  // Run-length types against their plain counterparts

  lemma RleMatchesDirect(width: nat, height: nat, h: Header, ps: seq<Rle.Packet>, pf: nat,
                         tail: seq<bv8>, rawTail: seq<bv8>)
    requires Rle.ValidPackets(ps, pf) && Rle.Total(ps) == width * height
    ensures DirectRle(width, height, h, Rle.EncodeAll(ps, pf) + tail, pf)
         == Direct(width, height, h, Rle.ElementsAll(ps) + rawTail, pf)
  {
    Rle.ExpandEncoded(ps, pf, tail);
    Rle.ElementsLength(ps, pf);
    assert (Rle.ElementsAll(ps) + rawTail)[..width * height * pf] == Rle.ElementsAll(ps);
  }

  /** Type 10 with 24 or 32-bit pixels decodes to what type 2 gives for the
      elements the packets stand for. */
  lemma UnmappedRleMatchesRaw(width: nat, height: nat, h: Header, skipped: seq<bv8>,
                              ps: seq<Rle.Packet>, tail: seq<bv8>, rawTail: seq<bv8>)
    requires h[16] == 24 || h[16] == 32
    requires |skipped| == UnmappedSkip(h)
    requires Rle.ValidPackets(ps, (h[16] >> 3) as nat) && Rle.Total(ps) == width * height
    ensures LoadUnmappedRle(width, height, h, skipped + Rle.EncodeAll(ps, (h[16] >> 3) as nat) + tail)
         == LoadUnmapped(width, height, h, skipped + Rle.ElementsAll(ps) + rawTail)
  {
    var pf := (h[16] >> 3) as nat;
    SkipPrefix(skipped, Rle.EncodeAll(ps, pf) + tail);
    SkipPrefix(skipped, Rle.ElementsAll(ps) + rawTail);
    assert skipped + Rle.EncodeAll(ps, pf) + tail == skipped + (Rle.EncodeAll(ps, pf) + tail);
    assert skipped + Rle.ElementsAll(ps) + rawTail == skipped + (Rle.ElementsAll(ps) + rawTail);
    RleMatchesDirect(width, height, h, ps, pf, tail, rawTail);
    assert LoadUnmappedRle(width, height, h, skipped + Rle.EncodeAll(ps, pf) + tail)
        == DirectRle(width, height, h, Rle.EncodeAll(ps, pf) + tail, pf);
  }

  /** Type 11 decodes to what type 3 gives for the elements the packets
      stand for. */
  lemma LuminanceRleMatchesRaw(width: nat, height: nat, h: Header, skipped: seq<bv8>,
                               ps: seq<Rle.Packet>, tail: seq<bv8>, rawTail: seq<bv8>)
    requires h[16] == 8 || h[16] == 16
    requires |skipped| == UnmappedSkip(h)
    requires Rle.ValidPackets(ps, (h[16] >> 3) as nat) && Rle.Total(ps) == width * height
    ensures LoadLuminanceRle(width, height, h, skipped + Rle.EncodeAll(ps, (h[16] >> 3) as nat) + tail)
         == LoadLuminance(width, height, h, skipped + Rle.ElementsAll(ps) + rawTail)
  {
    var pf := (h[16] >> 3) as nat;
    var packed := Rle.EncodeAll(ps, pf) + tail;
    var plain := Rle.ElementsAll(ps) + rawTail;
    assert skipped + Rle.EncodeAll(ps, pf) + tail == skipped + packed;
    assert skipped + Rle.ElementsAll(ps) + rawTail == skipped + plain;
    SkipPrefix(skipped, packed);
    SkipPrefix(skipped, plain);
    assert LoadLuminanceRle(width, height, h, skipped + packed) == DirectRle(width, height, h, packed, pf);
    assert LoadLuminance(width, height, h, skipped + plain) == Direct(width, height, h, plain, pf);
    RleMatchesDirect(width, height, h, ps, pf, tail, rawTail);
  }

  /** The index bytes after the colour map, as the two colour-mapped
      loaders see them: stored plainly, or as packets followed by anything. */
  lemma MappedIndices(width: nat, height: nat, h: Header, cmap: seq<bv8>, indices: seq<bv8>,
                      rle: bool, stream: seq<bv8>)
    requires MappedChecks(h, "").None? && EntrySize(h) != 2
    requires |cmap| == MapLength(h) * EntrySize(h)
    requires width * height * EntrySize(h) <= IntMax && BytesPerIndex(h) <= 4
    requires (if rle then Rle.Expand(stream, width * height, BytesPerIndex(h)) else Done(stream)) == Done(indices)
    ensures Mapped(width, height, h, cmap + stream, rle)
         == (var pixels := Indexed(cmap, MapLength(h), EntrySize(h), indices, BytesPerIndex(h), width * height);
             if pixels.Done? then Done(Decoded(EntrySize(h), pixels.value)) else Undefined)
  {
    assert (cmap + stream)[..|cmap|] == cmap;
    assert (cmap + stream)[|cmap|..] == stream;
  }

  /** Type 9 decodes to what type 1 gives for the indices the packets
      stand for: the same colour map, the same lookups. */
  lemma ColourMappedRleMatchesRaw(width: nat, height: nat, h: Header, skipped: seq<bv8>, cmap: seq<bv8>,
                                  ps: seq<Rle.Packet>, tail: seq<bv8>, rawTail: seq<bv8>)
    requires h[17] == 0
    requires |skipped| == MappedSkip(h)
    requires 2 <= EntrySize(h) <= 4 && |cmap| == MapLength(h) * EntrySize(h)
    requires Rle.ValidPackets(ps, BytesPerIndex(h)) && Rle.Total(ps) == width * height
    ensures LoadColourMappedRle(width, height, h, skipped + cmap + Rle.EncodeAll(ps, BytesPerIndex(h)) + tail)
         == LoadColourMapped(width, height, h, skipped + cmap + Rle.ElementsAll(ps) + rawTail)
  {
    var bpi := BytesPerIndex(h);
    var packed := Rle.EncodeAll(ps, bpi) + tail;
    var plain := Rle.ElementsAll(ps) + rawTail;
    Regroup(skipped, cmap, Rle.EncodeAll(ps, bpi), tail);
    Regroup(skipped, cmap, Rle.ElementsAll(ps), rawTail);
    SkipPrefix(skipped, cmap + packed);
    SkipPrefix(skipped, cmap + plain);
    if MappedChecks(h, "").None? && EntrySize(h) != 2 && width * height * EntrySize(h) <= IntMax && bpi <= 4 {
      Rle.ExpandEncoded(ps, bpi, tail);
      Rle.ElementsLength(ps, bpi);
      MappedIndices(width, height, h, cmap, Rle.ElementsAll(ps), true, packed);
      MappedIndices(width, height, h, cmap, plain, false, plain);
      IndexedIgnoresTail(cmap, MapLength(h), EntrySize(h), Rle.ElementsAll(ps), rawTail, bpi, width * height);
    }
  }

  /** In a colour-mapped file that loads, pixel `i` is the colour-map entry
      that index `i` names; `len`, `pf` and `bpi` are the map length, the
      entry size and the index size the header gives, `offset` is where
      pixel `i` starts. */
  lemma ColourMappedPixel(width: nat, height: nat, h: Header, skipped: seq<bv8>, cmap: seq<bv8>,
                          indices: seq<bv8>, len: nat, pf: nat, bpi: nat, stream: seq<bv8>, pixels: seq<bv8>,
                          count: nat, i: nat, offset: nat)
    requires len == MapLength(h) && pf == EntrySize(h) && bpi == BytesPerIndex(h)
    requires |skipped| == MappedSkip(h) && |cmap| == len * pf
    requires stream == skipped + cmap + indices
    requires LoadColourMapped(width, height, h, stream) == Done(Decoded(pf, pixels))
    requires i < count && count == width * height && offset == i * pf
    ensures (i + 1) * bpi <= |indices|
    ensures MapOffset(IndexAt(indices, bpi, i), pf) + pf <= |cmap|
    ensures offset + pf <= |pixels|
    ensures pixels[offset..offset + pf] == Lookup(cmap, pf, IndexAt(indices, bpi, i))
  {
    ColourMappedLooksUp(width, height, h, skipped, cmap, indices, len, pf, bpi, stream, pixels, count);
    IndexedAt(cmap, len, pf, indices, bpi, count, i);
  }

  /** With indices of at most 24 bits the offset cannot wrap: in a type-1
      file that loads, pixel `i` is the entry its index names, and that
      index is inside the map. */
  lemma ColourMappedPixelNarrow(width: nat, height: nat, h: Header, skipped: seq<bv8>, cmap: seq<bv8>,
                                indices: seq<bv8>, len: nat, pf: nat, bpi: nat, stream: seq<bv8>, pixels: seq<bv8>,
                                count: nat, i: nat, offset: nat)
    requires len == MapLength(h) && pf == EntrySize(h) && bpi == BytesPerIndex(h) && bpi <= 3
    requires |skipped| == MappedSkip(h) && |cmap| == len * pf
    requires stream == skipped + cmap + indices
    requires LoadColourMapped(width, height, h, stream) == Done(Decoded(pf, pixels))
    requires i < count && count == width * height && offset == i * pf
    ensures (i + 1) * bpi <= |indices|
    ensures IndexAt(indices, bpi, i) < len
    ensures offset + pf <= |pixels|
    ensures pixels[offset..offset + pf] == Entry(cmap, len, pf, IndexAt(indices, bpi, i))
  {
    ColourMappedPixel(width, height, h, skipped, cmap, indices, len, pf, bpi, stream, pixels, count, i, offset);
    NarrowPixel(cmap, len, pf, indices, bpi, i, pixels, offset);
  }

  lemma NarrowPixel(cmap: seq<bv8>, len: nat, pf: nat, indices: seq<bv8>, bpi: nat, i: nat,
                    pixels: seq<bv8>, offset: nat)
    requires |cmap| == len * pf && 0 < pf <= 4 && bpi <= 3 && (i + 1) * bpi <= |indices|
    requires MapOffset(IndexAt(indices, bpi, i), pf) + pf <= |cmap|
    requires offset + pf <= |pixels|
    requires pixels[offset..offset + pf] == Lookup(cmap, pf, IndexAt(indices, bpi, i))
    ensures IndexAt(indices, bpi, i) < len
    ensures pixels[offset..offset + pf] == Entry(cmap, len, pf, IndexAt(indices, bpi, i))
  {
    NarrowIndex(cmap, len, pf, indices[i * bpi..i * bpi + bpi]);
  }

  /** The pixels of a type-1 file that loads are the lookups of its
      indices in its colour map. */
  lemma ColourMappedLooksUp(width: nat, height: nat, h: Header, skipped: seq<bv8>, cmap: seq<bv8>,
                            indices: seq<bv8>, len: nat, pf: nat, bpi: nat, stream: seq<bv8>, pixels: seq<bv8>,
                            count: nat)
    requires len == MapLength(h) && pf == EntrySize(h) && bpi == BytesPerIndex(h) && count == width * height
    requires |skipped| == MappedSkip(h) && |cmap| == len * pf
    requires stream == skipped + cmap + indices
    requires LoadColourMapped(width, height, h, stream) == Done(Decoded(pf, pixels))
    ensures Indexed(cmap, len, pf, indices, bpi, count) == Done(pixels)
  {
    LoadColourMappedSkips(width, height, h, skipped, cmap, indices, stream);
    MappedLooksUp(width, height, h, cmap, indices, count, pixels);
  }

  lemma LoadColourMappedSkips(width: nat, height: nat, h: Header, skipped: seq<bv8>, cmap: seq<bv8>,
                              indices: seq<bv8>, stream: seq<bv8>)
    requires |skipped| == MappedSkip(h) && stream == skipped + cmap + indices
    requires !LoadColourMapped(width, height, h, stream).Thrown?
    ensures MappedChecks(h, "").None?
    ensures LoadColourMapped(width, height, h, stream) == Mapped(width, height, h, cmap + indices, false)
  {
    assert stream == skipped + (cmap + indices);
    SkipPrefix(skipped, cmap + indices);
  }

  lemma MappedLooksUp(width: nat, height: nat, h: Header, cmap: seq<bv8>, indices: seq<bv8>,
                      count: nat, pixels: seq<bv8>)
    requires MappedChecks(h, "").None? && count == width * height
    requires |cmap| == MapLength(h) * EntrySize(h)
    requires Mapped(width, height, h, cmap + indices, false) == Done(Decoded(EntrySize(h), pixels))
    ensures Indexed(cmap, MapLength(h), EntrySize(h), indices, BytesPerIndex(h), count) == Done(pixels)
  {
    MappedIndices(width, height, h, cmap, indices, false, indices);
  }

  // ---------------------------------------------------------------------
  // Flipping

  /** With bit 5 of the descriptor set, a loader's pixels stay inside the
      buffer exactly when the image is one row taller than it is wide. */
  lemma FinishFlipDefined(width: nat, height: nat, h: Header, pf: nat, pixels: seq<bv8>)
    requires FlipBit(h) && 0 < height && |pixels| == width * height * pf
    ensures Finish(width, height, h, pf, pixels).Done? <==> width + 1 == height
  {
    FlipDefined(pixels, width, height, pf);
  }

  /** There, the flip turns the rows upside down. */
  lemma FinishFlipMirrors(width: nat, height: nat, h: Header, pf: nat, pixels: seq<bv8>)
    requires FlipBit(h) && width + 1 == height && |pixels| == width * height * pf
    ensures |pixels| == (width * pf) * height
    ensures Finish(width, height, h, pf, pixels) == Done(Decoded(pf, Mirror(pixels, width * pf, height)))
  {
    FlipIsMirror(pixels, width, height, pf);
  }

  lemma DispatchFlips(filename: string, width: nat, height: nat, pf: nat, h: Header,
                      id: seq<bv8>, pixels: seq<bv8>, tail: seq<bv8>)
    requires Verbatim(h) && FlipBit(h) && pf == (h[16] >> 3) as nat
    requires h[1] == 0 && h[0] < 0x80 && |id| == h[0] as nat
    requires width * height * pf <= IntMax && |pixels| == width * height * pf
    ensures Dispatch(filename, width, height, h, id + pixels + tail) == Finish(width, height, h, pf, pixels)
  {
    var stream := id + pixels + tail;
    UnmappedSkipIdOnly(h);
    SkipPrefix(id, pixels + tail);
    assert stream == id + (pixels + tail);
    assert (pixels + tail)[..width * height * pf] == pixels;
    if h[2] == TypeRgb {
      assert Dispatch(filename, width, height, h, stream) == LoadUnmapped(width, height, h, stream);
    } else {
      assert Dispatch(filename, width, height, h, stream) == LoadLuminance(width, height, h, stream);
    }
  }

  /** A verbatim file with bit 5 of the descriptor set that is not one
      row taller than wide makes the flip read outside the buffer;
      `width`, `height` and `pf` are the dimensions and depth the header
      gives. */
  lemma LoadFlipsUndefined(filename: string, h: Header, id: seq<bv8>, pixels: seq<bv8>, tail: seq<bv8>,
                           width: nat, height: nat, pf: nat)
    requires Verbatim(h) && FlipBit(h)
    requires width == Width(h) && height == Height(h) && pf == (h[16] >> 3) as nat
    requires h[1] == 0 && h[0] < 0x80 && |id| == h[0] as nat
    requires 0 < width && 0 < height && width * height * pf <= IntMax
    requires |pixels| == width * height * pf && width + 1 != height
    ensures Load(filename, Some(h + id + pixels + tail)) == Undefined
  {
    LoadFlipsFinish(filename, h, id, pixels, tail, width, height, pf);
    FinishFlipDefined(width, height, h, pf, pixels);
  }

  /** A verbatim file with bit 5 of the descriptor set that is one row
      taller than wide loads bottom row first. */
  lemma LoadFlipsRows(filename: string, h: Header, id: seq<bv8>, pixels: seq<bv8>, tail: seq<bv8>,
                      width: nat, height: nat, pf: nat, rowLen: nat)
    requires Verbatim(h) && FlipBit(h)
    requires width == Width(h) && height == Height(h) && pf == (h[16] >> 3) as nat
    requires h[1] == 0 && h[0] < 0x80 && |id| == h[0] as nat
    requires 0 < width && height == width + 1 && width * height * pf <= IntMax
    requires rowLen == width * pf && |pixels| == rowLen * height
    ensures Load(filename, Some(h + id + pixels + tail))
         == Done(Image(width, height, pf, Mirror(pixels, rowLen, height)))
  {
    RowsOfPixels(width, height, pf);
    LoadFlipsFinish(filename, h, id, pixels, tail, width, height, pf);
    FinishFlipMirrors(width, height, h, pf, pixels);
  }

  lemma LoadFlipsFinish(filename: string, h: Header, id: seq<bv8>, pixels: seq<bv8>, tail: seq<bv8>,
                        width: nat, height: nat, pf: nat)
    requires Verbatim(h) && FlipBit(h)
    requires width == Width(h) && height == Height(h) && pf == (h[16] >> 3) as nat
    requires h[1] == 0 && h[0] < 0x80 && |id| == h[0] as nat
    requires 0 < width && 0 < height && width * height * pf <= IntMax
    requires |pixels| == width * height * pf
    ensures Load(filename, Some(h + id + pixels + tail))
         == Rewrap(filename, width, height, Finish(width, height, h, pf, pixels))
  {
    Regroup(h, id, pixels, tail);
    AreaBound(width, height, pf);
    LoadDispatches(filename, h, id + pixels + tail);
    DispatchFlips(filename, width, height, pf, h, id, pixels, tail);
  }

  // ---------------------------------------------------------------------
  // Small files

  /** A header with no ID field and no colour map. */
  function SimpleHeader(imageType: bv8, width: bv8, height: bv8, depth: bv8, descriptor: bv8): (h: Header)
    ensures h[0] == 0 && h[1] == 0 && h[2] == imageType
    ensures Width(h) == width as nat && Height(h) == height as nat
    ensures h[16] == depth && h[17] == descriptor
  {
    var h: Header := [0, 0, imageType, 0, 0, 0, 0, 0, 0, 0, 0, 0, width, 0, height, 0, depth, descriptor];
    WidthUnpacked(h);
    HeightUnpacked(h);
    h
  }

  /** A 2x2 24-bit truecolor file with a zero descriptor loads as its
      twelve pixel bytes, BGR. */
  lemma LoadTwoByTwo(filename: string, pixels: seq<bv8>)
    requires |pixels| == 12
    ensures Load(filename, Some(SimpleHeader(2, 2, 2, 24, 0) + pixels)) == Done(Image(2, 2, 3, pixels))
  {
    var h := SimpleHeader(2, 2, 2, 24, 0);
    assert h + [] + pixels + [] == h + pixels;
    assert Verbatim(h) && !FlipBit(h);
    LoadCopiesPixels(filename, h, [], pixels, []);
  }

  /** The same file with the flip bit set reads rows 2 and 1 of a
      two-row buffer: outside it. */
  lemma LoadTwoByTwoFlipped(filename: string, pixels: seq<bv8>)
    requires |pixels| == 12
    ensures Load(filename, Some(SimpleHeader(2, 2, 2, 24, 0x20) + pixels)) == Undefined
  {
    var h := SimpleHeader(2, 2, 2, 24, 0x20);
    assert h + [] + pixels + [] == h + pixels;
    assert Verbatim(h) && FlipBit(h);
    LoadFlipsUndefined(filename, h, [], pixels, [], 2, 2, 3);
  }

  lemma RunPacketDecodes(h: Header, b: bv8, g: bv8, r: bv8)
    requires h[16] == 24 && !FlipBit(h) && UnmappedSkip(h) == 0
    ensures LoadUnmappedRle(2, 1, h, [0x81, b, g, r]) == Done(Decoded(3, [b, g, r, b, g, r]))
  {
    var ps := [Rle.Run(2, [b, g, r])];
    assert Rle.ValidPackets(ps, 3);
    assert Rle.EncodeAll(ps, 3) == [0x81, b, g, r];
    assert Rle.Repeat([b, g, r], 2) == [b, g, r] + Rle.Repeat([b, g, r], 1);
    assert Rle.Repeat([b, g, r], 1) == [b, g, r] + Rle.Repeat([b, g, r], 0);
    assert Rle.ElementsAll(ps) == [b, g, r, b, g, r];
    UnmappedRleMatchesRaw(2, 1, h, [], ps, [], []);
    assert [] + [0x81, b, g, r] + [] == [0x81, b, g, r];
    assert [] + [b, g, r, b, g, r] + [] == [b, g, r, b, g, r];
    DirectCopies(2, 1, h, [b, g, r, b, g, r], [], 3);
  }

  /** A 2x1 type-10 file holding one run packet `0x81` and one BGR pixel
      loads as that pixel twice. */
  lemma LoadRunPacket(filename: string, b: bv8, g: bv8, r: bv8)
    ensures Load(filename, Some(SimpleHeader(10, 2, 1, 24, 0) + [0x81, b, g, r]))
         == Done(Image(2, 1, 3, [b, g, r, b, g, r]))
  {
    var h := SimpleHeader(10, 2, 1, 24, 0);
    RunPacketDecodes(h, b, g, r);
    LoadDispatches(filename, h, [0x81, b, g, r]);
  }

  /** Type code 4 is not one the loader knows. */
  lemma LoadTypeFour(filename: string, body: seq<bv8>)
    ensures Load(filename, Some(SimpleHeader(4, 1, 1, 24, 0) + body))
         == Thrown(InFile(filename, InFile(filename, UnknownType)))
  {
    LoadRejectsUnknownType(filename, SimpleHeader(4, 1, 1, 24, 0), body);
  }
}
